=== FILE: README.md ===
# Vault contract model

A Dafny model of the vault contract of a perpetual-exchange protocol written
for CosmWasm. The vault keeps per-token pools, reservations, USDG debt and fee
reserves. It keeps leveraged long and short positions keyed by (account,
collateral token, index token, direction). Its operations are:

- governance setters;
- minting and redeeming the USDG stable token;
- swaps;
- increasing, decreasing and liquidating positions;
- read-only queries.

The model follows the code of `vault/src/contract.rs` and the stored types of
`Vault/src/state.rs` as written.

- **Storage.** The storage is the class `Contract.Vault`, with one field per
  storage namespace. A helper that saves an entry is a method that modifies
  exactly that field. A helper that only loads is a function.
- **Reverts.** Every entry point either succeeds with the new storage or fails
  with the storage unchanged. The chain reverts all writes of a failed call,
  and each `X` method restores what its `XSteps` method wrote.
- **Errors.** A failed call is either an `Err` the contract returns or an
  `Abort` for a panic: `unwrap` of an error, a `u128` subtraction below zero,
  or a division by zero.
- **Arithmetic.** Module `VaultMath` holds the pure arithmetic. Its lemmas are
  the properties proved about it.

Where the contract's behaviour differs from what the protocol describes, the
model follows the code. Each such quirk has a comment beside the member that
models it:

- **Increase.** `try_increase_position` never adds to a position's size,
  collateral or reservation, because the sums are computed and discarded. A
  success only re-prices the position, resets its entry funding rate and
  records the time. A short also resets the global short average price to 0.
- **Decrease.** `try_decrease_position` removes the position on a partial
  decrease and keeps it unchanged on a full close.
- **Discarded updates.** These helpers compute new values and then save the old
  entry back or nothing at all: the pool, reservation, guaranteed-USD and
  global-short-size helpers, the fee-reserve updates, and the zero floors of
  `_decrease_usdg_amount` and `decrease_global_short_size`. So those entries
  never change.
- **Funding.** The number of funding intervals is `now - last / interval`:
  the method chain subtracts `last / interval` from `now` instead of dividing
  the time elapsed by the interval, so the count is at least the time
  elapsed. The cumulative funding rate is never written.
- **`adjust_for_decimals`.** It truncates `10^mul / 10^div` before
  multiplying, so a downward conversion gives 0.
- **Swap fee.** `_collect_swap_fees` takes `fee_bps` basis points of a single
  unit, not of the amount.
- **Prices.** Prices are hard-coded: 1 from `get_max_price`/`get_min_price`,
  0 for longs in `get_delta`, 0 as the input price of buys and swaps. As a
  result `try_buy_usdg` never succeeds: once its checks pass it stops at
  code 18. A swap moves nothing.
- **Setter bounds.**
  - `try_set_fees` holds the liquidation fee (a USD amount) to the
    basis-point maximum 500.
  - `try_set_funding_rate` requires the interval to be AT MOST one hour.
  - The initial 8-hour interval therefore cannot be set again.
- **Global short size.** `increase_global_short_size` errs when the size is
  within its maximum; the comparison is inverted. `try_decrease_position`
  decreases the global short size for longs.
- **Token config.** `try_set_token_config` loads every per-token entry with
  `?`, so it can only reconfigure a token that already has them. It saves
  `min_profit_bps` as the maximum USDG amount.
- **Routers.** `try_add_routers` and `try_remove_routers` are open to anyone
  and approve or revoke the SENDER. The two router maps share one namespace.
- **`try_set_usdg_amount`.** It adds the requested amount to the debt, or
  subtracts it; it does not set the debt to that amount.
- **Transfers.** `_transfer_out` builds a message that is discarded, so no
  payout is ever sent.
- **Invariants.**
  - Reserved within pool: every helper that would move a pool or a
    reservation computes the new amount and discards it, then saves the old
    one (vault/src/contract.rs:1897-1901, 1935-1938, 2199-2203, 2217-2220).
    So no entry point breaks `reserved <= pool` for any token. This is
    `ReservedWithinPool`, and the entry points that write either map
    preserve it.
  - Pool covers buffer: `try_set_buffer_amount`
    (vault/src/contract.rs:532-548) stores any amount without comparing it
    with the pool. A buffer above the pool breaks `BuffersCovered`; this is
    the one way to break it, since nothing else writes the buffers and the
    pools never move. `SetBufferAmount` states both cases.
  - The total token weight does track the sum of the per-token weights; this
    is proved as `WeightsAccounted`.

## Model

| member | source | states |
|---|---|---|
| Outcomes.DecimalString | vault/src/contract.rs:1609-1616 | the rendering of a code is non-empty, one character exactly for numbers below 10, ends in the last decimal digit and starts with the rendering of the number over 10 |
| Outcomes.DecimalStringInjective | vault/src/contract.rs:1609-1616 | two numbers with the same decimal rendering are equal |
| Outcomes.CodeErrorInjective | vault/src/contract.rs:1609-1616 | distinct codes give distinct "Error code: N" errors, so a failure names its check |
| Outcomes.Validate | vault/src/contract.rs:1609-1616 | succeeds exactly when the condition holds, and otherwise errs with the code's custom error |
| State.NewKey | Vault/src/state.rs:79-86 | the key holds its four arguments in order |
| State.NewKeyInjective | Vault/src/state.rs:64-86 | two positions share a key only when account, collateral token, index token and direction all agree |
| State.AsBytes | Vault/src/state.rs:88-96 | succeeds exactly when serialisation does, with its bytes; otherwise SerializationFailed naming the first two key parts |
| State.AsBytesStd | Vault/src/state.rs:98-106 | the same, failing with the standard serialisation error whose message names the first two key parts |
| State.FromBytes | Vault/src/state.rs:108-113 | succeeds exactly when deserialisation does, with its key; otherwise DeserializationFailed |
| Weights.SumWithout | Vault/src/state.rs:40 | the sum of the weights is any one token's weight plus the sum of the others |
| Weights.SumAfterRemove | vault/src/contract.rs:701 | removing a token takes exactly its weight off the sum, and its weight is at most the sum |
| Weights.SumAfterUpdate | vault/src/contract.rs:658-669 | overwriting a token's weight moves the sum by the difference of the new and old weight |
| VaultMath.PowerQuotient | vault/src/contract.rs:1843-1870 | the truncated quotient 10^mul / 10^div is 10^(mul-div) going up and 0 going down |
| VaultMath.AdjustForDecimals | vault/src/contract.rs:1843-1870 | an upward conversion multiplies by 10^(mul-div); a downward one gives 0 |
| VaultMath.AdjustForDecimalsRoundTrip | vault/src/contract.rs:1843-1870 | converting there and back returns the amount for equal decimals and 0 otherwise |
| VaultMath.AdjustForDecimalsUpNotSmaller | vault/src/contract.rs:1843-1870 | an upward conversion never decreases an amount |
| VaultMath.UsdToToken | vault/src/contract.rs:2160-2172 | fails (division by zero) exactly for a zero price and a non-zero amount; 0 USD is 0 tokens; the tokens times the price never exceed the scaled USD; at price 1 the conversion is exact |
| VaultMath.UsdToTokenMin | vault/src/contract.rs:2146-2151 | at the stub price the amount is scaled by 10^decimals exactly |
| VaultMath.TokenToUsdMin | vault/src/contract.rs:2174-2182 | every token amount is worth 0 USD at the hard-coded price |
| VaultMath.RawDelta | vault/src/contract.rs:2066-2117 | the delta is the floor of size times the price distance over the average price |
| VaultMath.GetDelta | vault/src/contract.rs:2066-2117 | fails exactly for a zero average price; has_profit is the price moving in the position's favour; the delta is the raw delta except that, exactly for a profit within min_profit_bps inside the minimum-profit window, it is 0 |
| VaultMath.LongDeltaAtMarkPrice | vault/src/contract.rs:2066-2117 | at the hard-coded mark price 0 every long shows a loss of its whole size |
| VaultMath.LongLossBoundedBySize | vault/src/contract.rs:2066-2117 | a long's loss never exceeds its size |
| VaultMath.NextAverageDivisor | vault/src/contract.rs:2027-2064 | the divisor is the new size plus the delta for a profitable long or losing short, and the new size minus it otherwise (failing below zero) |
| VaultMath.GetNextAveragePrice | vault/src/contract.rs:2027-2064 | succeeds exactly for a non-zero divisor, with the floor of next price times next size over the divisor; with no delta the average is the next price |
| VaultMath.NextAveragePriceDirection | vault/src/contract.rs:2027-2064 | a profitable long or losing short averages at or below the new price, the other cases at or above it |
| VaultMath.NextAveragePriceAtZero | vault/src/contract.rs:2027-2064 | at the new price 0 any computable average is 0 |
| VaultMath.LongNextAveragePrice | vault/src/contract.rs:2027-2064 | a long re-priced at 1 after its full-size loss averages at the new size over the size added, at least 1 |
| VaultMath.ShortNextAveragePriceDefined | vault/src/contract.rs:2027-2064 | a non-empty short with a non-zero average price re-priced at 0 always has a next average: the divisor never drops to zero |
| VaultMath.GlobalShortDivisor | vault/src/contract.rs:2259-2288 | the divisor is the grown size plus the delta when the price did not fall below the average, and the grown size minus the delta otherwise, failing exactly when the delta exceeds it |
| VaultMath.GetNextGlobalShortAveragePrice | vault/src/contract.rs:2259-2288 | a zero average price fails with division by zero; otherwise succeeds exactly when GlobalShortDivisor gives a non-zero divisor, and the result is the floor of next price times next size over it |
| VaultMath.GlobalShortAverageAtZeroPrice | vault/src/contract.rs:2259-2288 | at the new price 0 the computation succeeds exactly when the average price and the size added are non-zero, and then gives 0 |
| VaultMath.FundingIntervals | vault/src/contract.rs:1808-1841 | a zero interval fails; otherwise the count is at most the block time, and for interval 1 it is the time elapsed; for any interval it is at least the time elapsed, since `last / interval` is subtracted from `now` |
| VaultMath.FundingRate | vault/src/contract.rs:1808-1841 | the rate times the pool never exceeds factor times reserved times intervals |
| VaultMath.FundingRateBounded | vault/src/contract.rs:1808-1841 | while the reservation fits in the pool, the rate is at most the factor per interval |
| VaultMath.FundingBucket | vault/src/contract.rs:1754-1806 | the recorded time is the block time rounded down to a multiple of the interval: at most the block time and less than one interval before it |
| VaultMath.SwapAmountAfterFees | vault/src/contract.rs:1872-1887 | fails exactly when the fee exceeds amount times 10000; never exceeds the amount; no fee keeps the amount; any fee up to 10000 bps takes exactly one unit |
| VaultMath.ValidatePosition | vault/src/contract.rs:2184-2190 | passes exactly when the collateral is at most the size; panics with code 39 for an empty position, 40 otherwise |
| VaultMath.ValidateFees | vault/src/contract.rs:568-605 | passes exactly when all six basis-point fees and the liquidation fee are at most 500; an excessive tax fails with code 3 |
| VaultMath.MaxLiquidationFeeRefused | vault/src/contract.rs:568-605 | the documented maximum liquidation fee of 100 USD is refused with code 9 |
| VaultMath.ValidateFundingRate | vault/src/contract.rs:607-628 | passes exactly when the interval is at most 3600 and both factors at most 10000; a longer interval fails with code 10 |
| VaultMath.ValidateMaxLeverage | vault/src/contract.rs:515-530 | passes exactly for a leverage above 1x, failing with code 2 otherwise |
| VaultMath.AdjustedDelta | vault/src/contract.rs:2359-2375 | fails exactly for an empty position; a decrease no larger than the size realises at most the whole delta |
| VaultMath.ProportionalShare | vault/src/contract.rs:1245-1249 | the reservation released is at most the reservation, all of it for a full close and none for a zero decrease |
| VaultMath.ReduceCollateralAmounts | vault/src/contract.rs:2329-2427 | an empty position fails; collateral + payout after fee + fee + loss equals old collateral + profit; realised pnl moves by profit minus loss; a loss above the recorded profit fails; a full close leaves no collateral; only collateral and realised pnl change |
| VaultMath.ReductionInPhases | vault/src/contract.rs:2376-2426 | a reduction is its realisation phase followed by its settlement phase |
| VaultMath.LongReductionRealisesLoss | vault/src/contract.rs:2329-2427 | a long realises a loss of exactly the size decrease, so a reduction succeeds only if the recorded profit covers it and the collateral covers it plus the withdrawal |
| VaultMath.Utilisation | vault/src/contract.rs:1462-1472 | 0 for an empty pool, otherwise the floor of reserved per pool in millionths |
| VaultMath.UtilisationBounded | vault/src/contract.rs:1462-1472 | a pool that covers its reservation is at most 100% utilised |
| VaultMath.PositionLeverage | vault/src/contract.rs:1507-1528 | fails (code 37 panic) exactly without collateral; otherwise the floor of size per collateral in basis points |
| VaultMath.ValidPositionLeverageAtLeastOne | vault/src/contract.rs:1507-1528 | a valid position with collateral has leverage at least 1x |
| VaultMath.GlobalShortDelta | vault/src/contract.rs:1530-1554 | an empty book has no delta; otherwise it fails exactly for a zero average price, and the delta is the bare price distance, independent of the size |
| VaultMath.RedemptionCollateral | vault/src/contract.rs:1433-1445 | succeeds exactly when the reservation fits in guaranteed tokens plus pool, and then adds up with the reservation to that sum |
| Contract.TokenBalanceOf | vault/src/contract.rs:1722-1736 | succeeds exactly when the token contract answers, with the holder's balance |
| Contract.FundingTimesAfterUpdate | vault/src/contract.rs:1754-1806 | only the token's time may change; it changes only when a non-zero time is on record and an interval has passed, to a multiple of the interval within one interval of the block time |
| Contract.IncreasedPosition | vault/src/contract.rs:1093-1142 | size, collateral, reservation and realised pnl are kept, validity is preserved, the funding rate reset and the time recorded; a long averages at least 1 and a short 0 |
| Contract.DecreasedPositions | vault/src/contract.rs:1263-1289 | a full close leaves the positions unchanged; a partial decrease removes exactly that position; no other position changes |
| Contract.InitialConfigurationAgainstSetterBounds | vault/src/contract.rs:289-342 | the initial 8-hour funding interval is refused by the funding setter (code 10), while the initial leverage and fees pass their setters' bounds |
| Contract.ConfiguredState | vault/src/contract.rs:630-685 | the total weight trades the old weight for the new one; a new token is counted and appended to the token list; nothing else changes |
| Contract.Vault.constructor | vault/src/contract.rs:39-53 | the sender governs, the vault is not initialized, swaps and leverage are enabled, and nothing else is stored |
| Contract.Vault.OnlyGov | vault/src/contract.rs:1605-1608 | passes exactly for the governor, and panics with code 53 otherwise |
| Contract.Vault.ValidateManager | vault/src/contract.rs:1618-1624 | passes exactly when the configuration and the sender's flag are stored and, in manager mode, the sender is a manager; failures are panics |
| Contract.Vault.ValidateGasPrice | vault/src/contract.rs:1974-1981 | with the gas price hard-coded to 1, passes exactly when a configuration is stored |
| Contract.Vault.ValidateRouter | vault/src/contract.rs:1983-1989 | passes exactly when both flags are stored and the sender's flag is set; failures are panics |
| Contract.Vault.ValidateTokens | vault/src/contract.rs:1991-2015 | passes exactly when a long uses its whitelisted non-stable index token as collateral, or a short uses whitelisted stable collateral on a shortable non-stable index token |
| Contract.Vault.TransferIn | vault/src/contract.rs:1660-1672 | succeeds exactly when the balance did not shrink, with the growth of the contract's balance since the recorded one |
| Contract.Vault.CheckPoolAmount | vault/src/contract.rs:1738-1752 | passes exactly when the recorded pool is covered by the contract's balance, otherwise code 49 |
| Contract.Vault.IncreasePoolAmount | vault/src/contract.rs:1889-1907 | the pool keeps its value and the outcome is the pool-versus-balance check |
| Contract.Vault.DecreasePoolAmount | vault/src/contract.rs:1927-1944 | the pool keeps its value; succeeds exactly when both entries are stored, the amount fits in the pool and the reservation fits in the pool; an excessive amount aborts, an over-reserved pool errs with code 50 |
| Contract.Vault.ValidateBufferAmount | vault/src/contract.rs:1959-1972 | passes exactly when the pool covers the buffer, with the buffer error otherwise |
| Contract.Vault.UpdateTokenBalance | vault/src/contract.rs:1946-1957 | records exactly the balance the swapped query returns, for a token with a recorded balance |
| Contract.Vault.IncreaseUsdgAmount | vault/src/contract.rs:1674-1693 | adds the amount to the debt exactly when a non-zero cap is not exceeded, otherwise code 51 with nothing saved |
| Contract.Vault.DecreaseUsdgAmount | vault/src/contract.rs:1695-1720 | subtracts the amount when the debt exceeds it and otherwise leaves the debt as it was |
| Contract.Vault.IncreaseReservedAmount | vault/src/contract.rs:2192-2209 | the reservation keeps its value; passes exactly when it fits in the pool, otherwise code 52 |
| Contract.Vault.DecreaseReservedAmount | vault/src/contract.rs:2211-2226 | the reservation keeps its value; aborts exactly when the amount exceeds it |
| Contract.Vault.IncreaseGuaranteedUsd | vault/src/contract.rs:2227-2241 | the guaranteed USD keeps its value; only a missing entry aborts |
| Contract.Vault.DecreaseGuaranteedUsd | vault/src/contract.rs:2243-2257 | the guaranteed USD keeps its value; aborts exactly when the amount exceeds it |
| Contract.Vault.IncreaseGlobalShortSize | vault/src/contract.rs:2290-2310 | the size keeps its value; with a non-zero maximum it errs exactly when the size is within the maximum |
| Contract.Vault.DecreaseGlobalShortSize | vault/src/contract.rs:2312-2327 | the size keeps its value; only a missing entry fails |
| Contract.Vault.AdjustForDecimalsOf | vault/src/contract.rs:1843-1870 | succeeds exactly when both tokens' decimals are known (18 for USDG), with the decimal conversion |
| Contract.Vault.UsdToTokenMinOf | vault/src/contract.rs:2146-2151 | 0 USD is 0 tokens without a lookup; otherwise the amount scaled by the token's decimals, panicking when they are missing |
| Contract.Vault.TokenToUsdMinOf | vault/src/contract.rs:2174-2182 | succeeds exactly when the decimals are stored, with 0 |
| Contract.Vault.GetRedemptionAmount | vault/src/contract.rs:1909-1925 | the USDG amount at price precision, converted from 18 decimals to the token's |
| Contract.Vault.CollectSwapFees | vault/src/contract.rs:1872-1887 | succeeds exactly when the fee fits and a fee reserve is stored, with an amount after fees no larger than the amount |
| Contract.Vault.CollectMarginFees | vault/src/contract.rs:2119-2144 | the fee reserves keep their values; succeeds exactly when the reserve is stored, with a fee of 0; the only failure is the not-found panic |
| Contract.Vault.GetDeltaOf | vault/src/contract.rs:2066-2117 | succeeds exactly when configuration and minimum profit are stored and the average price is non-zero, with `get_delta` at the mark price; a long shows a loss of its whole size |
| Contract.Vault.GetNextGlobalShortAveragePriceOf | vault/src/contract.rs:2259-2288 | a token without a stored global short book fails with not-found; otherwise the result is GetNextGlobalShortAveragePrice of the stored size and average |
| Contract.Vault.GetNextFundingRate | vault/src/contract.rs:1808-1841 | succeeds exactly when the funding time and configuration are stored and, once an interval has passed, the interval is non-zero and the pool (and, for a non-empty pool, the stable flag and reservation) is stored; 0 before an interval has passed and for an empty pool; otherwise the stable or volatile factor times the reservation times the interval count over the pool |
| Contract.Vault.UpdateCumulativeFundingRate | vault/src/contract.rs:1754-1806 | succeeds exactly when FundingUpdatable holds (time and configuration stored, a non-zero interval where it is divided by, and the funding-rate inputs stored when an interval has passed); the funding times become FundingTimesAfterUpdate of the old ones; a failure writes nothing |
| Contract.Vault.Initialize | vault/src/contract.rs:289-342 | succeeds exactly for the governor on an uninitialized vault (code 53 panic, code 1); stores the addresses and the initial configuration; keeps the weight invariant |
| Contract.Vault.SetInManagerMode | vault/src/contract.rs:376-389 | governor only; replaces exactly the manager-mode flag |
| Contract.Vault.SetManager | vault/src/contract.rs:391-407 | governor only; sets exactly the manager's flag |
| Contract.Vault.SetInPrivateLiquidationMode | vault/src/contract.rs:409-421 | governor only; replaces exactly the private-liquidation flag |
| Contract.Vault.SetLiquidator | vault/src/contract.rs:423-438 | governor only; sets exactly the liquidator's flag |
| Contract.Vault.SetIsSwapEnabled | vault/src/contract.rs:440-453 | governor only; sets the swap switch |
| Contract.Vault.SetIsLeverageEnabled | vault/src/contract.rs:455-468 | governor only; sets the leverage switch |
| Contract.Vault.SetMaxGasPrice | vault/src/contract.rs:470-483 | governor only; replaces exactly the maximum gas price |
| Contract.Vault.SetGov | vault/src/contract.rs:485-498 | governor only; the new governor takes over and the old one loses access |
| Contract.Vault.SetMaxLeverage | vault/src/contract.rs:515-530 | governor only; code 2 at or below 1x; replaces exactly the maximum leverage |
| Contract.Vault.SetBufferAmount | vault/src/contract.rs:532-548 | governor only; sets exactly the token's buffer; a buffer above the stored pool breaks BuffersCovered, one within it keeps it |
| Contract.Vault.SetMaxGlobalShortSize | vault/src/contract.rs:550-566 | governor only; sets exactly the token's maximum global short size |
| Contract.Vault.SetFees | vault/src/contract.rs:568-605 | governor only; succeeds exactly within the fee bounds; replaces exactly the nine fee fields |
| Contract.Vault.SetFundingRate | vault/src/contract.rs:607-628 | governor only; succeeds exactly within the funding bounds; replaces exactly the three funding fields |
| Contract.Vault.SetTokenConfig | vault/src/contract.rs:630-685 | succeeds exactly for the governor on a token with every entry stored; saves the seven entries (min profit as the USDG cap); updates the configuration by ConfiguredState; keeps the weight invariant |
| Contract.Vault.StoreTokenEntries | vault/src/contract.rs:670-676 | sets exactly the token's seven per-token entries |
| Contract.Vault.ClearTokenConfig | vault/src/contract.rs:687-713 | succeeds exactly for the governor on a whitelisted token (code 13 otherwise); removes its seven entries and its weight from the total; keeps the weight invariant |
| Contract.Vault.RemoveTokenEntries | vault/src/contract.rs:702-708 | removes exactly the token's seven per-token entries |
| Contract.Vault.WithdrawFees | vault/src/contract.rs:715-741 | governor only; returns the whole fee reserve and zeroes it |
| Contract.Vault.AddRouters | vault/src/contract.rs:743-758 | succeeds exactly when the router's flag is stored, and then approves exactly the sender |
| Contract.Vault.RemoveRouters | vault/src/contract.rs:760-775 | succeeds exactly when the router's flag is stored, and then revokes exactly the sender |
| Contract.Vault.SetUsdgAmount | vault/src/contract.rs:777-796 | governor only; a larger amount is added to the debt within its cap, a smaller one subtracted, an equal one changes nothing |
| Contract.Vault.DirectPoolDeposit | vault/src/contract.rs:826-840 | succeeds exactly for a whitelisted token whose balance grew and whose pool is covered (codes 14, 15, 49); stores nothing |
| Contract.Vault.BuyUsdgChecks | vault/src/contract.rs:842-856 | passes exactly for a manager, a whitelisted token and a positive deposit (codes 16, 17), with the deposit |
| Contract.Vault.BuyUsdgSteps | vault/src/contract.rs:842-899 | always fails, with the first failing check's error; once the checks, the funding update and the decimal conversion pass, with code 18 |
| Contract.Vault.BuyUsdg | vault/src/contract.rs:842-899 | never succeeds and never changes the vault; codes 16 and 17 as checked, and code 18 for every call that passes the checks, the funding update and the decimal conversion |
| Contract.Vault.SellUsdgChecks | vault/src/contract.rs:901-916 | passes exactly for a manager, a whitelisted token and a positive USDG deposit (code 19), with the deposit |
| Contract.Vault.SellUsdgRedeem | vault/src/contract.rs:918-940 | succeeds exactly when the redemption and the debt update go through (SellUsdgRedeemable); a zero redemption amount fails with code 21; the amount out is the positive redemption amount; the USDG debt decreases as DecreaseUsdgAmount does; the pool keeps its value |
| Contract.Vault.SellUsdgPayout | vault/src/contract.rs:918-953 | succeeds exactly when the redemption goes through and the contract holds a USDG balance; code 21 for a zero redemption; a success redeems and reduces the debt as SellUsdgRedeem, clears swap pricing and records the USDG balance; the pool keeps its value |
| Contract.Vault.SellUsdgSteps | vault/src/contract.rs:901-953 | succeeds exactly when SellUsdgSucceeds holds (checks, funding update, redemption, USDG balance); code 21 once the checks and funding update pass with a zero redemption; a success redeems the deposit, reduces the debt, records the funding time, clears swap pricing and records the USDG balance |
| Contract.Vault.SellUsdg | vault/src/contract.rs:901-953 | the same success condition, code 21 and outcome; the reservation stays within the pool and the pool keeps covering its buffer; a failure changes nothing |
| Contract.Vault.SwapChecks | vault/src/contract.rs:963-971 | passes exactly when swaps are enabled and both tokens whitelisted (codes 23, 24, 25), with the addresses |
| Contract.Vault.ShiftUsdgDebt | vault/src/contract.rs:1014-1015 | succeeds exactly when both debts are stored and the input token's cap allows the shift; a zero shift changes nothing |
| Contract.Vault.SwapAmounts | vault/src/contract.rs:991-1005 | with the input price 0 both the amount out and the USDG debt moved are 0; only missing decimals fail |
| Contract.Vault.SwapSettle | vault/src/contract.rs:991-1036 | succeeds exactly when the conversions, the debt shift and the pool checks go through (SwapSettleable); a success pays out 0 and leaves debts and pools as they were |
| Contract.Vault.UpdateSwapFundingRates | vault/src/contract.rs:975-986 | succeeds exactly when both tokens' funding updates go through in turn; the funding times are updated for the input token, then the output token |
| Contract.Vault.SwapSteps | vault/src/contract.rs:955-1050 | succeeds exactly when SwapSucceeds holds (checks, both funding updates, a positive deposit, the settlement); a zero deposit after the checks and updates fails with code 27; a success pays out 0, keeps debts and pools and records both funding times; a failed check is the result |
| Contract.Vault.Swap | vault/src/contract.rs:955-1050 | the same success condition and code 27, code 23 for disabled swaps; the reservation stays within the pool and the pool keeps covering its buffer; a failure changes nothing |
| Contract.Vault.RealiseDelta | vault/src/contract.rs:2376-2403 | succeeds exactly when the realisation phase RealisedDelta does and, for a short with a delta, the pool update goes through; the pool keeps its value; a success is RealisedDelta; no delta changes nothing |
| Contract.Vault.FinishReduction | vault/src/contract.rs:2405-2426 | succeeds exactly when the settlement phase SettledReduction does and, for a long whose payout does not exceed the fee, the fee tokens fit in the pool; the pool keeps its value; a success is SettledReduction |
| Contract.Vault.ReduceLoaded | vault/src/contract.rs:2359-2427 | succeeds exactly when ReducibleWith holds (the arithmetic and both phases' pool updates); the pool keeps its value; a success is ReduceCollateralAmounts |
| Contract.Vault.ReduceCollateral | vault/src/contract.rs:2329-2427 | succeeds exactly when ReductionSucceeds holds (position and fee reserve stored, delta computable, reduction with no fee goes through); fee reserves and pool keep their values; a success is ReductionOf the stored position |
| Contract.Vault.IncreasePositionChecks | vault/src/contract.rs:1062-1075 | passes exactly when the global short book is stored, leverage is enabled (code 28), and gas price, router and tokens pass |
| Contract.Vault.PricedPosition | vault/src/contract.rs:1093-1117 | succeeds exactly for a stored position that is empty, is not grown, or has the configuration, the minimum profit and a non-zero average price; only the average price changes, to IncreasedAveragePrice; a non-empty position with a zero average price fails |
| Contract.Vault.IncreasedPositionRecord | vault/src/contract.rs:1119-1142 | passes exactly when the collateral covers the fee (code 29) and the position is non-empty (code 30) and valid; once the fee is covered, code 29 is never the error; only funding rate and time change |
| Contract.Vault.IncreasePositionSettle | vault/src/contract.rs:1146-1186 | succeeds exactly when IncreaseSettleable holds (reservation, guaranteed USD and pool checks for a long, the global short average and the inverted maximum check for a short); reservation, guaranteed USD, pool and global short size keep their values; the average to save is the loaded one for a long, 0 for a short |
| Contract.Vault.IncreasePositionRecord | vault/src/contract.rs:1093-1142 | succeeds exactly when IncreaseRecordable holds; never fails with code 29; an empty stored position fails with code 30; the record to save is IncreasedPosition of a stored, non-empty, valid position, with no fee |
| Contract.Vault.IncreasePositionSave | vault/src/contract.rs:1093-1205 | succeeds exactly when IncreaseSaveable holds; code 30 for an empty stored position; a success saves IncreasedPosition and resets a short's global average; reservation, guaranteed USD, pool, global short size and fee reserves keep their values |
| Contract.Vault.IncreasePositionWrite | vault/src/contract.rs:1146-1205 | succeeds exactly when IncreaseSettleable holds for the record; a success saves the record and resets a short's global average, a failure saves nothing; reservation, guaranteed USD, pool and global short size keep their values |
| Contract.Vault.IncreasePositionSteps | vault/src/contract.rs:1052-1205 | succeeds exactly when IncreaseSucceeds holds (checks, funding update, IncreaseSaveable); code 30 for an empty stored position once checks and funding pass; a success saves IncreasedPosition, resets a short's global average, records the funding time; a failed check is the result |
| Contract.Vault.IncreasePosition | vault/src/contract.rs:1052-1205 | the same success condition and code 30, code 28 when leverage is disabled; every stored position stays valid; the reservation stays within the pool; no position key is added; a failure changes nothing |
| Contract.Vault.DecreasablePosition | vault/src/contract.rs:1230-1240 | passes exactly for a stored non-empty position at least sizeDelta large holding collateralDelta (codes 31, 32, 33) |
| Contract.Vault.DecreasePayout | vault/src/contract.rs:1251-1311 | a long must cover its loss of sizeDelta from recorded profit and collateral, and is paid the withdrawal or, on a full close, the remaining collateral, in tokens |
| Contract.Vault.DecreasePositionSettle | vault/src/contract.rs:1262-1311 | succeeds exactly when DecreaseSettleable holds (a partial decrease validates and, for a long, is covered by guaranteed USD; a long needs the global short size; a payout converts and, for a long, fits in the pool); guaranteed USD, global short size and pool keep their values; a partial decrease passes validation; the amount out is the converted payout |
| Contract.Vault.ReduceAndSettle | vault/src/contract.rs:1251-1311 | succeeds exactly when ReducedSettleable holds (the reduction succeeds and so does the settlement of ReductionOf); the amount out is DecreasePayout; entries keep their values |
| Contract.Vault.DecreasePositionPayout | vault/src/contract.rs:1245-1311 | succeeds exactly when DecreasePayable holds (the reservation covers the released share, then reduction and settlement); the amount out is DecreasePayout; entries keep their values |
| Contract.Vault.DecreaseStored | vault/src/contract.rs:1230-1316 | succeeds exactly when the stored position passes DecreasablePosition and DecreasePayable holds; a failed position check (codes 31 to 33) is the result; a success pays DecreasePayout and leaves DecreasedPositions; a failure keeps the positions |
| Contract.Vault.DecreasePositionSteps | vault/src/contract.rs:1207-1316 | succeeds exactly when DecreaseSucceeds holds (gas, router, funding update, position checks, DecreasePayable); once gas, router and funding pass, a failed position check (codes 31 to 33) is the result; a success pays DecreasePayout, records the funding time and leaves DecreasedPositions |
| Contract.Vault.DecreasePosition | vault/src/contract.rs:1207-1316 | the same success condition and codes 31 to 33; every stored position stays valid; the reservation stays within the pool; no position key is added; a failure changes nothing |
| Contract.Vault.LiquidationChecks | vault/src/contract.rs:1328-1332 | passes exactly when configuration and the sender's flag are stored and, in private mode, the sender is a liquidator (code 34) |
| Contract.Vault.LiquidationSettle | vault/src/contract.rs:1360-1412 | succeeds exactly when LiquidationSettleable holds (conversions, fee reserve, reservation release, a long's exposure, guaranteed USD and pool checks, a short's global size, the liquidation fee against the pool); reservation, guaranteed USD, pool and global short size keep their values |
| Contract.Vault.LiquidateStored | vault/src/contract.rs:1343-1429 | succeeds exactly when LiquidatableStored holds; an empty stored position fails with code 35, state 0 with code 36; state 2 changes nothing; otherwise the position is removed and include_amm_price set; a failure keeps positions and configuration |
| Contract.Vault.LiquidatePositionSteps | vault/src/contract.rs:1318-1429 | succeeds exactly when LiquidateSucceeds holds for the given validation outcome; code 35 for an empty stored position and code 36 for state 0 once checks and funding pass; state 2 changes nothing further; otherwise the position is removed and include_amm_price set; a failed check is the result |
| Contract.Vault.LiquidatePosition | vault/src/contract.rs:1318-1429 | succeeds exactly when LiquidateSucceeds holds for the hard-coded outcome (state 1, margin fee 1); code 35 for an empty stored position; a success removes a stored non-empty position, records the funding time and sets include_amm_price; every stored position stays valid; the reservation stays within the pool; no position key is added; a failure changes nothing |
| Contract.Vault.GetRedemptionCollateral | vault/src/contract.rs:1433-1445 | not-found when an entry is missing; the pool for a stable token; otherwise Ok exactly when the decimals load and the reservation fits in guaranteed tokens plus pool, the value being that sum minus the reservation, aborting below zero |
| Contract.Vault.GetRedemptionCollateralUsd | vault/src/contract.rs:1447-1460 | the pool in tokens for a stable token, 0 for any other |
| Contract.Vault.GetUtilisation | vault/src/contract.rs:1462-1472 | the utilisation of the stored pool and reservation, at most 100% while the reservation fits |
| Contract.Vault.GetPosition | vault/src/contract.rs:1474-1505 | the stored position, as stored |
| Contract.Vault.GetPositionLeverage | vault/src/contract.rs:1507-1528 | Ok exactly for a stored position with collateral; not-found for a missing key; the stored position's PositionLeverage, a code 37 panic without collateral; at least 1x for a valid position |
| Contract.Vault.GetGlobalShortDelta | vault/src/contract.rs:1530-1554 | the global short delta at price 1: not-found without the book, Ok (false, 0) for an empty book, otherwise the bare price distance, failing exactly for a zero average price |
| Contract.Vault.GetPositionDelta | vault/src/contract.rs:1556-1583 | Ok exactly for a stored position with configuration, min profit and a nonzero average; not-found for a missing key; otherwise GetDeltaOf of the stored position, failures included; a long shows a loss of its whole size |

## Left out

- Integer width: every `u128` (and the `u64` block time and interval) is an unbounded `nat`. Overflow past 2^128 is not modelled; underflow and division by zero are.
- `decimals as u32` in `adjust_for_decimals` is not modelled as a truncation; decimals are unbounded.
- Key serialisation: the bincode library is foreign. `State.AsBytes`, `AsBytesStd` and `FromBytes` take its outcome as a parameter, and positions are keyed by `State.NewKey` itself rather than by its bytes.
- Query errors: a failing cw20 balance query is one error, `QueryFailed`, and the querier's own message is not kept.
- Messages and attributes: the `Response` attributes are not modelled. Neither is the cw20 transfer message `_transfer_out` builds and discards.
- `try_upgrade_vault`: it moves the whole balance to a new vault by a message; it is not part of this model.
- `try_get_target_usdg_amount`: not part of this model.
- `try_set_error_controller`, `try_set_error` and `try_set_price_feed`: these governance setters of external addresses are not part of this model.
- Message dispatch: msg.rs and the execute/query dispatch are not part of this model. Each entry point is a method, and the query handlers return values instead of JSON.
- Contract.Vault.BuyUsdgSteps: the steps of `try_buy_usdg` after code 18 (contract.rs:871) are not modelled; code 18 stops every call that gets that far.
- Contract.Vault.LiquidatePosition: the liquidation-validation outcome the contract hard-codes (state 1, margin fee 1) is a pair of constants. `LiquidatePositionSteps` takes it as parameters.
- Contract.Vault.IncreasePosition: code 29 (collateral below the margin fee) cannot occur, because the margin fee is always 0; `IncreasedPositionRecord` states the check itself and `IncreasePositionRecord` that it never fires.
- Contract.Vault.LiquidatePosition: code 36 cannot occur, because the hard-coded state is 1; `LiquidatePositionSteps` states it for state 0.
- Contract.Vault.SwapSteps: the second `STATE_VARIABLES.load` near the end of `try_swap` cannot fail after the first, so it is not a separate step.
- Contract.Vault.ValidateRouter: `APPROVED_ROUTERS2` is the same namespace as `APPROVED_ROUTERS1`, so its load is one more load of the same map.
- The oracle: prices are the constants the contract hard-codes, and no price feed is queried.

=== FILE: contract.dfy ===
/** The vault contract of vault/src/contract.rs.

    The contract's storage is the class `Vault`, one field per storage
    namespace of Vault/src/state.rs; a singleton item that `instantiate` does
    not save is an `Option`. The storage helpers of the contract are methods
    that modify only the fields they save, or functions when they only read.
    The entry points are methods that either succeed with the new storage or
    fail with the storage as it was, because the chain reverts every write of
    a failed call.

    The block time, the contract's own address and the cw20 balances the
    contract queries are parameters (`Env` and `Ledger`). Prices are the
    constants the contract hard-codes. */
module Contract {
  import opened Errors
  import opened Outcomes
  import opened State
  import opened VaultMath
  import opened Weights

  /** The parts of `env` the contract reads: the block time in seconds and
      the contract's own address. */
  datatype Env = Env(blockTime: nat, contractAddress: Addr)

  /** The balances cw20 token contracts would report, keyed by
      (token contract, holder). A pair without an entry stands for a balance
      query that fails. */
  type Ledger = map<(Addr, Addr), nat>

  /** `get_token_balance_of(querier, user, cw20)`. */
  function TokenBalanceOf(ledger: Ledger, user: Addr, cw20: Addr): (r: Result<nat>)
    ensures r.Ok? <==> (cw20, user) in ledger
    ensures r.Ok? ==> r.value == ledger[(cw20, user)]
    ensures r.Fail? ==> r.failure == Err(Std(QueryFailed))
  {
    if (cw20, user) in ledger then Ok(ledger[(cw20, user)]) else Fail(Err(Std(QueryFailed)))
  }

  /** The gas price `_validate_gas_price` compares with the maximum: hard-coded. */
  const TX_GAS_PRICE: nat := 1

  /** The last funding times after `update_cumulative_funding_rate` succeeds
      for `token`: the block time rounded down to whole intervals is recorded
      only when a non-zero time is on record and a whole interval has passed. */
  function FundingTimesAfterUpdate(times: map<Addr, nat>, interval: nat, now: nat,
                                   token: Addr): (t: map<Addr, nat>)
    ensures t.Keys == times.Keys
    ensures forall k :: k in times && k != token ==> t[k] == times[k]
    ensures token in times && times[token] != 0 && times[token] + interval <= now && interval != 0
            ==> t[token] <= now < t[token] + interval && t[token] % interval == 0
    ensures !(token in times && times[token] != 0 && times[token] + interval <= now) ==> t == times
  {
    if token in times && times[token] != 0 && times[token] + interval <= now && interval != 0
    then times[token := FundingBucket(now, interval).value]
    else times
  }

  /** A stored position passes `validate_position`. */
  predicate PositionValid(p: Position) {
    ValidatePosition(p.size, p.collateral).Ok?
  }

  /** The record `try_increase_position` saves for the stored position `p`:
      re-priced, with the entry funding rate reset and the time recorded.
      Quirk: size, collateral, reservation and realised profit keep their
      values, because the contract discards the sums it computes for them. */
  function IncreasedPosition(p: Position, isLong: bool, sizeDelta: nat, now: nat): (q: Position)
    ensures q.size == p.size && q.collateral == p.collateral
    ensures q.reserveAmount == p.reserveAmount && q.realisedPnl == p.realisedPnl
    ensures q.entryFundingRate == 0 && q.lastIncreasedTime == now
    ensures PositionValid(p) <==> PositionValid(q)
    ensures sizeDelta == 0 ==> q.averagePrice == p.averagePrice
    // At the hard-coded prices a long averages to at least 1 and a short to 0.
    ensures sizeDelta > 0 && isLong ==> q.averagePrice >= 1
    ensures sizeDelta > 0 && !isLong ==> q.averagePrice == 0
  {
    p.(averagePrice := IncreasedAveragePrice(p.averagePrice, p.size, isLong, sizeDelta),
       entryFundingRate := 0,
       lastIncreasedTime := now)
  }

  /** The positions after a successful decrease of the position at `key`
      by `sizeDelta` (quirk): a partial decrease removes the position, and
      a full close leaves it as it was. */
  function DecreasedPositions(positions: map<PositionKey, Position>, key: PositionKey, sizeDelta: nat)
    : (r: map<PositionKey, Position>)
    requires key in positions
    ensures sizeDelta == positions[key].size ==> r == positions
    ensures sizeDelta != positions[key].size ==> r.Keys == positions.Keys - {key}
    ensures forall k :: k in r ==> k in positions && r[k] == positions[k]
  {
    if sizeDelta == positions[key].size then positions else positions - {key}
  }

  /** The configuration `try_initialize` stores. */
  function InitialStateVariables(liquidationFeeUsd: nat, fundingRateFactor: nat,
                                 stableFundingRateFactor: nat): StateVariables
  {
    StateVariables(
      whitelistedTokenCount := 0,
      maxLeverage := 50 * 10000,   // 50x
      liquidationFeeUsd := liquidationFeeUsd,
      taxBasisPoints := 50,
      stableTaxBasisPoints := 20,
      mintBurnFeeBasisPoints := 30,
      swapFeeBasisPoints := 30,
      stableSwapFeeBasisPoints := 4,
      marginFeeBasisPoints := 10,
      minProfitTime := 0,
      hasDynamicFees := false,
      fundingInterval := 8 * 3600,
      fundingRateFactor := fundingRateFactor,
      stableFundingRateFactor := stableFundingRateFactor,
      totalTokenWeights := 0,
      includeAmmPrice := true,
      useSwapPricing := false,
      inManagerMode := false,
      inPrivateLiquidationMode := false,
      maxGasPrice := 0,
      allWhitelistedTokens := [])
  }

  /** The initial funding interval of 8 hours is above the bound
      `try_set_funding_rate` enforces, so once changed it cannot be set back;
      the initial fees and leverage are within their setters' bounds. */
  lemma InitialConfigurationAgainstSetterBounds(liquidationFeeUsd: nat, fundingRateFactor: nat,
                                                stableFundingRateFactor: nat)
    ensures var sv := InitialStateVariables(liquidationFeeUsd, fundingRateFactor, stableFundingRateFactor);
            ValidateFundingRate(sv.fundingInterval, sv.fundingRateFactor, sv.stableFundingRateFactor)
              == Fail(Err(CodeError(10)))
    ensures var sv := InitialStateVariables(liquidationFeeUsd, fundingRateFactor, stableFundingRateFactor);
            ValidateMaxLeverage(sv.maxLeverage).Ok?
    ensures var sv := InitialStateVariables(liquidationFeeUsd, fundingRateFactor, stableFundingRateFactor);
            liquidationFeeUsd <= MAX_FEE_BASIS_POINTS
            ==> ValidateFees(sv.taxBasisPoints, sv.stableTaxBasisPoints, sv.mintBurnFeeBasisPoints,
                             sv.swapFeeBasisPoints, sv.stableSwapFeeBasisPoints, sv.marginFeeBasisPoints,
                             sv.liquidationFeeUsd).Ok?
  {
  }

  /** The configuration after `try_set_token_config` of `token`: a token not
      yet whitelisted is counted and appended to the token list, and the total
      weight trades the token's old weight for its new one. */
  function ConfiguredState(sv: StateVariables, token: Addr, wasWhitelisted: bool, oldWeight: nat,
                           weight: nat): (r: StateVariables)
    requires oldWeight <= sv.totalTokenWeights
    ensures r.totalTokenWeights + oldWeight == sv.totalTokenWeights + weight
    ensures wasWhitelisted ==> r.allWhitelistedTokens == sv.allWhitelistedTokens
                               && r.whitelistedTokenCount == sv.whitelistedTokenCount
    ensures !wasWhitelisted ==> r.allWhitelistedTokens == sv.allWhitelistedTokens + [token]
                                && r.whitelistedTokenCount == sv.whitelistedTokenCount + 1
    ensures r == sv.(whitelistedTokenCount := r.whitelistedTokenCount,
                     allWhitelistedTokens := r.allWhitelistedTokens,
                     totalTokenWeights := r.totalTokenWeights)
  {
    var listed := if wasWhitelisted then sv else
      sv.(whitelistedTokenCount := sv.whitelistedTokenCount + 1,
          allWhitelistedTokens := sv.allWhitelistedTokens + [token]);
    listed.(totalTokenWeights := listed.totalTokenWeights - oldWeight + weight)
  }

  class Vault {
    var gov: Addr
    var isInitialized: bool
    var isSwapEnabled: bool
    var isLeverageEnabled: bool
    var addresses: Option<AddressesStruct>
    var stateVariables: Option<StateVariables>
    /** APPROVED_ROUTERS1 and APPROVED_ROUTERS2: one namespace, one map. */
    var approvedRouters: map<Addr, bool>
    var isLiquidator: map<Addr, bool>
    var isManager: map<Addr, bool>
    var whitelistedTokens: map<Addr, bool>
    var tokenDecimals: map<Addr, nat>
    var minProfitBasisPoints: map<Addr, nat>
    var stableTokens: map<Addr, bool>
    var shortableTokens: map<Addr, bool>
    var tokenBalances: map<Addr, nat>
    var tokenWeights: map<Addr, nat>
    var usdgAmounts: map<Addr, nat>
    var maxUsdgAmounts: map<Addr, nat>
    var poolAmounts: map<Addr, nat>
    var reservedAmounts: map<Addr, nat>
    var bufferAmounts: map<Addr, nat>
    var guaranteedUsd: map<Addr, nat>
    var cumulativeFundingRates: map<Addr, nat>
    var lastFundingTimes: map<Addr, nat>
    var positions: map<PositionKey, Position>
    var feeReserves: map<Addr, nat>
    var globalShortSizes: map<Addr, nat>
    var globalShortAveragePrices: map<Addr, nat>
    var maxGlobalShortSizes: map<Addr, nat>

    /** No per-token or per-account entry is stored. */
    predicate NoEntries()
      reads this
    {
      approvedRouters == map[] && isLiquidator == map[] && isManager == map[]
      && whitelistedTokens == map[] && tokenDecimals == map[] && minProfitBasisPoints == map[]
      && stableTokens == map[] && shortableTokens == map[] && tokenBalances == map[]
      && tokenWeights == map[] && usdgAmounts == map[] && maxUsdgAmounts == map[]
      && poolAmounts == map[] && reservedAmounts == map[] && bufferAmounts == map[]
      && guaranteedUsd == map[] && cumulativeFundingRates == map[] && lastFundingTimes == map[]
      && positions == map[] && feeReserves == map[] && globalShortSizes == map[]
      && globalShortAveragePrices == map[] && maxGlobalShortSizes == map[]
    }

    /** The configured total weight equals the sum of the per-token weights. */
    ghost predicate WeightsAccounted()
      reads this`stateVariables, this`tokenWeights
    {
      stateVariables.Some? ==> stateVariables.value.totalTokenWeights == SumOfValues(tokenWeights)
    }

    /** Every token's reservation is covered by its pool: the reserved
        amount never exceeds the pool amount. */
    predicate ReservedWithinPool()
      reads this`poolAmounts, this`reservedAmounts
    {
      forall t :: t in reservedAmounts && t in poolAmounts ==> reservedAmounts[t] <= poolAmounts[t]
    }

    /** Every token's pool covers its buffer amount. */
    predicate BuffersCovered()
      reads this`poolAmounts, this`bufferAmounts
    {
      forall t :: t in bufferAmounts && t in poolAmounts ==> bufferAmounts[t] <= poolAmounts[t]
    }

    /** Every stored position passes `validate_position`. */
    predicate PositionsValid()
      reads this`positions
    {
      forall k :: k in positions ==> PositionValid(positions[k])
    }

    // -------------------------------------------------------------------------
    // instantiate

    /** `instantiate`: the sender becomes governor, the vault is not yet
        initialized, swaps and leverage are enabled, and nothing else is stored. */
    constructor (sender: Addr)
      ensures gov == sender
      ensures isInitialized == INITIAL_IS_INITIALIZED
      ensures isSwapEnabled == INITIAL_IS_SWAP_ENABLED
      ensures isLeverageEnabled == INITIAL_IS_LEVERAGE_ENABLED
      ensures addresses == None && stateVariables == None
      ensures NoEntries()
    {
      gov := sender;
      isInitialized := false;
      isSwapEnabled := true;
      isLeverageEnabled := true;
      addresses := None;
      stateVariables := None;
      approvedRouters, isLiquidator, isManager := map[], map[], map[];
      whitelistedTokens, tokenDecimals, minProfitBasisPoints := map[], map[], map[];
      stableTokens, shortableTokens, tokenBalances := map[], map[], map[];
      tokenWeights, usdgAmounts, maxUsdgAmounts := map[], map[], map[];
      poolAmounts, reservedAmounts, bufferAmounts := map[], map[], map[];
      guaranteedUsd, cumulativeFundingRates, lastFundingTimes := map[], map[], map[];
      positions, feeReserves := map[], map[];
      globalShortSizes, globalShortAveragePrices, maxGlobalShortSizes := map[], map[], map[];
    }

    // -------------------------------------------------------------------------
    // Access checks

    /** `only_gov`: panics unless the sender is the governor. */
    function OnlyGov(sender: Addr): (r: Result<()>)
      reads this`gov
      ensures r.Ok? <==> sender == gov
      ensures r.Fail? ==> r.failure == Abort(UnwrapErr(CodeError(53)))
    {
      Unwrap(Validate(sender == gov, 53))
    }

    /** `_validate_manager`: panics when the configuration or the sender's
        manager flag was never stored, and in manager mode when the sender is
        not a manager. */
    function ValidateManager(sender: Addr): (r: Result<()>)
      reads this`stateVariables, this`isManager
      ensures r.Ok? <==> (stateVariables.Some? && sender in isManager
                          && (stateVariables.value.inManagerMode ==> isManager[sender]))
      ensures r.Fail? ==> r.failure.Abort?
    {
      var sv :- LoadItemOrAbort(stateVariables);
      var manager :- LoadOrAbort(isManager, sender);
      if sv.inManagerMode then Unwrap(Validate(manager, 54)) else Ok(())
    }

    /** `_validate_gas_price`: the transaction gas price is hard-coded to 1, so
        the check passes whenever a maximum is configured; only a missing
        configuration panics. */
    function ValidateGasPrice(): (r: Result<()>)
      reads this`stateVariables
      ensures r.Ok? <==> stateVariables.Some?
      ensures r.Fail? ==> r.failure == Abort(UnwrapErr(Std(NotFound)))
    {
      var sv :- LoadItemOrAbort(stateVariables);
      if sv.maxGasPrice == 0 then Ok(())
      else Unwrap(Validate(TX_GAS_PRICE <= sv.maxGasPrice, 55))
    }

    /** `_validate_router`: the router flags of both the sender and the account
        must be stored; the sender's flag decides (code 41). */
    function ValidateRouter(sender: Addr, account: Addr): (r: Result<()>)
      reads this`addresses, this`approvedRouters
      ensures r.Ok? <==> (addresses.Some? && sender in approvedRouters && account in approvedRouters
                          && approvedRouters[sender])
      ensures r.Fail? ==> r.failure.Abort?
    {
      var _ :- LoadItemOrAbort(addresses);
      var senderApproved :- LoadOrAbort(approvedRouters, sender);
      var _ :- LoadOrAbort(approvedRouters, account);
      // The account's flag is loaded and then overwritten by the sender's.
      Unwrap(Validate(senderApproved, 41))
    }

    /** `validate_tokens`: a long needs the index token as collateral,
        whitelisted and not stable; a short needs whitelisted stable
        collateral and a shortable, non-stable index token. Every failure is
        a panic. */
    function ValidateTokens(collateralToken: Addr, indexToken: Addr, isLong: bool): (r: Result<()>)
      reads this`whitelistedTokens, this`stableTokens, this`shortableTokens
      ensures r.Ok? ==> collateralToken in whitelistedTokens && collateralToken in stableTokens
                        && indexToken in stableTokens && indexToken in shortableTokens
      ensures r.Ok? && isLong ==> collateralToken == indexToken && whitelistedTokens[collateralToken]
                                  && !stableTokens[collateralToken]
      ensures r.Ok? && !isLong ==> whitelistedTokens[collateralToken] && stableTokens[collateralToken]
                                   && !stableTokens[indexToken] && shortableTokens[indexToken]
      ensures collateralToken in whitelistedTokens && collateralToken in stableTokens
              && indexToken in stableTokens && indexToken in shortableTokens
              && (if isLong
                  then collateralToken == indexToken && whitelistedTokens[collateralToken]
                       && !stableTokens[collateralToken]
                  else whitelistedTokens[collateralToken] && stableTokens[collateralToken]
                       && !stableTokens[indexToken] && shortableTokens[indexToken])
              ==> r.Ok?
      ensures r.Fail? ==> r.failure.Abort?
    {
      var whitelisted :- LoadOrAbort(whitelistedTokens, collateralToken);
      var stableCollateral :- LoadOrAbort(stableTokens, collateralToken);
      var stableIndex :- LoadOrAbort(stableTokens, indexToken);
      var shortable :- LoadOrAbort(shortableTokens, indexToken);
      if isLong then
        var _ :- Unwrap(Validate(collateralToken == indexToken, 42));
        var _ :- Unwrap(Validate(whitelisted, 43));
        Unwrap(Validate(!stableCollateral, 44))
      else
        var _ :- Unwrap(Validate(whitelisted, 45));
        var _ :- Unwrap(Validate(stableCollateral, 46));
        var _ :- Unwrap(Validate(!stableIndex, 47));
        Unwrap(Validate(shortable, 48))
    }

    // -------------------------------------------------------------------------
    // Balances and the pool

    /** `_transfer_in`: the growth of the contract's balance of `token` since
        the recorded balance; aborts when the balance shrank. The new balance
        is assigned to a local and never saved. */
    function TransferIn(ledger: Ledger, env: Env, token: Addr): (r: Result<nat>)
      reads this`tokenBalances
      ensures r.Ok? <==> (token in tokenBalances && (token, env.contractAddress) in ledger
                          && tokenBalances[token] <= ledger[(token, env.contractAddress)])
      ensures r.Ok? ==> r.value + tokenBalances[token] == ledger[(token, env.contractAddress)]
    {
      var previous :- Load(tokenBalances, token);
      var next :- TokenBalanceOf(ledger, env.contractAddress, token);
      Sub(next, previous)
    }

    /** `increase_pool_amount` (no leading underscore): despite its name it
        only checks that the recorded pool is covered by the contract's
        balance (code 49), and stores nothing. */
    function CheckPoolAmount(ledger: Ledger, env: Env, token: Addr): (r: Result<()>)
      reads this`poolAmounts
      ensures r.Ok? <==> (token in poolAmounts && (token, env.contractAddress) in ledger
                          && poolAmounts[token] <= ledger[(token, env.contractAddress)])
      ensures token in poolAmounts && (token, env.contractAddress) in ledger && r.Fail?
              ==> r.failure == Err(CodeError(49))
    {
      var pool :- Load(poolAmounts, token);
      var balance :- TokenBalanceOf(ledger, env.contractAddress, token);
      Validate(pool <= balance, 49)
    }

    /** `_increase_pool_amount`: the sum `pool + amount` is computed and
        discarded (quirk), so the pool is checked against the balance (code
        49) and saved back unchanged. */
    method IncreasePoolAmount(ledger: Ledger, env: Env, token: Addr, amount: nat) returns (r: Result<()>)
      modifies this`poolAmounts
      ensures poolAmounts == old(poolAmounts)
      ensures r == CheckPoolAmount(ledger, env, token)
    {
      var pool :- Load(poolAmounts, token);
      var _ := pool + amount;   // `pool_amounts.add(amount)`: result discarded
      var balance :- TokenBalanceOf(ledger, env.contractAddress, token);
      var _ :- Validate(pool <= balance, 49);
      poolAmounts := poolAmounts[token := pool];
      r := Ok(());
    }

    /** Whether `_decrease_pool_amount` of `amount` goes through: the pool
        and the reservation are stored, and the pool covers both the amount
        and the reservation. */
    predicate PoolDecreasable(token: Addr, amount: nat)
      reads this`poolAmounts, this`reservedAmounts
    {
      token in poolAmounts && token in reservedAmounts
      && amount <= poolAmounts[token] && reservedAmounts[token] <= poolAmounts[token]
    }

    /** `_decrease_pool_amount`: aborts when `amount` exceeds the pool and
        errs (code 50) unless the reservation fits in the pool; the difference
        is discarded (quirk), so the pool is saved back unchanged. */
    method DecreasePoolAmount(token: Addr, amount: nat) returns (r: Result<()>)
      modifies this`poolAmounts
      ensures poolAmounts == old(poolAmounts)
      ensures r.Ok? <==> PoolDecreasable(token, amount)
      ensures token in poolAmounts && token in reservedAmounts && amount > poolAmounts[token]
              ==> r == Fail(Abort(Underflow))
      ensures token in poolAmounts && token in reservedAmounts && amount <= poolAmounts[token]
              && reservedAmounts[token] > poolAmounts[token]
              ==> r == Fail(Err(CodeError(50)))
    {
      var pool :- Load(poolAmounts, token);
      var reserved :- Load(reservedAmounts, token);
      var _ :- Sub(pool, amount);   // `pool_amounts.sub(amount)`: result discarded
      var _ :- Validate(reserved <= pool, 50);
      poolAmounts := poolAmounts[token := pool];
      r := Ok(());
    }

    /** `_validate_buffer_amount`: errs iff the pool is below the buffer. */
    function ValidateBufferAmount(token: Addr): (r: Result<()>)
      reads this`poolAmounts, this`bufferAmounts
      ensures r.Ok? <==> (token in poolAmounts && token in bufferAmounts
                          && bufferAmounts[token] <= poolAmounts[token])
      ensures token in poolAmounts && token in bufferAmounts && poolAmounts[token] < bufferAmounts[token]
              ==> r == Fail(Err(CustomError("Vault: poolAmount < buffer")))
      ensures !(token in poolAmounts && token in bufferAmounts) ==> r.Fail? && r.failure.Abort?
    {
      var pool :- LoadOrAbort(poolAmounts, token);
      var buffer :- LoadOrAbort(bufferAmounts, token);
      if pool < buffer then Fail(Err(CustomError("Vault: poolAmount < buffer"))) else Ok(())
    }

    /** `_update_token_balance`: records a queried balance. Quirk: the query
        asks the contract at the vault's own address for the balance of the
        holder `token`, the arguments swapped against `_transfer_in`. */
    method UpdateTokenBalance(ledger: Ledger, env: Env, token: Addr) returns (r: Result<()>)
      modifies this`tokenBalances
      ensures r.Ok? <==> (env.contractAddress, token) in ledger && token in old(tokenBalances)
      ensures r.Ok? ==> tokenBalances == old(tokenBalances)[token := ledger[(env.contractAddress, token)]]
      ensures r.Fail? ==> tokenBalances == old(tokenBalances)
    {
      var next :- TokenBalanceOf(ledger, token, env.contractAddress);
      var _ :- Load(tokenBalances, token);
      tokenBalances := tokenBalances[token := next];
      r := Ok(());
    }

    // -------------------------------------------------------------------------
    // USDG debt

    /** `_increase_usdg_amount`: adds `amount` to the token's USDG debt, and
        errs (code 51) when a non-zero cap is exceeded, saving nothing. */
    method IncreaseUsdgAmount(token: Addr, amount: nat) returns (r: Result<()>)
      modifies this`usdgAmounts
      ensures r.Ok? <==> (token in old(usdgAmounts) && token in maxUsdgAmounts
                          && (maxUsdgAmounts[token] != 0 ==> old(usdgAmounts)[token] + amount <= maxUsdgAmounts[token]))
      ensures r.Ok? ==> usdgAmounts == old(usdgAmounts)[token := old(usdgAmounts)[token] + amount]
      ensures r.Fail? ==> usdgAmounts == old(usdgAmounts)
      ensures token in old(usdgAmounts) && token in maxUsdgAmounts && maxUsdgAmounts[token] != 0
              && old(usdgAmounts)[token] + amount > maxUsdgAmounts[token]
              ==> r == Fail(Err(CodeError(51)))
    {
      var debt :- Load(usdgAmounts, token);
      var cap :- Load(maxUsdgAmounts, token);
      debt := debt + amount;
      if cap != 0 {
        var _ :- Validate(debt <= cap, 51);
      }
      usdgAmounts := usdgAmounts[token := debt];
      r := Ok(());
    }

    /** `_decrease_usdg_amount`: subtracts `amount` from the token's USDG
        debt. When the debt is at most `amount` it is meant to be floored at
        zero, but that branch returns before saving (quirk), so the stored
        debt is left as it was. */
    method DecreaseUsdgAmount(token: Addr, amount: nat) returns (r: Result<()>)
      modifies this`usdgAmounts
      ensures r.Ok? <==> token in old(usdgAmounts)
      ensures r.Ok? && old(usdgAmounts)[token] <= amount ==> usdgAmounts == old(usdgAmounts)
      ensures r.Ok? && old(usdgAmounts)[token] > amount
              ==> usdgAmounts == old(usdgAmounts)[token := old(usdgAmounts)[token] - amount]
      ensures r.Fail? ==> usdgAmounts == old(usdgAmounts)
    {
      var debt :- Load(usdgAmounts, token);
      if debt <= amount {
        return Ok(());   // `usdg_amount = 0` is never saved
      }
      usdgAmounts := usdgAmounts[token := debt - amount];
      r := Ok(());
    }

    // -------------------------------------------------------------------------
    // Reservations, guaranteed USD and the global short book

    /** `increase_reserved_amount`: the sum is discarded (quirk); errs (code
        52) unless the reservation fits in the pool, and saves the
        reservation back unchanged. */
    method IncreaseReservedAmount(token: Addr, amount: nat) returns (r: Result<()>)
      modifies this`reservedAmounts
      ensures reservedAmounts == old(reservedAmounts)
      ensures r.Ok? <==> (token in reservedAmounts && token in poolAmounts
                          && reservedAmounts[token] <= poolAmounts[token])
      ensures token in reservedAmounts && token in poolAmounts && r.Fail? ==> r.failure == Err(CodeError(52))
    {
      var reserved :- LoadOrAbort(reservedAmounts, token);
      var pool :- LoadOrAbort(poolAmounts, token);
      var _ := reserved + amount;   // `reserved_amounts.add(amount)`: result discarded
      var _ :- Validate(reserved <= pool, 52);
      reservedAmounts := reservedAmounts[token := reserved];
      r := Ok(());
    }

    /** `decrease_reserved_amount`: aborts when `amount` exceeds the
        reservation; the difference is discarded (quirk). */
    method DecreaseReservedAmount(token: Addr, amount: nat) returns (r: Result<()>)
      modifies this`reservedAmounts
      ensures reservedAmounts == old(reservedAmounts)
      ensures r.Ok? <==> token in reservedAmounts && amount <= reservedAmounts[token]
      ensures r.Fail? ==> r.failure.Abort?
    {
      var reserved :- LoadOrAbort(reservedAmounts, token);
      var _ :- Sub(reserved, amount);   // result discarded
      reservedAmounts := reservedAmounts[token := reserved];
      r := Ok(());
    }

    /** `increase_guarnteed_usd`: the sum is discarded (quirk). */
    method IncreaseGuaranteedUsd(token: Addr, amount: nat) returns (r: Result<()>)
      modifies this`guaranteedUsd
      ensures guaranteedUsd == old(guaranteedUsd)
      ensures r.Ok? <==> token in guaranteedUsd
      ensures r.Fail? ==> r.failure.Abort?
    {
      var guaranteed :- LoadOrAbort(guaranteedUsd, token);
      var _ := guaranteed + amount;   // result discarded
      guaranteedUsd := guaranteedUsd[token := guaranteed];
      r := Ok(());
    }

    /** `decrease_guarnteed_usd`: aborts when `amount` exceeds the guaranteed
        USD; the difference is discarded (quirk). */
    method DecreaseGuaranteedUsd(token: Addr, amount: nat) returns (r: Result<()>)
      modifies this`guaranteedUsd
      ensures guaranteedUsd == old(guaranteedUsd)
      ensures r.Ok? <==> token in guaranteedUsd && amount <= guaranteedUsd[token]
      ensures r.Fail? ==> r.failure.Abort?
    {
      var guaranteed :- LoadOrAbort(guaranteedUsd, token);
      var _ :- Sub(guaranteed, amount);   // result discarded
      guaranteedUsd := guaranteedUsd[token := guaranteed];
      r := Ok(());
    }

    /** `increase_global_short_size`: the sum is discarded (quirk) and the
        size saved back unchanged; with a non-zero maximum it then errs when
        the size is AT MOST the maximum (quirk: the comparison is inverted). */
    method IncreaseGlobalShortSize(token: Addr, amount: nat) returns (r: Result<()>)
      modifies this`globalShortSizes
      ensures globalShortSizes == old(globalShortSizes)
      ensures r.Ok? <==> (token in globalShortSizes && token in maxGlobalShortSizes
                          && (maxGlobalShortSizes[token] == 0 || globalShortSizes[token] > maxGlobalShortSizes[token]))
      ensures token in globalShortSizes && token in maxGlobalShortSizes && maxGlobalShortSizes[token] != 0
              && globalShortSizes[token] <= maxGlobalShortSizes[token]
              ==> r == Fail(Err(Std(GenericErr("Vault: max shorts exceeded"))))
    {
      var size :- Load(globalShortSizes, token);
      var maxSize :- Load(maxGlobalShortSizes, token);
      var _ := size + amount;   // `global_short_sizes.add(amount)`: result discarded
      globalShortSizes := globalShortSizes[token := size];
      if maxSize != 0 && size <= maxSize {
        return Fail(Err(Std(GenericErr("Vault: max shorts exceeded"))));
      }
      r := Ok(());
    }

    /** `decrease_global_short_size`: an amount above the size is meant to
        floor the size at zero, but that branch returns before saving
        (quirk); otherwise the difference is discarded (quirk). The size
        never changes. */
    method DecreaseGlobalShortSize(token: Addr, amount: nat) returns (r: Result<()>)
      modifies this`globalShortSizes
      ensures globalShortSizes == old(globalShortSizes)
      ensures r.Ok? <==> token in globalShortSizes
      ensures r.Fail? ==> r.failure == Err(Std(NotFound))
    {
      var size :- Load(globalShortSizes, token);
      if amount > size {
        return Ok(());   // `global_short_sizes = 0` is never saved
      }
      var _ := size - amount;   // `global_short_sizes.sub(amount)`: result discarded
      globalShortSizes := globalShortSizes[token := size];
      r := Ok(());
    }

    // -------------------------------------------------------------------------
    // Decimals and conversions

    /** The decimals `adjust_for_decimals` uses for `token`: 18 for USDG,
        otherwise the stored decimals. */
    function DecimalsOf(token: Addr): nat
      reads this`addresses, this`tokenDecimals
      requires addresses.Some? && (token == addresses.value.usdg || token in tokenDecimals)
    {
      if token == addresses.value.usdg then USDG_DECIMALS else tokenDecimals[token]
    }

    /** `adjust_for_decimals` with the decimals loaded (every load panics
        when missing). */
    function AdjustForDecimalsOf(amount: nat, tokenDiv: Addr, tokenMul: Addr): (r: Result<nat>)
      reads this`addresses, this`tokenDecimals
      ensures r.Ok? <==> (addresses.Some?
                          && (tokenDiv == addresses.value.usdg || tokenDiv in tokenDecimals)
                          && (tokenMul == addresses.value.usdg || tokenMul in tokenDecimals))
      ensures r.Ok? ==> r.value == AdjustForDecimals(amount, DecimalsOf(tokenDiv), DecimalsOf(tokenMul))
      ensures r.Fail? ==> r.failure.Abort?
    {
      var addrs :- LoadItemOrAbort(addresses);
      var decimalsDiv :- if tokenDiv == addrs.usdg then Ok(USDG_DECIMALS) else LoadOrAbort(tokenDecimals, tokenDiv);
      var decimalsMul :- if tokenMul == addrs.usdg then Ok(USDG_DECIMALS) else LoadOrAbort(tokenDecimals, tokenMul);
      Ok(AdjustForDecimals(amount, decimalsDiv, decimalsMul))
    }

    /** `usd_to_token_min`: a zero amount is 0 without loading anything;
        otherwise the token's decimals are loaded (panicking when missing)
        and the amount is scaled at the stub price 1. */
    function UsdToTokenMinOf(token: Addr, usdAmount: nat): (r: Result<nat>)
      reads this`tokenDecimals
      ensures usdAmount == 0 ==> r == Ok(0)
      ensures r.Ok? <==> usdAmount == 0 || token in tokenDecimals
      ensures token in tokenDecimals ==> r == Ok(usdAmount * Pow10(tokenDecimals[token]))
      ensures r.Fail? ==> r.failure == Abort(UnwrapErr(Std(NotFound)))
    {
      if usdAmount == 0 then Ok(0)
      else
        var decimals :- LoadOrAbort(tokenDecimals, token);
        UsdToTokenMin(usdAmount, decimals)
    }

    /** `token_to_usd_min`: loads the decimals first (panicking when
        missing); the hard-coded price 0 makes every amount worth 0. */
    function TokenToUsdMinOf(token: Addr, tokenAmount: nat): (r: Result<nat>)
      reads this`tokenDecimals
      ensures r.Ok? <==> token in tokenDecimals
      ensures r.Ok? ==> r.value == 0
      ensures r.Fail? ==> r.failure == Abort(UnwrapErr(Std(NotFound)))
    {
      var decimals :- LoadOrAbort(tokenDecimals, token);
      Ok(TokenToUsdMin(tokenAmount, decimals))
    }

    /** `get_redemption_amount`: the USDG amount at the stub price, moved
        from USDG's 18 decimals to the token's. */
    function GetRedemptionAmount(token: Addr, usdgAmount: nat): (r: Result<nat>)
      reads this`addresses, this`tokenDecimals
      ensures r.Ok? <==> addresses.Some? && (token == addresses.value.usdg || token in tokenDecimals)
      ensures r.Ok? ==> r.value == AdjustForDecimals(usdgAmount * PRICE_PRECISION, USDG_DECIMALS, DecimalsOf(token))
    {
      var redemption := usdgAmount * PRICE_PRECISION / STUB_PRICE;
      var addrs :- LoadItemOrAbort(addresses);
      AdjustForDecimalsOf(redemption, addrs.usdg, token)
    }

    /** `_collect_swap_fees`: the amount after fees; the fee reserve is
        loaded (panicking when missing) and increased only in a local (quirk:
        never saved). */
    function CollectSwapFees(token: Addr, amount: nat, feeBasisPoints: nat): (r: Result<nat>)
      reads this`feeReserves
      ensures r.Ok? <==> feeBasisPoints <= amount * BASIS_POINTS_DIVISOR && token in feeReserves
      ensures r.Ok? ==> r.value <= amount
      ensures r.Ok? && feeBasisPoints == 0 ==> r.value == amount
    {
      var afterFees :- SwapAmountAfterFees(amount, feeBasisPoints);
      var feeAmount := amount - afterFees;
      var reserve :- LoadOrAbort(feeReserves, token);
      var _ := reserve + feeAmount;   // never saved
      Ok(afterFees)
    }

    /** `collect_margin_fees`: the margin fee is hard-coded to 0; the fee
        reserve is loaded (panicking when missing) and saved back unchanged. */
    method CollectMarginFees(collateralToken: Addr) returns (r: Result<nat>)
      modifies this`feeReserves
      ensures feeReserves == old(feeReserves)
      ensures r.Ok? <==> collateralToken in feeReserves
      ensures r.Ok? ==> r.value == 0
      ensures r.Fail? ==> r.failure == Abort(UnwrapErr(Std(NotFound)))
    {
      var reserve :- LoadOrAbort(feeReserves, collateralToken);
      var feeUsd := 0;   // hard-coded, as is the funding fee added to it
      var feeTokens := UsdToTokenMinOf(collateralToken, feeUsd).value;
      var _ := reserve + feeTokens;   // `fee_reserves.add(fee_tokens)`: result discarded
      feeReserves := feeReserves[collateralToken := reserve];
      r := Ok(feeUsd);
    }

    // -------------------------------------------------------------------------
    // Profit and loss with the configuration loaded

    /** `get_delta`: loads the configuration and the index token's minimum
        profit (both panic when missing) and marks the position at the
        hard-coded price (0 for a long, 1 for a short). */
    function GetDeltaOf(env: Env, indexToken: Addr, size: nat, averagePrice: nat, isLong: bool,
                        lastIncreasedTime: nat): (r: Result<Delta>)
      reads this`stateVariables, this`minProfitBasisPoints
      ensures r.Ok? <==> stateVariables.Some? && indexToken in minProfitBasisPoints && averagePrice != 0
      ensures r.Ok? ==> r == GetDelta(size, averagePrice, isLong, DeltaMarkPrice(isLong), lastIncreasedTime,
                                      env.blockTime, stateVariables.value.minProfitTime,
                                      minProfitBasisPoints[indexToken])
      // At mark price 0 a long always shows a loss of its whole size.
      ensures r.Ok? && isLong ==> r.value == Delta(false, size)
    {
      var sv :- LoadItemOrAbort(stateVariables);
      var minBps :- LoadOrAbort(minProfitBasisPoints, indexToken);
      assert averagePrice != 0 && isLong ==>
        GetDelta(size, averagePrice, true, DeltaMarkPrice(true), lastIncreasedTime, env.blockTime,
                 sv.minProfitTime, minBps) == Ok(Delta(false, size)) by {
        if averagePrice != 0 && isLong {
          LongDeltaAtMarkPrice(size, averagePrice, lastIncreasedTime, env.blockTime, sv.minProfitTime, minBps);
        }
      }
      GetDelta(size, averagePrice, isLong, DeltaMarkPrice(isLong), lastIncreasedTime, env.blockTime,
               sv.minProfitTime, minBps)
    }

    /** `get_next_global_short_average_price` with the global short size and
        average price loaded. */
    function GetNextGlobalShortAveragePriceOf(indexToken: Addr, nextPrice: nat, sizeDelta: nat): (r: Result<nat>)
      reads this`globalShortSizes, this`globalShortAveragePrices
      ensures !(indexToken in globalShortSizes && indexToken in globalShortAveragePrices)
              ==> r == Fail(Err(Std(NotFound)))
      ensures indexToken in globalShortSizes && indexToken in globalShortAveragePrices
              ==> r == GetNextGlobalShortAveragePrice(globalShortSizes[indexToken],
                                                      globalShortAveragePrices[indexToken], nextPrice, sizeDelta)
    {
      var size :- Load(globalShortSizes, indexToken);
      var averagePrice :- Load(globalShortAveragePrices, indexToken);
      GetNextGlobalShortAveragePrice(size, averagePrice, nextPrice, sizeDelta)
    }

    // -------------------------------------------------------------------------
    // Funding

    /** Whether `update_cumulative_funding_rate` records a new funding time
        for `token`: a non-zero time is on record and a whole interval has
        passed. */
    predicate FundingDue(env: Env, token: Addr)
      reads this`lastFundingTimes, this`stateVariables
    {
      token in lastFundingTimes && stateVariables.Some? && lastFundingTimes[token] != 0
      && lastFundingTimes[token] + stateVariables.value.fundingInterval <= env.blockTime
    }

    /** Whether `update_cumulative_funding_rate` for `token` goes through
        when the last funding times are `times`: a time and the
        configuration are on record; a zero time needs a non-zero interval
        for the bucket it computes (and discards); a due update needs a
        non-zero interval, the pool, for a non-empty pool the stable flag and
        the reservation, and the cumulative rate. */
    predicate FundingUpdatable(times: map<Addr, nat>, env: Env, token: Addr)
      reads this`stateVariables, this`poolAmounts, this`stableTokens, this`reservedAmounts,
            this`cumulativeFundingRates
    {
      token in times && stateVariables.Some?
      && var last := times[token];
         var interval := stateVariables.value.fundingInterval;
         (last == 0 ==> interval != 0)
         && (last != 0 && last + interval <= env.blockTime
             ==> interval != 0 && token in poolAmounts
                 && (poolAmounts[token] > 0 ==> token in stableTokens && token in reservedAmounts)
                 && token in cumulativeFundingRates)
    }

    /** `get_next_funding_rate`: 0 until a whole interval has passed or for
        an empty pool; otherwise the (stable or volatile) factor times the
        reservation times the interval count, over the pool. */
    function GetNextFundingRate(env: Env, token: Addr): (r: Result<nat>)
      reads this`lastFundingTimes, this`stateVariables, this`poolAmounts, this`stableTokens,
            this`reservedAmounts
      ensures r.Ok? <==> token in lastFundingTimes && stateVariables.Some?
                         && (lastFundingTimes[token] + stateVariables.value.fundingInterval <= env.blockTime
                             ==> stateVariables.value.fundingInterval != 0 && token in poolAmounts
                                 && (poolAmounts[token] > 0 ==> token in stableTokens && token in reservedAmounts))
      ensures token in lastFundingTimes && stateVariables.Some?
              && lastFundingTimes[token] + stateVariables.value.fundingInterval > env.blockTime
              ==> r == Ok(0)
      ensures r.Ok? && lastFundingTimes[token] + stateVariables.value.fundingInterval <= env.blockTime
              ==> token in poolAmounts
                  && FundingIntervals(lastFundingTimes[token], stateVariables.value.fundingInterval,
                                      env.blockTime).Ok?
      ensures r.Ok? && lastFundingTimes[token] + stateVariables.value.fundingInterval <= env.blockTime
              && poolAmounts[token] == 0
              ==> r.value == 0
      ensures r.Ok? && lastFundingTimes[token] + stateVariables.value.fundingInterval <= env.blockTime
              && poolAmounts[token] > 0
              ==> var sv := stateVariables.value;
                  token in stableTokens && token in reservedAmounts
                  && r.value == FundingRate(if stableTokens[token] then sv.stableFundingRateFactor
                                            else sv.fundingRateFactor,
                                            reservedAmounts[token],
                                            FundingIntervals(lastFundingTimes[token], sv.fundingInterval,
                                                             env.blockTime).value,
                                            poolAmounts[token])
    {
      var last :- LoadOrAbort(lastFundingTimes, token);
      var sv :- LoadItemOrAbort(stateVariables);
      if last + sv.fundingInterval > env.blockTime then Ok(0)
      else
        var intervals :- FundingIntervals(last, sv.fundingInterval, env.blockTime);
        var pool :- Load(poolAmounts, token);
        if pool == 0 then Ok(0)
        else
          var isStable :- Load(stableTokens, token);
          var factor := if isStable then sv.stableFundingRateFactor else sv.fundingRateFactor;
          var reserved :- Load(reservedAmounts, token);
          Ok(FundingRate(factor, reserved, intervals, pool))
    }

    /** `update_cumulative_funding_rate`: writes only the last funding time,
        and only when funding is due (the rounded time computed for a zero
        record is discarded); the cumulative rate is loaded but never written. */
    method UpdateCumulativeFundingRate(env: Env, token: Addr) returns (r: Result<()>)
      modifies this`lastFundingTimes
      ensures r.Ok? <==> old(FundingUpdatable(lastFundingTimes, env, token))
      ensures r.Ok? ==> lastFundingTimes == FundingTimesAfterUpdate(old(lastFundingTimes),
                                              stateVariables.value.fundingInterval, env.blockTime, token)
      ensures r.Ok? && old(FundingDue(env, token)) ==> stateVariables.value.fundingInterval != 0
      ensures r.Fail? ==> lastFundingTimes == old(lastFundingTimes)
    {
      var last :- LoadOrAbort(lastFundingTimes, token);
      var sv :- LoadItemOrAbort(stateVariables);
      if last == 0 {
        var _ :- FundingBucket(env.blockTime, sv.fundingInterval);   // computed, never saved
        return Ok(());
      }
      if last + sv.fundingInterval > env.blockTime {
        return Ok(());
      }
      var _ :- Unwrap(GetNextFundingRate(env, token));
      var _ :- LoadOrAbort(cumulativeFundingRates, token);
      // The rate computation above divided by the interval, so it is not 0
      // and the bucket cannot fail.
      var bucket := FundingBucket(env.blockTime, sv.fundingInterval).value;
      lastFundingTimes := lastFundingTimes[token := bucket];
      r := Ok(());
    }
    // -------------------------------------------------------------------------
    // Governance

    /** `try_initialize`: only the governor (a panic otherwise), only once
        (code 1); stores the addresses and the initial configuration. */
    method Initialize(sender: Addr, router: Addr, usdg: Addr, priceFeed: Addr, liquidationFeeUsd: nat,
                      fundingRateFactor: nat, stableFundingRateFactor: nat) returns (r: Result<()>)
      modifies this`isInitialized, this`addresses, this`stateVariables
      ensures r.Ok? <==> sender == gov && !old(isInitialized)
      ensures sender != gov ==> r == Fail(Abort(UnwrapErr(CodeError(53))))
      ensures sender == gov && old(isInitialized) ==> r == Fail(Err(CodeError(1)))
      ensures r.Ok? ==> isInitialized
      ensures r.Ok? ==> addresses == Some(AddressesStruct(router, priceFeed, usdg, ""))
      ensures r.Ok? ==> stateVariables == Some(InitialStateVariables(liquidationFeeUsd, fundingRateFactor,
                                                                     stableFundingRateFactor))
      ensures r.Ok? && tokenWeights == map[] ==> WeightsAccounted()
      ensures r.Fail? ==> unchanged(this)
    {
      var _ :- OnlyGov(sender);
      var _ :- Validate(!isInitialized, 1);
      isInitialized := true;
      addresses := Some(AddressesStruct(router, priceFeed, usdg, ""));
      stateVariables := Some(InitialStateVariables(liquidationFeeUsd, fundingRateFactor, stableFundingRateFactor));
      r := Ok(());
    }

    /** `try_set_in_managermode`. */
    method SetInManagerMode(sender: Addr, inManagerMode: bool) returns (r: Result<()>)
      modifies this`stateVariables
      ensures r.Ok? <==> sender == gov && old(stateVariables).Some?
      ensures r.Ok? ==> stateVariables == Some(old(stateVariables).value.(inManagerMode := inManagerMode))
      ensures r.Fail? ==> unchanged(this)
    {
      var _ :- OnlyGov(sender);
      var sv :- LoadItem(stateVariables);
      stateVariables := Some(sv.(inManagerMode := inManagerMode));
      r := Ok(());
    }

    /** `try_set_manager`: a missing flag defaults to false before being
        overwritten, so only the governor check can fail. */
    method SetManager(sender: Addr, manager: Addr, isActive: bool) returns (r: Result<()>)
      modifies this`isManager
      ensures r.Ok? <==> sender == gov
      ensures r.Ok? ==> isManager == old(isManager)[manager := isActive]
      ensures r.Fail? ==> unchanged(this)
    {
      var _ :- OnlyGov(sender);
      isManager := isManager[manager := isActive];
      r := Ok(());
    }

    /** `try_set_in_private_liquidation_mode`. */
    method SetInPrivateLiquidationMode(sender: Addr, inPrivateLiquidationMode: bool) returns (r: Result<()>)
      modifies this`stateVariables
      ensures r.Ok? <==> sender == gov && old(stateVariables).Some?
      ensures r.Ok? ==> stateVariables == Some(old(stateVariables).value.(inPrivateLiquidationMode := inPrivateLiquidationMode))
      ensures r.Fail? ==> unchanged(this)
    {
      var _ :- OnlyGov(sender);
      var sv :- LoadItem(stateVariables);
      stateVariables := Some(sv.(inPrivateLiquidationMode := inPrivateLiquidationMode));
      r := Ok(());
    }

    /** `try_set_liquidator`: like `try_set_manager`, for liquidators. */
    method SetLiquidator(sender: Addr, liquidator: Addr, isActive: bool) returns (r: Result<()>)
      modifies this`isLiquidator
      ensures r.Ok? <==> sender == gov
      ensures r.Ok? ==> isLiquidator == old(isLiquidator)[liquidator := isActive]
      ensures r.Fail? ==> unchanged(this)
    {
      var _ :- OnlyGov(sender);
      isLiquidator := isLiquidator[liquidator := isActive];
      r := Ok(());
    }

    /** `try_set_is_swap_enabled`. */
    method SetIsSwapEnabled(sender: Addr, enabled: bool) returns (r: Result<()>)
      modifies this`isSwapEnabled
      ensures r.Ok? <==> sender == gov
      ensures r.Ok? ==> isSwapEnabled == enabled
      ensures r.Fail? ==> unchanged(this)
    {
      var _ :- OnlyGov(sender);
      isSwapEnabled := enabled;
      r := Ok(());
    }

    /** `try_set_is_leverage_enabled`. */
    method SetIsLeverageEnabled(sender: Addr, enabled: bool) returns (r: Result<()>)
      modifies this`isLeverageEnabled
      ensures r.Ok? <==> sender == gov
      ensures r.Ok? ==> isLeverageEnabled == enabled
      ensures r.Fail? ==> unchanged(this)
    {
      var _ :- OnlyGov(sender);
      isLeverageEnabled := enabled;
      r := Ok(());
    }

    /** `try_set_max_gas_price`. */
    method SetMaxGasPrice(sender: Addr, maxGasPrice: nat) returns (r: Result<()>)
      modifies this`stateVariables
      ensures r.Ok? <==> sender == gov && old(stateVariables).Some?
      ensures r.Ok? ==> stateVariables == Some(old(stateVariables).value.(maxGasPrice := maxGasPrice))
      ensures r.Fail? ==> unchanged(this)
    {
      var _ :- OnlyGov(sender);
      var sv :- LoadItem(stateVariables);
      stateVariables := Some(sv.(maxGasPrice := maxGasPrice));
      r := Ok(());
    }

    /** `try_set_gov`: hands governance over; the old governor loses it. */
    method SetGov(sender: Addr, newGov: Addr) returns (r: Result<()>)
      modifies this`gov
      ensures r.Ok? <==> sender == old(gov)
      ensures r.Ok? ==> gov == newGov
      ensures r.Ok? && newGov != sender ==> OnlyGov(sender).Fail?
      ensures r.Fail? ==> unchanged(this)
    {
      var _ :- OnlyGov(sender);
      gov := newGov;
      r := Ok(());
    }

    /** `try_set_max_leverage`: the bound check (code 2) comes before the
        configuration is loaded. */
    method SetMaxLeverage(sender: Addr, maxLeverage: nat) returns (r: Result<()>)
      modifies this`stateVariables
      ensures r.Ok? <==> sender == gov && maxLeverage > MIN_LEVERAGE && old(stateVariables).Some?
      ensures sender == gov && maxLeverage <= MIN_LEVERAGE ==> r == Fail(Err(CodeError(2)))
      ensures r.Ok? ==> stateVariables == Some(old(stateVariables).value.(maxLeverage := maxLeverage))
      ensures r.Fail? ==> unchanged(this)
    {
      var _ :- OnlyGov(sender);
      var _ :- ValidateMaxLeverage(maxLeverage);
      var sv :- LoadItem(stateVariables);
      stateVariables := Some(sv.(maxLeverage := maxLeverage));
      r := Ok(());
    }

    /** `try_set_buffer_amount`: a missing entry defaults to 0 first. */
    method SetBufferAmount(sender: Addr, token: Addr, amount: nat) returns (r: Result<()>)
      modifies this`bufferAmounts
      ensures r.Ok? <==> sender == gov
      ensures r.Ok? ==> bufferAmounts == old(bufferAmounts)[token := amount]
      // The buffer is set without looking at the pool, so a buffer above
      // the pool breaks the cover.
      ensures r.Ok? && token in poolAmounts && poolAmounts[token] < amount ==> !BuffersCovered()
      ensures r.Ok? && token in poolAmounts && amount <= poolAmounts[token]
              ==> (old(BuffersCovered()) ==> BuffersCovered())
      ensures r.Fail? ==> unchanged(this)
    {
      var _ :- OnlyGov(sender);
      bufferAmounts := bufferAmounts[token := amount];
      r := Ok(());
    }

    /** `try_set_max_global_short_size`: a missing entry defaults to 0 first. */
    method SetMaxGlobalShortSize(sender: Addr, token: Addr, amount: nat) returns (r: Result<()>)
      modifies this`maxGlobalShortSizes
      ensures r.Ok? <==> sender == gov
      ensures r.Ok? ==> maxGlobalShortSizes == old(maxGlobalShortSizes)[token := amount]
      ensures r.Fail? ==> unchanged(this)
    {
      var _ :- OnlyGov(sender);
      maxGlobalShortSizes := maxGlobalShortSizes[token := amount];
      r := Ok(());
    }

    /** `try_set_fees`: every bound (codes 3 to 9) is checked before the
        configuration is loaded; then nine fields are replaced. */
    method SetFees(sender: Addr, taxBasisPoints: nat, stableTaxBasisPoints: nat, mintBurnFeeBasisPoints: nat,
                   swapFeeBasisPoints: nat, stableSwapFeeBasisPoints: nat, marginFeeBasisPoints: nat,
                   liquidationFeeUsd: nat, minProfitTime: nat, hasDynamicFees: bool) returns (r: Result<()>)
      modifies this`stateVariables
      ensures r.Ok? <==> (sender == gov && old(stateVariables).Some?
                          && ValidateFees(taxBasisPoints, stableTaxBasisPoints, mintBurnFeeBasisPoints,
                                          swapFeeBasisPoints, stableSwapFeeBasisPoints, marginFeeBasisPoints,
                                          liquidationFeeUsd).Ok?)
      ensures r.Ok? ==> liquidationFeeUsd <= MAX_FEE_BASIS_POINTS && marginFeeBasisPoints <= MAX_FEE_BASIS_POINTS
      ensures r.Ok? ==> stateVariables == Some(old(stateVariables).value.(
                          taxBasisPoints := taxBasisPoints,
                          stableTaxBasisPoints := stableTaxBasisPoints,
                          mintBurnFeeBasisPoints := mintBurnFeeBasisPoints,
                          swapFeeBasisPoints := swapFeeBasisPoints,
                          stableSwapFeeBasisPoints := stableSwapFeeBasisPoints,
                          marginFeeBasisPoints := marginFeeBasisPoints,
                          liquidationFeeUsd := liquidationFeeUsd,
                          minProfitTime := minProfitTime,
                          hasDynamicFees := hasDynamicFees))
      ensures r.Fail? ==> unchanged(this)
    {
      var _ :- OnlyGov(sender);
      var _ :- ValidateFees(taxBasisPoints, stableTaxBasisPoints, mintBurnFeeBasisPoints, swapFeeBasisPoints,
                            stableSwapFeeBasisPoints, marginFeeBasisPoints, liquidationFeeUsd);
      var sv :- LoadItem(stateVariables);
      stateVariables := Some(sv.(
        taxBasisPoints := taxBasisPoints,
        stableTaxBasisPoints := stableTaxBasisPoints,
        mintBurnFeeBasisPoints := mintBurnFeeBasisPoints,
        swapFeeBasisPoints := swapFeeBasisPoints,
        stableSwapFeeBasisPoints := stableSwapFeeBasisPoints,
        marginFeeBasisPoints := marginFeeBasisPoints,
        liquidationFeeUsd := liquidationFeeUsd,
        minProfitTime := minProfitTime,
        hasDynamicFees := hasDynamicFees));
      r := Ok(());
    }

    /** `try_set_funding_rate`: bounds (codes 10 to 12) first, then three
        fields are replaced. */
    method SetFundingRate(sender: Addr, fundingInterval: nat, fundingRateFactor: nat,
                          stableFundingRateFactor: nat) returns (r: Result<()>)
      modifies this`stateVariables
      ensures r.Ok? <==> (sender == gov && old(stateVariables).Some?
                          && ValidateFundingRate(fundingInterval, fundingRateFactor, stableFundingRateFactor).Ok?)
      ensures r.Ok? ==> fundingInterval <= MIN_FUNDING_RATE_INTERVAL
      ensures r.Ok? ==> stateVariables == Some(old(stateVariables).value.(
                          fundingInterval := fundingInterval,
                          fundingRateFactor := fundingRateFactor,
                          stableFundingRateFactor := stableFundingRateFactor))
      ensures r.Fail? ==> unchanged(this)
    {
      var _ :- OnlyGov(sender);
      var _ :- ValidateFundingRate(fundingInterval, fundingRateFactor, stableFundingRateFactor);
      var sv :- LoadItem(stateVariables);
      stateVariables := Some(sv.(
        fundingInterval := fundingInterval,
        fundingRateFactor := fundingRateFactor,
        stableFundingRateFactor := stableFundingRateFactor));
      r := Ok(());
    }

    /** `try_set_token_config`: every per-token entry must already be stored
        (each load uses `?`), so a token can only be reconfigured, never
        added. The total weight drops by the old weight (aborting below zero)
        and rises by the new one; a token not yet whitelisted is counted and
        appended to the token list. Quirk: `min_profit_bps` is saved as the
        token's maximum USDG amount and `max_usdg_amount` is ignored. */
    method SetTokenConfig(sender: Addr, token: Addr, decimals: nat, weight: nat, minProfitBps: nat,
                          maxUsdgAmount: nat, isStable: bool, isShortable: bool) returns (r: Result<()>)
      modifies this`whitelistedTokens, this`stateVariables, this`tokenWeights, this`tokenDecimals,
               this`minProfitBasisPoints, this`maxUsdgAmounts, this`stableTokens, this`shortableTokens
      ensures r.Ok? <==> (sender == gov && old(stateVariables).Some?
                          && token in old(whitelistedTokens) && token in old(tokenWeights)
                          && token in old(tokenDecimals) && token in old(minProfitBasisPoints)
                          && token in old(maxUsdgAmounts) && token in old(stableTokens)
                          && token in old(shortableTokens)
                          && old(tokenWeights)[token] <= old(stateVariables).value.totalTokenWeights)
      ensures r.Ok? ==> whitelistedTokens == old(whitelistedTokens)[token := true]
      ensures r.Ok? ==> tokenDecimals == old(tokenDecimals)[token := decimals]
      ensures r.Ok? ==> tokenWeights == old(tokenWeights)[token := weight]
      ensures r.Ok? ==> minProfitBasisPoints == old(minProfitBasisPoints)[token := minProfitBps]
      ensures r.Ok? ==> maxUsdgAmounts == old(maxUsdgAmounts)[token := minProfitBps]
      ensures r.Ok? ==> stableTokens == old(stableTokens)[token := isStable]
      ensures r.Ok? ==> shortableTokens == old(shortableTokens)[token := isShortable]
      ensures r.Ok? ==> stateVariables == Some(ConfiguredState(old(stateVariables).value, token,
                                                               old(whitelistedTokens)[token],
                                                               old(tokenWeights)[token], weight))
      ensures old(WeightsAccounted()) ==> WeightsAccounted()
      ensures r.Fail? ==> unchanged(this)
    {
      var _ :- OnlyGov(sender);
      // The eight loads fail alike (not found); any missing entry stops the call.
      if !(token in whitelistedTokens && stateVariables.Some? && token in tokenWeights
           && token in tokenDecimals && token in minProfitBasisPoints && token in maxUsdgAmounts
           && token in stableTokens && token in shortableTokens) {
        return Fail(Err(Std(NotFound)));
      }
      var whitelisted := whitelistedTokens[token];
      var sv := stateVariables.value;
      var oldWeight := tokenWeights[token];
      var _ :- Sub(sv.totalTokenWeights, oldWeight);
      if old(WeightsAccounted()) {
        SumAfterUpdate(tokenWeights, token, weight);
      }
      stateVariables := Some(ConfiguredState(sv, token, whitelisted, oldWeight, weight));
      // Quirk: `min_profit_bps` goes in as the maximum USDG amount.
      StoreTokenEntries(token, decimals, weight, minProfitBps, minProfitBps, isStable, isShortable);
      r := Ok(());
    }

    /** The seven per-token saves of `try_set_token_config`. */
    method StoreTokenEntries(token: Addr, decimals: nat, weight: nat, minProfitBps: nat,
                             maxUsdgAmount: nat, isStable: bool, isShortable: bool)
      modifies this`whitelistedTokens, this`tokenWeights, this`tokenDecimals, this`minProfitBasisPoints,
               this`maxUsdgAmounts, this`stableTokens, this`shortableTokens
      ensures whitelistedTokens == old(whitelistedTokens)[token := true]
      ensures tokenDecimals == old(tokenDecimals)[token := decimals]
      ensures tokenWeights == old(tokenWeights)[token := weight]
      ensures minProfitBasisPoints == old(minProfitBasisPoints)[token := minProfitBps]
      ensures maxUsdgAmounts == old(maxUsdgAmounts)[token := maxUsdgAmount]
      ensures stableTokens == old(stableTokens)[token := isStable]
      ensures shortableTokens == old(shortableTokens)[token := isShortable]
    {
      whitelistedTokens := whitelistedTokens[token := true];
      tokenWeights := tokenWeights[token := weight];
      tokenDecimals := tokenDecimals[token := decimals];
      minProfitBasisPoints := minProfitBasisPoints[token := minProfitBps];
      maxUsdgAmounts := maxUsdgAmounts[token := maxUsdgAmount];
      stableTokens := stableTokens[token := isStable];
      shortableTokens := shortableTokens[token := isShortable];
    }

    /** `try_clear_token_config`: for a whitelisted token (code 13), takes
        its weight off the total (aborting below zero) and removes its seven
        per-token entries. Quirk: the token count and the token list are not
        updated. */
    method ClearTokenConfig(sender: Addr, token: Addr) returns (r: Result<()>)
      modifies this`whitelistedTokens, this`stateVariables, this`tokenWeights, this`tokenDecimals,
               this`minProfitBasisPoints, this`maxUsdgAmounts, this`stableTokens, this`shortableTokens
      ensures r.Ok? <==> (sender == gov && token in old(whitelistedTokens) && old(whitelistedTokens)[token]
                          && old(stateVariables).Some? && token in old(tokenWeights)
                          && old(tokenWeights)[token] <= old(stateVariables).value.totalTokenWeights)
      ensures sender == gov && token in old(whitelistedTokens) && !old(whitelistedTokens)[token]
              ==> r == Fail(Err(CodeError(13)))
      ensures r.Ok? ==> whitelistedTokens == old(whitelistedTokens) - {token}
      ensures r.Ok? ==> tokenDecimals == old(tokenDecimals) - {token}
      ensures r.Ok? ==> tokenWeights == old(tokenWeights) - {token}
      ensures r.Ok? ==> minProfitBasisPoints == old(minProfitBasisPoints) - {token}
      ensures r.Ok? ==> maxUsdgAmounts == old(maxUsdgAmounts) - {token}
      ensures r.Ok? ==> stableTokens == old(stableTokens) - {token}
      ensures r.Ok? ==> shortableTokens == old(shortableTokens) - {token}
      ensures r.Ok? ==>
        var sv := old(stateVariables).value;
        stateVariables == Some(sv.(totalTokenWeights := sv.totalTokenWeights - old(tokenWeights)[token]))
      ensures old(WeightsAccounted()) ==> WeightsAccounted()
      ensures r.Fail? ==> unchanged(this)
    {
      var _ :- OnlyGov(sender);
      var whitelisted :- Load(whitelistedTokens, token);
      var _ :- Validate(whitelisted, 13);
      var sv :- LoadItem(stateVariables);
      var weight :- Load(tokenWeights, token);
      var total :- Sub(sv.totalTokenWeights, weight);
      if old(WeightsAccounted()) {
        SumAfterRemove(tokenWeights, token);
      }
      RemoveTokenEntries(token);
      stateVariables := Some(sv.(totalTokenWeights := total));
      r := Ok(());
    }

    /** The seven per-token removals of `try_clear_token_config`. */
    method RemoveTokenEntries(token: Addr)
      modifies this`whitelistedTokens, this`tokenWeights, this`tokenDecimals, this`minProfitBasisPoints,
               this`maxUsdgAmounts, this`stableTokens, this`shortableTokens
      ensures whitelistedTokens == old(whitelistedTokens) - {token}
      ensures tokenDecimals == old(tokenDecimals) - {token}
      ensures tokenWeights == old(tokenWeights) - {token}
      ensures minProfitBasisPoints == old(minProfitBasisPoints) - {token}
      ensures maxUsdgAmounts == old(maxUsdgAmounts) - {token}
      ensures stableTokens == old(stableTokens) - {token}
      ensures shortableTokens == old(shortableTokens) - {token}
    {
      whitelistedTokens := whitelistedTokens - {token};
      tokenDecimals := tokenDecimals - {token};
      tokenWeights := tokenWeights - {token};
      minProfitBasisPoints := minProfitBasisPoints - {token};
      maxUsdgAmounts := maxUsdgAmounts - {token};
      stableTokens := stableTokens - {token};
      shortableTokens := shortableTokens - {token};
    }

    /** `try_withdraw_fees`: the token's whole fee reserve is withdrawn and
        the reserve zeroed (a zero reserve is left alone). The result is the
        amount withdrawn. Quirk: the transfer's response is discarded, so no
        transfer message is ever sent. */
    method WithdrawFees(sender: Addr, token: Addr, receiver: Addr) returns (r: Result<nat>)
      modifies this`feeReserves
      ensures r.Ok? <==> sender == gov && token in old(feeReserves)
      ensures r.Ok? ==> r.value == old(feeReserves)[token]
      ensures r.Ok? ==> feeReserves == old(feeReserves)[token := 0]
      ensures r.Fail? ==> unchanged(this)
    {
      var _ :- OnlyGov(sender);
      var amount :- Load(feeReserves, token);
      if amount == 0 {
        assert feeReserves[token := 0] == feeReserves;
        return Ok(0);
      }
      feeReserves := feeReserves[token := 0];
      r := Ok(amount);
    }

    /** `try_add_routers`: open to anyone. The flag of `router` must be
        stored; then the SENDER is approved (quirk: `router` itself is not). */
    method AddRouters(sender: Addr, router: Addr) returns (r: Result<()>)
      modifies this`approvedRouters
      ensures r.Ok? <==> router in old(approvedRouters)
      ensures r.Ok? ==> approvedRouters == old(approvedRouters)[sender := true]
      ensures r.Fail? ==> r.failure == Err(Std(NotFound)) && unchanged(this)
    {
      // APPROVED_ROUTERS1 and APPROVED_ROUTERS2 are one map, so the second
      // load of the same key cannot fail and is not repeated here.
      var _ :- Load(approvedRouters, router);
      approvedRouters := approvedRouters[sender := true];
      r := Ok(());
    }

    /** `try_remove_routers`: as `try_add_routers`, revoking the sender. */
    method RemoveRouters(sender: Addr, router: Addr) returns (r: Result<()>)
      modifies this`approvedRouters
      ensures r.Ok? <==> router in old(approvedRouters)
      ensures r.Ok? ==> approvedRouters == old(approvedRouters)[sender := false]
      ensures r.Fail? ==> r.failure == Err(Std(NotFound)) && unchanged(this)
    {
      var _ :- Load(approvedRouters, router);
      approvedRouters := approvedRouters[sender := false];
      r := Ok(());
    }

    /** `try_set_usdg_amount`: meant to set the token's USDG debt to
        `amount`. Quirk: a larger amount is ADDED to the debt (subject to the
        cap, code 51) and a smaller one is SUBTRACTED from it, so the debt
        ends at `amount` only in the cases listed in the last clause. */
    method SetUsdgAmount(sender: Addr, token: Addr, amount: nat) returns (r: Result<()>)
      modifies this`usdgAmounts
      ensures r.Ok? <==> (sender == gov && token in old(usdgAmounts)
                          && (amount > old(usdgAmounts)[token] ==>
                                token in maxUsdgAmounts
                                && (maxUsdgAmounts[token] != 0
                                    ==> old(usdgAmounts)[token] + amount <= maxUsdgAmounts[token])))
      ensures r.Ok? && amount > old(usdgAmounts)[token]
              ==> usdgAmounts == old(usdgAmounts)[token := old(usdgAmounts)[token] + amount]
      ensures r.Ok? && amount < old(usdgAmounts)[token]
              ==> usdgAmounts == old(usdgAmounts)[token := old(usdgAmounts)[token] - amount]
      ensures r.Ok? && amount == old(usdgAmounts)[token] ==> usdgAmounts == old(usdgAmounts)
      ensures r.Ok? ==> (usdgAmounts[token] == amount
                         <==> old(usdgAmounts)[token] in {0, amount, 2 * amount})
      ensures r.Fail? ==> unchanged(this)
    {
      var _ :- OnlyGov(sender);
      var debt :- Load(usdgAmounts, token);
      if amount > debt {
        r := IncreaseUsdgAmount(token, amount);
        return;
      }
      r := DecreaseUsdgAmount(token, amount);
    }
    // -------------------------------------------------------------------------
    // Deposits, USDG and swaps

    /** `try_direct_pool_deposit`: accepts a deposit of a whitelisted token
        (code 14) that strictly grew the contract's balance (code 15) and
        checks the pool against the balance (code 49). Nothing is saved: the
        pool check stores nothing and the new balance is never recorded. */
    function DirectPoolDeposit(ledger: Ledger, env: Env, token: Addr): (r: Result<()>)
      reads this`whitelistedTokens, this`tokenBalances, this`poolAmounts
      ensures r.Ok? <==> (token in whitelistedTokens && whitelistedTokens[token]
                          && token in tokenBalances && token in poolAmounts
                          && (token, env.contractAddress) in ledger
                          && tokenBalances[token] < ledger[(token, env.contractAddress)]
                          && poolAmounts[token] <= ledger[(token, env.contractAddress)])
      ensures token in whitelistedTokens && !whitelistedTokens[token] ==> r == Fail(Err(CodeError(14)))
      ensures token in whitelistedTokens && whitelistedTokens[token] && TransferIn(ledger, env, token) == Ok(0)
              ==> r == Fail(Err(CodeError(15)))
    {
      var whitelisted :- Load(whitelistedTokens, token);
      var _ :- Validate(whitelisted, 14);
      var amount :- TransferIn(ledger, env, token);
      var _ :- Validate(amount > 0, 15);
      CheckPoolAmount(ledger, env, token)
    }

    /** The checks `try_buy_usdg` makes before its funding update: the
        manager (a panic), the whitelist (code 16) and a positive deposit
        (code 17). The result is the deposited amount. */
    function BuyUsdgChecks(ledger: Ledger, env: Env, sender: Addr, token: Addr): (r: Result<nat>)
      reads this`stateVariables, this`isManager, this`whitelistedTokens, this`tokenBalances
      ensures r.Ok? <==> (ValidateManager(sender).Ok? && token in whitelistedTokens && whitelistedTokens[token]
                          && TransferIn(ledger, env, token).Ok? && TransferIn(ledger, env, token).value > 0)
      ensures r.Ok? ==> r == TransferIn(ledger, env, token)
      ensures ValidateManager(sender).Ok? && token in whitelistedTokens && !whitelistedTokens[token]
              ==> r == Fail(Err(CodeError(16)))
      ensures ValidateManager(sender).Ok? && token in whitelistedTokens && whitelistedTokens[token]
              && TransferIn(ledger, env, token) == Ok(0)
              ==> r == Fail(Err(CodeError(17)))
    {
      var _ :- ValidateManager(sender);
      var whitelisted :- Load(whitelistedTokens, token);
      // The configuration load cannot fail: the manager check loaded it.
      var _ :- Validate(whitelisted, 16);
      var tokenAmount :- TransferIn(ledger, env, token);
      var _ :- Validate(tokenAmount > 0, 17);
      Ok(tokenAmount)
    }

    /** The steps of `try_buy_usdg`. With the token price hard-coded to 0 the
        USDG amount is always 0, so the call always ends at code 18 unless
        it failed earlier; `BuyUsdg` reverts the funding update made on the
        way. */
    method BuyUsdgSteps(ledger: Ledger, env: Env, sender: Addr, token: Addr) returns (r: Result<()>)
      modifies this`lastFundingTimes
      ensures r.Fail?
      ensures BuyUsdgChecks(ledger, env, sender, token).Fail?
              ==> r.failure == BuyUsdgChecks(ledger, env, sender, token).failure
      // Past the checks, the funding update and the conversion, the zero
      // USDG amount stops the call with code 18.
      ensures old(BuyUsdgChecks(ledger, env, sender, token)).Ok?
              && old(FundingUpdatable(lastFundingTimes, env, token))
              && addresses.Some? && AdjustForDecimalsOf(0, token, addresses.value.usdg).Ok?
              ==> r == Fail(Err(CodeError(18)))
    {
      var tokenAmount :- BuyUsdgChecks(ledger, env, sender, token);
      // `use_swap_pricing` is set in a local that is never saved.
      var _ :- UpdateCumulativeFundingRate(env, token);
      var price := 0;   // the oracle price is hard-coded
      var usdgAmount := tokenAmount * price / PRICE_PRECISION;
      assert usdgAmount == 0;
      var addrs :- LoadItem(addresses);
      usdgAmount :- AdjustForDecimalsOf(usdgAmount, token, addrs.usdg);
      r := Validate(usdgAmount > 0, 18);
    }

    /** `try_buy_usdg`: never succeeds, so it never changes the vault; the
        first failing check decides the error. */
    method BuyUsdg(ledger: Ledger, env: Env, sender: Addr, token: Addr, receiver: Addr) returns (r: Result<()>)
      modifies this`lastFundingTimes
      ensures r.Fail?
      ensures ValidateManager(sender).Ok? && token in whitelistedTokens && !whitelistedTokens[token]
              ==> r == Fail(Err(CodeError(16)))
      ensures ValidateManager(sender).Ok? && token in whitelistedTokens && whitelistedTokens[token]
              && TransferIn(ledger, env, token) == Ok(0)
              ==> r == Fail(Err(CodeError(17)))
      ensures BuyUsdgChecks(ledger, env, sender, token).Ok? && FundingUpdatable(lastFundingTimes, env, token)
              && addresses.Some? && AdjustForDecimalsOf(0, token, addresses.value.usdg).Ok?
              ==> r == Fail(Err(CodeError(18)))
      ensures unchanged(this)
    {
      var savedTimes := lastFundingTimes;
      r := BuyUsdgSteps(ledger, env, sender, token);
      lastFundingTimes := savedTimes;   // the failed call is reverted
    }

    /** The checks `try_sell_usdg` makes before its funding update: the
        manager (a panic), the addresses, the whitelist (code 19) and a
        positive USDG deposit (code 20). The result is the USDG deposited. */
    function SellUsdgChecks(ledger: Ledger, env: Env, sender: Addr, token: Addr): (r: Result<nat>)
      reads this`stateVariables, this`isManager, this`whitelistedTokens, this`tokenBalances, this`addresses
      ensures r.Ok? <==> (ValidateManager(sender).Ok? && addresses.Some?
                          && token in whitelistedTokens && whitelistedTokens[token]
                          && TransferIn(ledger, env, addresses.value.usdg).Ok?
                          && TransferIn(ledger, env, addresses.value.usdg).value > 0)
      ensures r.Ok? ==> r == TransferIn(ledger, env, addresses.value.usdg)
      ensures ValidateManager(sender).Ok? && addresses.Some? && token in whitelistedTokens
              && !whitelistedTokens[token]
              ==> r == Fail(Err(CodeError(19)))
    {
      var _ :- ValidateManager(sender);
      var whitelisted :- Load(whitelistedTokens, token);
      // The configuration load cannot fail: the manager check loaded it.
      var addrs :- LoadItem(addresses);
      var _ :- Validate(whitelisted, 19);
      var usdgAmount :- TransferIn(ledger, env, addrs.usdg);
      var _ :- Validate(usdgAmount > 0, 20);
      Ok(usdgAmount)
    }

    /** Whether the redemption part of `try_sell_usdg` goes through for a
        deposit of `usdgAmount`: a positive redemption amount, the USDG debt,
        the pool covering both that amount and the reservation, and the fee
        reserve. */
    predicate SellUsdgRedeemable(token: Addr, usdgAmount: nat)
      reads this`addresses, this`tokenDecimals, this`usdgAmounts, this`poolAmounts, this`reservedAmounts,
            this`feeReserves
    {
      GetRedemptionAmount(token, usdgAmount).Ok?
      && var redemption := GetRedemptionAmount(token, usdgAmount).value;
         redemption > 0 && token in usdgAmounts && PoolDecreasable(token, redemption) && token in feeReserves
    }

    /** Whether `try_sell_usdg` succeeds: the checks, the funding update,
        the redemption of the deposit and the query of the USDG balance. */
    predicate SellUsdgSucceeds(ledger: Ledger, env: Env, sender: Addr, token: Addr)
      reads this`stateVariables, this`isManager, this`whitelistedTokens, this`tokenBalances, this`addresses,
            this`lastFundingTimes, this`poolAmounts, this`stableTokens, this`reservedAmounts,
            this`cumulativeFundingRates, this`tokenDecimals, this`usdgAmounts, this`feeReserves
    {
      SellUsdgChecks(ledger, env, sender, token).Ok?
      && FundingUpdatable(lastFundingTimes, env, token)
      && SellUsdgRedeemable(token, SellUsdgChecks(ledger, env, sender, token).value)
      && (env.contractAddress, addresses.value.usdg) in ledger
    }

    /** The redemption part of `try_sell_usdg`: the token amount the USDG
        buys (code 21 when it is 0), the USDG debt decrease, the pool check
        and the (zero) swap fee. The result is the amount out. */
    method SellUsdgRedeem(token: Addr, usdgAmount: nat) returns (r: Result<nat>)
      modifies this`usdgAmounts, this`poolAmounts
      ensures poolAmounts == old(poolAmounts)
      ensures r.Ok? <==> old(SellUsdgRedeemable(token, usdgAmount))
      ensures GetRedemptionAmount(token, usdgAmount) == Ok(0) ==> r == Fail(Err(CodeError(21)))
      ensures r.Ok? ==> r.value > 0 && GetRedemptionAmount(token, usdgAmount) == Ok(r.value)
      ensures r.Ok? ==> token in old(usdgAmounts)
      ensures r.Ok? && old(usdgAmounts)[token] <= usdgAmount ==> usdgAmounts == old(usdgAmounts)
      ensures r.Ok? && old(usdgAmounts)[token] > usdgAmount
              ==> usdgAmounts == old(usdgAmounts)[token := old(usdgAmounts)[token] - usdgAmount]
    {
      var redemptionAmount :- GetRedemptionAmount(token, usdgAmount);
      var _ :- Validate(redemptionAmount > 0, 21);
      var _ :- DecreaseUsdgAmount(token, usdgAmount);
      var _ :- DecreasePoolAmount(token, redemptionAmount);
      var amountOut :- CollectSwapFees(token, redemptionAmount, 0);   // fee hard-coded to 0
      // With no fee the amount out is the redemption amount, so code 22
      // cannot fail.
      assert amountOut == redemptionAmount > 0;
      r := Ok(amountOut);
    }

    /** The part of `try_sell_usdg` after its funding update: the
        redemption of the deposit `usdgAmount`, the configuration saved with
        `use_swap_pricing` cleared, and the USDG balance recorded. The
        result is the amount out. */
    method SellUsdgPayout(ledger: Ledger, env: Env, token: Addr, usdgAmount: nat) returns (r: Result<nat>)
      requires stateVariables.Some? && addresses.Some? && addresses.value.usdg in tokenBalances
      modifies this`usdgAmounts, this`poolAmounts, this`stateVariables, this`tokenBalances
      ensures poolAmounts == old(poolAmounts)
      ensures r.Ok? <==> old(SellUsdgRedeemable(token, usdgAmount))
                         && (env.contractAddress, addresses.value.usdg) in ledger
      ensures GetRedemptionAmount(token, usdgAmount) == Ok(0) ==> r == Fail(Err(CodeError(21)))
      ensures r.Ok? ==> r.value > 0 && GetRedemptionAmount(token, usdgAmount) == Ok(r.value)
                        && token in old(usdgAmounts)
                        && (old(usdgAmounts)[token] <= usdgAmount ==> usdgAmounts == old(usdgAmounts))
                        && (old(usdgAmounts)[token] > usdgAmount
                            ==> usdgAmounts == old(usdgAmounts)[token := old(usdgAmounts)[token] - usdgAmount])
      ensures r.Ok? ==> stateVariables == Some(old(stateVariables).value.(useSwapPricing := false))
      ensures r.Ok? ==> var usdg := addresses.value.usdg;
                        tokenBalances == old(tokenBalances)[usdg := ledger[(env.contractAddress, usdg)]]
    {
      var amountOut :- SellUsdgRedeem(token, usdgAmount);
      // `_transfer_out`: its response is discarded, so nothing is sent.
      stateVariables := Some(stateVariables.value.(useSwapPricing := false));
      var _ :- UpdateTokenBalance(ledger, env, addresses.value.usdg);
      r := Ok(amountOut);
    }

    /** The steps of `try_sell_usdg` up to its result, without the revert. */
    method SellUsdgSteps(ledger: Ledger, env: Env, sender: Addr, token: Addr) returns (r: Result<nat>)
      modifies this`lastFundingTimes, this`usdgAmounts, this`poolAmounts, this`stateVariables,
               this`tokenBalances
      ensures r.Ok? <==> old(SellUsdgSucceeds(ledger, env, sender, token))
      ensures old(SellUsdgChecks(ledger, env, sender, token).Ok? && FundingUpdatable(lastFundingTimes, env, token)
                  && GetRedemptionAmount(token, SellUsdgChecks(ledger, env, sender, token).value) == Ok(0))
              ==> r == Fail(Err(CodeError(21)))
      ensures r.Ok? ==> old(SellUsdgChecks(ledger, env, sender, token)).Ok?
      ensures r.Ok? ==> var deposit := old(SellUsdgChecks(ledger, env, sender, token)).value;
                        r.value > 0 && GetRedemptionAmount(token, deposit) == Ok(r.value)
                        && token in old(usdgAmounts)
                        && (old(usdgAmounts)[token] <= deposit ==> usdgAmounts == old(usdgAmounts))
                        && (old(usdgAmounts)[token] > deposit
                            ==> usdgAmounts == old(usdgAmounts)[token := old(usdgAmounts)[token] - deposit])
      ensures r.Ok? ==> poolAmounts == old(poolAmounts)
      ensures r.Ok? ==> stateVariables == Some(old(stateVariables).value.(useSwapPricing := false))
      ensures r.Ok? ==> lastFundingTimes == FundingTimesAfterUpdate(old(lastFundingTimes),
                                              old(stateVariables).value.fundingInterval, env.blockTime, token)
      ensures r.Ok? ==> var usdg := addresses.value.usdg;
                        (env.contractAddress, usdg) in ledger
                        && tokenBalances == old(tokenBalances)[usdg := ledger[(env.contractAddress, usdg)]]
    {
      var usdgAmount :- SellUsdgChecks(ledger, env, sender, token);
      // `use_swap_pricing` is set in the local configuration, which the
      // payout saves with the flag cleared again.
      var _ :- UpdateCumulativeFundingRate(env, token);
      r := SellUsdgPayout(ledger, env, token, usdgAmount);
    }

    /** `try_sell_usdg`: redeems the USDG the contract received for `token`.
        The result is the amount out, which is the redemption amount because
        the fee is hard-coded to 0. Quirks: the pool does not shrink, the
        USDG debt is left alone when it is at most the deposit, and the
        transfer to the receiver is never sent. */
    method SellUsdg(ledger: Ledger, env: Env, sender: Addr, token: Addr, receiver: Addr) returns (r: Result<nat>)
      modifies this`lastFundingTimes, this`usdgAmounts, this`poolAmounts, this`stateVariables,
               this`tokenBalances
      ensures r.Ok? <==> old(SellUsdgSucceeds(ledger, env, sender, token))
      ensures old(SellUsdgChecks(ledger, env, sender, token).Ok? && FundingUpdatable(lastFundingTimes, env, token)
                  && GetRedemptionAmount(token, SellUsdgChecks(ledger, env, sender, token).value) == Ok(0))
              ==> r == Fail(Err(CodeError(21)))
      ensures r.Ok? ==> old(SellUsdgChecks(ledger, env, sender, token)).Ok?
      ensures r.Ok? ==> var deposit := old(SellUsdgChecks(ledger, env, sender, token)).value;
                        r.value > 0 && GetRedemptionAmount(token, deposit) == Ok(r.value)
                        && token in old(usdgAmounts)
                        && (old(usdgAmounts)[token] <= deposit ==> usdgAmounts == old(usdgAmounts))
                        && (old(usdgAmounts)[token] > deposit
                            ==> usdgAmounts == old(usdgAmounts)[token := old(usdgAmounts)[token] - deposit])
      ensures r.Ok? ==> poolAmounts == old(poolAmounts)
      ensures r.Ok? ==> stateVariables == Some(old(stateVariables).value.(useSwapPricing := false))
      ensures r.Ok? ==> lastFundingTimes == FundingTimesAfterUpdate(old(lastFundingTimes),
                                              old(stateVariables).value.fundingInterval, env.blockTime, token)
      ensures r.Ok? ==> var usdg := addresses.value.usdg;
                        (env.contractAddress, usdg) in ledger
                        && tokenBalances == old(tokenBalances)[usdg := ledger[(env.contractAddress, usdg)]]
      ensures old(ReservedWithinPool()) ==> ReservedWithinPool()
      ensures old(BuffersCovered()) ==> BuffersCovered()
      ensures r.Fail? ==> unchanged(this)
    {
      var savedTimes, savedUsdg, savedPool, savedState, savedBalances :=
        lastFundingTimes, usdgAmounts, poolAmounts, stateVariables, tokenBalances;
      r := SellUsdgSteps(ledger, env, sender, token);
      if r.Fail? {
        lastFundingTimes, usdgAmounts, poolAmounts, stateVariables, tokenBalances :=
          savedTimes, savedUsdg, savedPool, savedState, savedBalances;
      }
    }

    /** The checks `try_swap` makes before its funding updates: swaps
        enabled (code 23) and both tokens whitelisted (codes 24 and 25),
        after loading the configuration and the addresses. */
    function SwapChecks(tokenIn: Addr, tokenOut: Addr): (r: Result<AddressesStruct>)
      reads this`isSwapEnabled, this`whitelistedTokens, this`stateVariables, this`addresses
      ensures r.Ok? <==> (isSwapEnabled && stateVariables.Some? && addresses.Some?
                          && tokenIn in whitelistedTokens && whitelistedTokens[tokenIn]
                          && tokenOut in whitelistedTokens && whitelistedTokens[tokenOut])
      ensures r.Ok? ==> r.value == addresses.value
      ensures !isSwapEnabled && tokenIn in whitelistedTokens && tokenOut in whitelistedTokens
              && stateVariables.Some? && addresses.Some?
              ==> r == Fail(Err(CodeError(23)))
      ensures isSwapEnabled && stateVariables.Some? && addresses.Some?
              && tokenIn in whitelistedTokens && whitelistedTokens[tokenIn]
              && tokenOut in whitelistedTokens && !whitelistedTokens[tokenOut]
              ==> r == Fail(Err(CodeError(25)))
    {
      var whitelistedIn :- Load(whitelistedTokens, tokenIn);
      var whitelistedOut :- Load(whitelistedTokens, tokenOut);
      var _ :- LoadItem(stateVariables);
      var addrs :- LoadItem(addresses);
      var _ :- Validate(isSwapEnabled, 23);
      var _ :- Validate(whitelistedIn, 24);
      var _ :- Validate(whitelistedOut, 25);
      Ok(addrs)
    }

    /** The USDG debt shift of `try_swap`: `usdgAmount` is added to the
        debt of `tokenIn` (code 51 over its cap) and taken off the debt of
        `tokenOut`. A zero shift leaves every debt as it was. */
    method ShiftUsdgDebt(tokenIn: Addr, tokenOut: Addr, usdgAmount: nat) returns (r: Result<()>)
      modifies this`usdgAmounts
      ensures r.Ok? <==> (tokenIn in old(usdgAmounts) && tokenOut in old(usdgAmounts)
                          && tokenIn in maxUsdgAmounts
                          && (maxUsdgAmounts[tokenIn] != 0
                              ==> old(usdgAmounts)[tokenIn] + usdgAmount <= maxUsdgAmounts[tokenIn]))
      ensures r.Ok? && usdgAmount == 0 ==> usdgAmounts == old(usdgAmounts)
    {
      var _ :- IncreaseUsdgAmount(tokenIn, usdgAmount);
      assert usdgAmount == 0 ==> usdgAmounts == old(usdgAmounts);
      r := DecreaseUsdgAmount(tokenOut, usdgAmount);
    }

    /** The amount out and the USDG debt that `try_swap` moves for a
        deposit `amountIn`: the deposit valued at the hard-coded input price
        0, adjusted from the decimals of `tokenIn` to those of `tokenOut` and
        of USDG. Both are 0 whatever the deposit; only a missing decimals
        entry (a panic) can stop the computation. */
    function SwapAmounts(tokenIn: Addr, tokenOut: Addr, usdg: Addr, amountIn: nat): (r: Result<(nat, nat)>)
      reads this`addresses, this`tokenDecimals
      requires addresses.Some? && usdg == addresses.value.usdg
      ensures r.Ok? <==> ((tokenIn == usdg || tokenIn in tokenDecimals)
                          && (tokenOut == usdg || tokenOut in tokenDecimals))
      ensures r.Ok? ==> r.value == (0, 0)
      ensures r.Fail? ==> r.failure.Abort?
    {
      var priceIn := 0;   // the oracle price is hard-coded
      var valueIn := amountIn * priceIn / PRICE_PRECISION;   // computed once for both amounts
      var amountOut :- AdjustForDecimalsOf(valueIn, tokenIn, tokenOut);
      // The decimals of `tokenIn` were just loaded and USDG has fixed
      // decimals, so this adjustment cannot fail.
      var usdgAmount := AdjustForDecimalsOf(valueIn, tokenIn, usdg).value;
      Ok((amountOut, usdgAmount))
    }

    /** Whether the bookkeeping of `try_swap` goes through: the decimals of
        both tokens (USDG has its own), the fee reserve of `tokenIn`, the
        USDG debts of both tokens and the cap of `tokenIn` (which the debt
        must not already exceed), the pool, reservation and buffer of
        `tokenOut`, and the pool of `tokenIn` covered by the balance. */
    predicate SwapSettleable(ledger: Ledger, env: Env, tokenIn: Addr, tokenOut: Addr)
      reads this`addresses, this`tokenDecimals, this`feeReserves, this`usdgAmounts, this`maxUsdgAmounts,
            this`poolAmounts, this`reservedAmounts, this`bufferAmounts
    {
      addresses.Some?
      && (tokenIn == addresses.value.usdg || tokenIn in tokenDecimals)
      && (tokenOut == addresses.value.usdg || tokenOut in tokenDecimals)
      && tokenIn in feeReserves
      && tokenIn in usdgAmounts && tokenOut in usdgAmounts && tokenIn in maxUsdgAmounts
      && (maxUsdgAmounts[tokenIn] != 0 ==> usdgAmounts[tokenIn] <= maxUsdgAmounts[tokenIn])
      && PoolDecreasable(tokenOut, 0)
      && tokenOut in bufferAmounts && bufferAmounts[tokenOut] <= poolAmounts[tokenOut]
      && CheckPoolAmount(ledger, env, tokenIn).Ok?
    }

    /** Whether both funding updates of `try_swap` go through, the second
        one seeing the times the first one recorded. */
    predicate SwapFundingUpdatable(env: Env, tokenIn: Addr, tokenOut: Addr)
      reads this`lastFundingTimes, this`stateVariables, this`poolAmounts, this`stableTokens,
            this`reservedAmounts, this`cumulativeFundingRates
    {
      FundingUpdatable(lastFundingTimes, env, tokenIn)
      && FundingUpdatable(FundingTimesAfterUpdate(lastFundingTimes, stateVariables.value.fundingInterval,
                                                  env.blockTime, tokenIn), env, tokenOut)
    }

    /** Whether `try_swap` succeeds: the checks, both funding updates, a
        positive deposit of `tokenIn` and the bookkeeping. */
    predicate SwapSucceeds(ledger: Ledger, env: Env, tokenIn: Addr, tokenOut: Addr)
      reads this`isSwapEnabled, this`whitelistedTokens, this`stateVariables, this`addresses,
            this`lastFundingTimes, this`poolAmounts, this`stableTokens, this`reservedAmounts,
            this`cumulativeFundingRates, this`tokenBalances, this`tokenDecimals, this`feeReserves,
            this`usdgAmounts, this`maxUsdgAmounts, this`bufferAmounts
    {
      SwapChecks(tokenIn, tokenOut).Ok?
      && SwapFundingUpdatable(env, tokenIn, tokenOut)
      && TransferIn(ledger, env, tokenIn).Ok? && TransferIn(ledger, env, tokenIn).value > 0
      && SwapSettleable(ledger, env, tokenIn, tokenOut)
    }

    /** The bookkeeping part of `try_swap` for a deposit `amountIn` of
        `tokenIn`: with the input price hard-coded to 0 the amount out and
        the USDG debt moved are 0, so the debts and pools keep their values
        and only the checks on the way can fail. The result is the amount
        out after fees. */
    method SwapSettle(ledger: Ledger, env: Env, tokenIn: Addr, tokenOut: Addr, usdg: Addr, amountIn: nat)
      returns (r: Result<nat>)
      requires addresses.Some? && usdg == addresses.value.usdg
      modifies this`usdgAmounts, this`poolAmounts
      ensures r.Ok? <==> old(SwapSettleable(ledger, env, tokenIn, tokenOut))
      ensures r.Ok? ==> r.value == 0
      ensures r.Ok? ==> usdgAmounts == old(usdgAmounts) && poolAmounts == old(poolAmounts)
    {
      var amounts :- SwapAmounts(tokenIn, tokenOut, usdg, amountIn);
      var (amountOut, usdgAmount) := amounts;
      var amountOutAfterFees :- CollectSwapFees(tokenIn, amountOut, 0);   // fee hard-coded to 0
      var _ :- ShiftUsdgDebt(tokenIn, tokenOut, usdgAmount);
      var _ :- DecreasePoolAmount(tokenOut, amountOut);
      var _ :- ValidateBufferAmount(tokenOut);
      // `_transfer_out`: its response is discarded, so nothing is sent; the
      // configuration reload that follows cannot fail and is not repeated.
      var _ :- IncreasePoolAmount(ledger, env, tokenIn, amountIn);
      r := Ok(amountOutAfterFees);
    }

    /** The two funding updates of `try_swap`, for `tokenIn` and then for
        `tokenOut`. */
    method UpdateSwapFundingRates(env: Env, tokenIn: Addr, tokenOut: Addr) returns (r: Result<()>)
      modifies this`lastFundingTimes
      ensures r.Ok? <==> old(SwapFundingUpdatable(env, tokenIn, tokenOut))
      ensures r.Ok? ==> var interval := stateVariables.value.fundingInterval;
                        lastFundingTimes == FundingTimesAfterUpdate(
                          FundingTimesAfterUpdate(old(lastFundingTimes), interval, env.blockTime, tokenIn),
                          interval, env.blockTime, tokenOut)
    {
      var _ :- UpdateCumulativeFundingRate(env, tokenIn);
      r := UpdateCumulativeFundingRate(env, tokenOut);
    }

    /** The steps of `try_swap` up to its result, without the revert. */
    method SwapSteps(ledger: Ledger, env: Env, tokenIn: Addr, tokenOut: Addr) returns (r: Result<nat>)
      modifies this`lastFundingTimes, this`usdgAmounts, this`poolAmounts
      ensures r.Ok? ==> SwapChecks(tokenIn, tokenOut).Ok?
      ensures r.Ok? ==> var amountIn := old(TransferIn(ledger, env, tokenIn));
                        amountIn.Ok? && amountIn.value > 0
      ensures r.Ok? ==> r.value == 0
      ensures r.Ok? ==> usdgAmounts == old(usdgAmounts) && poolAmounts == old(poolAmounts)
      ensures r.Ok? ==> var interval := stateVariables.value.fundingInterval;
                        lastFundingTimes == FundingTimesAfterUpdate(
                          FundingTimesAfterUpdate(old(lastFundingTimes), interval, env.blockTime, tokenIn),
                          interval, env.blockTime, tokenOut)
      ensures SwapChecks(tokenIn, tokenOut).Fail? ==> r.Fail? && r.failure == SwapChecks(tokenIn, tokenOut).failure
      ensures r.Ok? <==> old(SwapSucceeds(ledger, env, tokenIn, tokenOut))
      ensures old(SwapChecks(tokenIn, tokenOut).Ok? && SwapFundingUpdatable(env, tokenIn, tokenOut)
                  && TransferIn(ledger, env, tokenIn) == Ok(0))
              ==> r == Fail(Err(CodeError(27)))
    {
      var addrs :- SwapChecks(tokenIn, tokenOut);
      // `use_swap_pricing` is set in a local that is never saved.
      var _ :- UpdateSwapFundingRates(env, tokenIn, tokenOut);
      var amountIn :- TransferIn(ledger, env, tokenIn);
      var _ :- Validate(amountIn > 0, 27);
      r := SwapSettle(ledger, env, tokenIn, tokenOut, addrs.usdg, amountIn);
    }

    /** `try_swap`: swaps `tokenIn` received by the contract for `tokenOut`.
        With the input price hard-coded to 0 the amount out is always 0, so
        a successful swap only records the funding times; the USDG debts and
        pools keep their values. */
    method Swap(ledger: Ledger, env: Env, tokenIn: Addr, tokenOut: Addr, receiver: Addr) returns (r: Result<nat>)
      modifies this`lastFundingTimes, this`usdgAmounts, this`poolAmounts
      ensures r.Ok? ==> isSwapEnabled && stateVariables.Some?
                        && tokenIn in whitelistedTokens && whitelistedTokens[tokenIn]
                        && tokenOut in whitelistedTokens && whitelistedTokens[tokenOut]
      ensures r.Ok? ==> var amountIn := old(TransferIn(ledger, env, tokenIn));
                        amountIn.Ok? && amountIn.value > 0
      ensures r.Ok? ==> r.value == 0
      ensures r.Ok? ==> usdgAmounts == old(usdgAmounts) && poolAmounts == old(poolAmounts)
      ensures r.Ok? ==> var interval := stateVariables.value.fundingInterval;
                        lastFundingTimes == FundingTimesAfterUpdate(
                          FundingTimesAfterUpdate(old(lastFundingTimes), interval, env.blockTime, tokenIn),
                          interval, env.blockTime, tokenOut)
      ensures !isSwapEnabled && tokenIn in whitelistedTokens && tokenOut in whitelistedTokens
              && stateVariables.Some? && addresses.Some?
              ==> r == Fail(Err(CodeError(23)))
      ensures SwapChecks(tokenIn, tokenOut).Fail? ==> r == Fail(SwapChecks(tokenIn, tokenOut).failure)
      ensures r.Ok? <==> old(SwapSucceeds(ledger, env, tokenIn, tokenOut))
      ensures old(SwapChecks(tokenIn, tokenOut).Ok? && SwapFundingUpdatable(env, tokenIn, tokenOut)
                  && TransferIn(ledger, env, tokenIn) == Ok(0))
              ==> r == Fail(Err(CodeError(27)))
      ensures old(ReservedWithinPool()) ==> ReservedWithinPool()
      ensures old(BuffersCovered()) ==> BuffersCovered()
      ensures r.Fail? ==> unchanged(this)
    {
      var savedTimes, savedUsdg, savedPool := lastFundingTimes, usdgAmounts, poolAmounts;
      r := SwapSteps(ledger, env, tokenIn, tokenOut);
      if r.Fail? {
        lastFundingTimes, usdgAmounts, poolAmounts := savedTimes, savedUsdg, savedPool;
      }
    }

    // -------------------------------------------------------------------------
    // Positions

    /** Whether the pool updates of the first phase of `reduce_collateral`
        go through: only a short with a non-zero `adjusted` delta touches
        the pool, converting the delta to tokens (the decimals must be
        stored); a profit takes them off the pool, a loss checks the pool
        against the balance. */
    predicate DeltaPoolChecks(ledger: Ledger, env: Env, collateralToken: Addr, isLong: bool, hasProfit: bool,
                              adjusted: nat)
      reads this`tokenDecimals, this`poolAmounts, this`reservedAmounts
    {
      !isLong && adjusted > 0
      ==> UsdToTokenMinOf(collateralToken, adjusted).Ok?
          && (if hasProfit then PoolDecreasable(collateralToken, UsdToTokenMinOf(collateralToken, adjusted).value)
              else CheckPoolAmount(ledger, env, collateralToken).Ok?)
    }

    /** Whether the pool update of the second phase of `reduce_collateral`
        goes through: only a long whose payout `paid` does not exceed the
        margin fee touches the pool, taking the fee tokens off it. */
    predicate FeePoolChecks(collateralToken: Addr, isLong: bool, paid: nat, fee: nat)
      reads this`tokenDecimals, this`poolAmounts, this`reservedAmounts
    {
      isLong && paid <= fee
      ==> UsdToTokenMinOf(collateralToken, fee).Ok?
          && PoolDecreasable(collateralToken, UsdToTokenMinOf(collateralToken, fee).value)
    }

    /** Whether a reduction of the loaded position `p` with the margin fee
        `fee` and the delta `d` goes through: the arithmetic stays above zero
        and the pool updates of both phases go through. */
    predicate ReducibleWith(ledger: Ledger, env: Env, collateralToken: Addr, isLong: bool, p: Position, fee: nat,
                            d: Delta, collateralDelta: nat, sizeDelta: nat)
      reads this`tokenDecimals, this`poolAmounts, this`reservedAmounts
    {
      var reduction := ReduceCollateralAmounts(p, fee, d, collateralDelta, sizeDelta);
      reduction.Ok?
      && DeltaPoolChecks(ledger, env, collateralToken, isLong, d.hasProfit,
                         AdjustedDelta(p.size, sizeDelta, d.delta).value)
      && FeePoolChecks(collateralToken, isLong, reduction.value.usdOut, fee)
    }

    /** Whether `reduce_collateral` succeeds: the position and the fee
        reserve are stored, the delta can be computed, and the reduction
        with no margin fee goes through. */
    predicate ReductionSucceeds(ledger: Ledger, env: Env, account: Addr, collateralToken: Addr, indexToken: Addr,
                                collateralDelta: nat, sizeDelta: nat, isLong: bool)
      reads this`positions, this`feeReserves, this`stateVariables, this`minProfitBasisPoints,
            this`tokenDecimals, this`poolAmounts, this`reservedAmounts
    {
      var key := NewKey(account, collateralToken, indexToken, isLong);
      key in positions && collateralToken in feeReserves
      && var p := positions[key];
         var d := GetDeltaOf(env, indexToken, p.size, p.averagePrice, isLong, p.lastIncreasedTime);
         d.Ok? && ReducibleWith(ledger, env, collateralToken, isLong, p, 0, d.value, collateralDelta, sizeDelta)
    }

    /** The reduction `reduce_collateral` computes for the stored position
        `p` with no margin fee: its delta at the hard-coded prices, then the
        arithmetic of both phases. */
    function ReductionOf(env: Env, indexToken: Addr, isLong: bool, p: Position, collateralDelta: nat,
                         sizeDelta: nat): Result<Reduction>
      reads this`stateVariables, this`minProfitBasisPoints
    {
      var d :- GetDeltaOf(env, indexToken, p.size, p.averagePrice, isLong, p.lastIncreasedTime);
      ReduceCollateralAmounts(p, 0, d, collateralDelta, sizeDelta)
    }

    /** The first phase of `reduce_collateral`: a profit of `adjusted` USD is
        added to the realised profit (and, for a short, checked against the
        pool, which is saved unchanged); a loss is taken off the collateral
        and the realised profit, either of which may underflow. The result is
        the position so far and the USD owed so far. */
    method RealiseDelta(ledger: Ledger, env: Env, collateralToken: Addr, isLong: bool, stored: Position,
                        hasProfit: bool, adjusted: nat) returns (r: Result<(Position, nat)>)
      modifies this`poolAmounts
      ensures poolAmounts == old(poolAmounts)
      ensures r.Ok? <==> RealisedDelta(stored, hasProfit, adjusted).Ok?
                         && DeltaPoolChecks(ledger, env, collateralToken, isLong, hasProfit, adjusted)
      ensures r.Ok? ==> r == RealisedDelta(stored, hasProfit, adjusted)
      ensures adjusted == 0 ==> r == Ok((stored, 0))
    {
      var position := stored;
      var usdOut := 0;
      if hasProfit && adjusted > 0 {
        usdOut := adjusted;
        position := position.(realisedPnl := position.realisedPnl + adjusted);
        if !isLong {
          var tokenAmount :- UsdToTokenMinOf(collateralToken, adjusted);
          var _ :- DecreasePoolAmount(collateralToken, tokenAmount);
        }
      }
      if !hasProfit && adjusted > 0 {
        var collateral :- Sub(position.collateral, adjusted);
        position := position.(collateral := collateral);
        if !isLong {
          var _ :- UsdToTokenMinOf(collateralToken, adjusted);
          var _ :- CheckPoolAmount(ledger, env, collateralToken);   // `increase_pool_amount` only checks
        }
        var pnl :- Sub(position.realisedPnl, adjusted);
        position := position.(realisedPnl := pnl);
      }
      r := Ok((position, usdOut));
    }

    /** The second phase of `reduce_collateral`: the withdrawn collateral is
        paid out, a full close pays out the rest, and a payout that does not
        exceed the margin fee takes the fee from the collateral instead (for
        a long, checking the fee tokens against the pool, saved unchanged). */
    method FinishReduction(collateralToken: Addr, isLong: bool, position: Position, usdOut: nat, fee: nat,
                           collateralDelta: nat, sizeDelta: nat) returns (r: Result<Reduction>)
      modifies this`poolAmounts
      ensures poolAmounts == old(poolAmounts)
      ensures r.Ok? <==> var settled := SettledReduction(position, usdOut, fee, collateralDelta, sizeDelta);
                         settled.Ok? && FeePoolChecks(collateralToken, isLong, settled.value.usdOut, fee)
      ensures r.Ok? ==> r == SettledReduction(position, usdOut, fee, collateralDelta, sizeDelta)
    {
      var position := position;
      var usdOut := usdOut;
      if collateralDelta > 0 {
        usdOut := usdOut + collateralDelta;
        var collateral :- Sub(position.collateral, collateralDelta);
        position := position.(collateral := collateral);
      }
      if position.size == sizeDelta {
        usdOut := usdOut + position.collateral;
        position := position.(collateral := 0);
      }
      var usdOutAfterFee;
      if usdOut > fee {
        usdOutAfterFee := usdOut - fee;
      } else {
        var collateral :- Sub(position.collateral, fee);
        position := position.(collateral := collateral);
        if isLong {
          var feeTokens :- UsdToTokenMinOf(collateralToken, fee);
          var _ :- DecreasePoolAmount(collateralToken, feeTokens);
        }
        usdOutAfterFee := usdOut;
      }
      r := Ok(Reduction(usdOut, usdOutAfterFee, position));
    }

    /** The reduction of the loaded position `stored` with the margin fee
        `fee` and the delta `d`: the realised share of the delta, then the
        two phases. */
    method ReduceLoaded(ledger: Ledger, env: Env, collateralToken: Addr, isLong: bool, stored: Position, fee: nat,
                        d: Delta, collateralDelta: nat, sizeDelta: nat) returns (r: Result<Reduction>)
      modifies this`poolAmounts
      ensures poolAmounts == old(poolAmounts)
      ensures r.Ok? <==> old(ReducibleWith(ledger, env, collateralToken, isLong, stored, fee, d, collateralDelta,
                                           sizeDelta))
      ensures r.Ok? ==> r == ReduceCollateralAmounts(stored, fee, d, collateralDelta, sizeDelta)
    {
      var adjusted :- AdjustedDelta(stored.size, sizeDelta, d.delta);
      var realised :- RealiseDelta(ledger, env, collateralToken, isLong, stored, d.hasProfit, adjusted);
      var (position, usdOut) := realised;
      ReductionInPhases(stored, fee, d, collateralDelta, sizeDelta);
      r := FinishReduction(collateralToken, isLong, position, usdOut, fee, collateralDelta, sizeDelta);
    }

    /** `reduce_collateral`: settles the profit or loss of a decrease of
        `sizeDelta` on the stored position, pays out `collateralDelta` and, on
        a full close, the rest of the collateral. The reduced position is a
        local that is never saved, and every pool update on the way saves the
        pool unchanged. The result is the USD paid out before and after the
        (zero) margin fee, with the reduced position. */
    method ReduceCollateral(ledger: Ledger, env: Env, account: Addr, collateralToken: Addr, indexToken: Addr,
                            collateralDelta: nat, sizeDelta: nat, isLong: bool) returns (r: Result<Reduction>)
      modifies this`feeReserves, this`poolAmounts
      ensures feeReserves == old(feeReserves) && poolAmounts == old(poolAmounts)
      ensures r.Ok? <==> old(ReductionSucceeds(ledger, env, account, collateralToken, indexToken, collateralDelta,
                                               sizeDelta, isLong))
      ensures r.Ok? ==>
        var key := NewKey(account, collateralToken, indexToken, isLong);
        key in positions && r == ReductionOf(env, indexToken, isLong, positions[key], collateralDelta, sizeDelta)
    {
      var key := NewKey(account, collateralToken, indexToken, isLong);
      var stored :- LoadOrAbort(positions, key);
      var fee :- CollectMarginFees(collateralToken);
      var d :- GetDeltaOf(env, indexToken, stored.size, stored.averagePrice, isLong, stored.lastIncreasedTime);
      r := ReduceLoaded(ledger, env, collateralToken, isLong, stored, fee, d, collateralDelta, sizeDelta);
    }

    /** The loads and checks `try_increase_position` makes before its funding
        update: the global short book of the index token, leverage enabled
        (code 28), the gas price, the router and the tokens (panics). The
        result is the global short size and average price. */
    function IncreasePositionChecks(sender: Addr, account: Addr, collateralToken: Addr, indexToken: Addr,
                                    isLong: bool): (r: Result<(nat, nat)>)
      reads this`globalShortSizes, this`globalShortAveragePrices, this`isLeverageEnabled,
            this`stateVariables, this`addresses, this`approvedRouters, this`whitelistedTokens,
            this`stableTokens, this`shortableTokens
      ensures r.Ok? <==> (indexToken in globalShortSizes && indexToken in globalShortAveragePrices
                          && isLeverageEnabled && ValidateGasPrice().Ok? && ValidateRouter(sender, account).Ok?
                          && ValidateTokens(collateralToken, indexToken, isLong).Ok?)
      ensures r.Ok? ==> r.value == (globalShortSizes[indexToken], globalShortAveragePrices[indexToken])
      ensures indexToken in globalShortSizes && indexToken in globalShortAveragePrices && !isLeverageEnabled
              ==> r == Fail(Err(CodeError(28)))
    {
      var size :- Load(globalShortSizes, indexToken);
      var averagePrice :- Load(globalShortAveragePrices, indexToken);
      var _ :- Validate(isLeverageEnabled, 28);
      var _ :- ValidateGasPrice();
      var _ :- ValidateRouter(sender, account);
      var _ :- ValidateTokens(collateralToken, indexToken, isLong);
      Ok((size, averagePrice))
    }

    /** The stored position with the average price `try_increase_position`
        gives it at its hard-coded price (1 for a long, 0 for a short): an
        empty position takes that price, and an increase of a non-empty one
        moves the average with `get_next_average_price`. */
    function PricedPosition(env: Env, key: PositionKey, indexToken: Addr, isLong: bool, sizeDelta: nat)
      : (r: Result<Position>)
      reads this`positions, this`stateVariables, this`minProfitBasisPoints
      // Re-pricing needs the configuration, the index token's minimum profit
      // and a non-zero average price; the next average then always exists.
      ensures r.Ok? <==> key in positions
                         && (positions[key].size > 0 && sizeDelta > 0
                             ==> stateVariables.Some? && indexToken in minProfitBasisPoints
                                 && positions[key].averagePrice != 0)
      ensures r.Ok? ==> key in positions && r.value == positions[key].(averagePrice := r.value.averagePrice)
      ensures r.Ok? && positions[key].size > 0
              ==> var p := positions[key];
                  r.value.averagePrice == IncreasedAveragePrice(p.averagePrice, p.size, isLong, sizeDelta)
      ensures key in positions && positions[key].size > 0 && sizeDelta > 0 && positions[key].averagePrice == 0
              ==> r.Fail?
    {
      var p :- Load(positions, key);
      var price := if isLong then STUB_PRICE else 0;
      if p.size == 0 then Ok(p.(averagePrice := price))
      else if sizeDelta == 0 then Ok(p)
      else
        var d :- GetDeltaOf(env, indexToken, p.size, p.averagePrice, isLong, p.lastIncreasedTime);
        // At the hard-coded prices the next average price cannot fail.
        if isLong then
          LongNextAveragePrice(p.size, sizeDelta);
          Ok(p.(averagePrice := GetNextAveragePrice(p.size, isLong, price, sizeDelta, d).value))
        else
          ShortNextAveragePriceDefined(p.size, p.averagePrice, sizeDelta, p.lastIncreasedTime, env.blockTime,
                                       stateVariables.value.minProfitTime, minProfitBasisPoints[indexToken]);
          NextAveragePriceAtZero(p.size, isLong, sizeDelta, d);
          Ok(p.(averagePrice := GetNextAveragePrice(p.size, isLong, price, sizeDelta, d).value))
    }

    /** The position record `try_increase_position` saves, given the priced
        position and the margin fee: the collateral must cover the fee (code
        29), the position must be non-empty (code 30) and valid (a panic).
        Quirk: the added collateral, the fee and the size delta are computed
        into results that are discarded, so size and collateral keep their
        values; the entry funding rate is reset and the time recorded. */
    function IncreasedPositionRecord(p: Position, fee: nat, now: nat): (r: Result<Position>)
      ensures r.Ok? <==> fee <= p.collateral && p.size > 0 && PositionValid(p)
      ensures r.Ok? ==> r.value == p.(entryFundingRate := 0, lastIncreasedTime := now)
      ensures fee > p.collateral ==> r == Fail(Err(CodeError(29)))
      ensures fee <= p.collateral && p.size == 0 ==> r == Fail(Err(CodeError(30)))
      ensures fee <= p.collateral && r.Fail? ==> r.failure != Err(CodeError(29))
    {
      assert CodeError(30) != CodeError(29) by {
        if CodeError(30) == CodeError(29) { CodeErrorInjective(30, 29); }
      }
      var _ :- Validate(p.collateral >= fee, 29);
      var _ :- Validate(p.size > 0, 30);
      var _ :- ValidatePosition(p.size, p.collateral);
      Ok(p.(entryFundingRate := 0, lastIncreasedTime := now))
    }

    /** Whether the bookkeeping of `try_increase_position` goes through for
        the margin fee `fee`, the collateral's USD value `collateralDeltaUsd`
        and the position's reservation `reserveAmount`: the reservation
        converts and fits in the pool; a long needs the guaranteed USD to
        cover the collateral value, the pool covered by the balance and the
        fee tokens taken off the pool; a short on a non-empty book needs a
        non-zero global short average price and a non-zero size delta (at
        the new price 0 the next average can then be computed, and is 0);
        and the global short size must EXCEED a non-zero maximum (the
        comparison is inverted). */
    predicate IncreaseSettleable(ledger: Ledger, env: Env, collateralToken: Addr, indexToken: Addr, isLong: bool,
                                 sizeDelta: nat, fee: nat, collateralDeltaUsd: nat, reserveAmount: nat)
      reads this`tokenDecimals, this`reservedAmounts, this`poolAmounts, this`guaranteedUsd,
            this`globalShortSizes, this`globalShortAveragePrices, this`maxGlobalShortSizes
    {
      UsdToTokenMinOf(collateralToken, reserveAmount).Ok?
      && collateralToken in reservedAmounts && collateralToken in poolAmounts
      && reservedAmounts[collateralToken] <= poolAmounts[collateralToken]
      && indexToken in globalShortSizes && indexToken in maxGlobalShortSizes
      && (if isLong
          then collateralToken in guaranteedUsd && collateralDeltaUsd <= guaranteedUsd[collateralToken]
               && CheckPoolAmount(ledger, env, collateralToken).Ok?
               && UsdToTokenMinOf(collateralToken, fee).Ok?
               && PoolDecreasable(collateralToken, UsdToTokenMinOf(collateralToken, fee).value)
          else globalShortSizes[indexToken] != 0
               ==> indexToken in globalShortAveragePrices && globalShortAveragePrices[indexToken] != 0
                   && sizeDelta != 0)
      && (maxGlobalShortSizes[indexToken] == 0 || globalShortSizes[indexToken] > maxGlobalShortSizes[indexToken])
    }

    /** The bookkeeping of `try_increase_position` after the position is
        priced: the reservation check (code 52), for a long the guaranteed
        USD and the pool checks, for a short the new global short average
        price, and the global short size check. Every helper saves its entry
        unchanged. The result is the global short average price to save: the
        loaded one for a long, 0 for a short. */
    method IncreasePositionSettle(ledger: Ledger, env: Env, collateralToken: Addr, indexToken: Addr,
                                  isLong: bool, sizeDelta: nat, fee: nat, collateralDeltaUsd: nat,
                                  reserveAmount: nat, globalShortSize: nat, globalShortAveragePrice: nat)
      returns (r: Result<nat>)
      requires indexToken in globalShortSizes && globalShortSizes[indexToken] == globalShortSize
      requires indexToken in globalShortAveragePrices
               && globalShortAveragePrices[indexToken] == globalShortAveragePrice
      modifies this`reservedAmounts, this`guaranteedUsd, this`poolAmounts, this`globalShortSizes
      ensures reservedAmounts == old(reservedAmounts) && guaranteedUsd == old(guaranteedUsd)
      ensures poolAmounts == old(poolAmounts) && globalShortSizes == old(globalShortSizes)
      ensures r.Ok? <==> old(IncreaseSettleable(ledger, env, collateralToken, indexToken, isLong, sizeDelta, fee,
                                                collateralDeltaUsd, reserveAmount))
      ensures r.Ok? ==> r.value == if isLong then globalShortAveragePrice else 0
    {
      var reservedDelta :- UsdToTokenMinOf(collateralToken, reserveAmount);
      var _ :- IncreaseReservedAmount(collateralToken, reservedDelta);
      var averagePrice := globalShortAveragePrice;
      if isLong {
        var _ :- IncreaseGuaranteedUsd(collateralToken, sizeDelta + fee);
        var _ :- DecreaseGuaranteedUsd(collateralToken, collateralDeltaUsd);
        var _ :- CheckPoolAmount(ledger, env, collateralToken);   // `increase_pool_amount` only checks
        var feeTokens :- UsdToTokenMinOf(collateralToken, fee);
        var _ :- DecreasePoolAmount(collateralToken, feeTokens);
      } else if globalShortSize == 0 {
        averagePrice := 0;
      } else {
        GlobalShortAverageAtZeroPrice(globalShortSize, globalShortAveragePrice, sizeDelta);
        averagePrice :- GetNextGlobalShortAveragePriceOf(indexToken, 0, sizeDelta);
      }
      var _ :- IncreaseGlobalShortSize(indexToken, sizeDelta);
      r := Ok(averagePrice);
    }

    /** Whether the position part of `try_increase_position` goes through:
        the stored position is non-empty and valid, a non-zero increase can
        re-price it, the fee reserve and the collateral's decimals are
        stored, and the contract's balance of the collateral did not shrink. */
    predicate IncreaseRecordable(ledger: Ledger, env: Env, key: PositionKey, collateralToken: Addr,
                                 indexToken: Addr, isLong: bool, sizeDelta: nat)
      reads this`positions, this`stateVariables, this`minProfitBasisPoints, this`feeReserves,
            this`tokenBalances, this`tokenDecimals
    {
      key in positions && positions[key].size > 0 && PositionValid(positions[key])
      && (sizeDelta > 0 ==> stateVariables.Some? && indexToken in minProfitBasisPoints
                            && positions[key].averagePrice != 0)
      && collateralToken in feeReserves && TransferIn(ledger, env, collateralToken).Ok?
      && collateralToken in tokenDecimals
    }

    /** The position part of `try_increase_position`: the priced position,
        the (zero) margin fee, the collateral received and its USD value at
        the hard-coded price 0, and the record checks. The result is the
        record to save, the fee and the collateral's USD value. */
    method IncreasePositionRecord(ledger: Ledger, env: Env, key: PositionKey, collateralToken: Addr,
                                  indexToken: Addr, isLong: bool, sizeDelta: nat)
      returns (r: Result<(Position, nat, nat)>)
      modifies this`feeReserves
      ensures feeReserves == old(feeReserves)
      ensures r.Ok? <==> IncreaseRecordable(ledger, env, key, collateralToken, indexToken, isLong, sizeDelta)
      // The margin fee is 0, so the collateral always covers it (code 29);
      // an empty position fails with code 30.
      ensures r.Fail? ==> r.failure != Err(CodeError(29))
      ensures key in positions && positions[key].size == 0 && collateralToken in feeReserves
              && TransferIn(ledger, env, collateralToken).Ok? && collateralToken in tokenDecimals
              ==> r == Fail(Err(CodeError(30)))
      ensures r.Ok? ==> key in positions && positions[key].size > 0 && PositionValid(positions[key])
      ensures r.Ok? ==> r.value == (IncreasedPosition(positions[key], isLong, sizeDelta, env.blockTime), 0, 0)
      ensures r.Ok? ==> TransferIn(ledger, env, collateralToken).Ok?
    {
      var priced :- PricedPosition(env, key, indexToken, isLong, sizeDelta);
      var fee :- CollectMarginFees(collateralToken);
      var collateralDelta :- TransferIn(ledger, env, collateralToken);
      var collateralDeltaUsd :- TokenToUsdMinOf(collateralToken, collateralDelta);
      var position :- IncreasedPositionRecord(priced, fee, env.blockTime);
      r := Ok((position, fee, collateralDeltaUsd));
    }

    /** Whether the part of `try_increase_position` after its funding update
        goes through: the position part and the bookkeeping (with no margin
        fee and a collateral worth 0 USD). */
    predicate IncreaseSaveable(ledger: Ledger, env: Env, key: PositionKey, collateralToken: Addr,
                               indexToken: Addr, isLong: bool, sizeDelta: nat)
      reads this`globalShortSizes, this`globalShortAveragePrices, this`stateVariables, this`poolAmounts,
            this`reservedAmounts, this`positions, this`minProfitBasisPoints, this`feeReserves,
            this`tokenBalances, this`tokenDecimals, this`guaranteedUsd, this`maxGlobalShortSizes
    {
      IncreaseRecordable(ledger, env, key, collateralToken, indexToken, isLong, sizeDelta)
      && IncreaseSettleable(ledger, env, collateralToken, indexToken, isLong, sizeDelta, 0, 0,
                            positions[key].reserveAmount)
    }

    /** Whether `try_increase_position` succeeds: the checks, the funding
        update, the position part and the bookkeeping (with no margin fee
        and a collateral worth 0 USD). */
    predicate IncreaseSucceeds(ledger: Ledger, env: Env, sender: Addr, account: Addr, collateralToken: Addr,
                               indexToken: Addr, sizeDelta: nat, isLong: bool)
      reads this`globalShortSizes, this`globalShortAveragePrices, this`isLeverageEnabled, this`stateVariables,
            this`addresses, this`approvedRouters, this`whitelistedTokens, this`stableTokens,
            this`shortableTokens, this`lastFundingTimes, this`poolAmounts, this`reservedAmounts,
            this`cumulativeFundingRates, this`positions, this`minProfitBasisPoints, this`feeReserves,
            this`tokenBalances, this`tokenDecimals, this`guaranteedUsd, this`maxGlobalShortSizes
    {
      var key := NewKey(account, collateralToken, indexToken, isLong);
      IncreasePositionChecks(sender, account, collateralToken, indexToken, isLong).Ok?
      && FundingUpdatable(lastFundingTimes, env, collateralToken)
      && IncreaseSaveable(ledger, env, key, collateralToken, indexToken, isLong, sizeDelta)
    }

    /** Whether `try_increase_position` reaches its record checks with an
        empty stored position, which fails with code 30. */
    predicate IncreaseOfEmptyPosition(ledger: Ledger, env: Env, sender: Addr, account: Addr,
                                      collateralToken: Addr, indexToken: Addr, isLong: bool)
      reads this`globalShortSizes, this`globalShortAveragePrices, this`isLeverageEnabled, this`stateVariables,
            this`addresses, this`approvedRouters, this`whitelistedTokens, this`stableTokens,
            this`shortableTokens, this`lastFundingTimes, this`poolAmounts, this`reservedAmounts,
            this`cumulativeFundingRates, this`positions, this`feeReserves, this`tokenBalances,
            this`tokenDecimals
    {
      var key := NewKey(account, collateralToken, indexToken, isLong);
      IncreasePositionChecks(sender, account, collateralToken, indexToken, isLong).Ok?
      && FundingUpdatable(lastFundingTimes, env, collateralToken)
      && key in positions && positions[key].size == 0 && collateralToken in feeReserves
      && TransferIn(ledger, env, collateralToken).Ok? && collateralToken in tokenDecimals
    }

    /** The part of `try_increase_position` after its funding update for
        the position at `key`: the position part, the bookkeeping, and the
        saved record and global short average price. */
    method IncreasePositionSave(ledger: Ledger, env: Env, key: PositionKey, collateralToken: Addr,
                                indexToken: Addr, sizeDelta: nat, isLong: bool) returns (r: Result<()>)
      requires indexToken in globalShortSizes && indexToken in globalShortAveragePrices
      modifies this`feeReserves, this`positions, this`globalShortAveragePrices, this`reservedAmounts,
               this`guaranteedUsd, this`poolAmounts, this`globalShortSizes
      ensures feeReserves == old(feeReserves) && reservedAmounts == old(reservedAmounts)
      ensures guaranteedUsd == old(guaranteedUsd) && poolAmounts == old(poolAmounts)
      ensures globalShortSizes == old(globalShortSizes)
      ensures r.Ok? <==> old(IncreaseSaveable(ledger, env, key, collateralToken, indexToken, isLong, sizeDelta))
      ensures old(key in positions && positions[key].size == 0 && collateralToken in feeReserves
                  && TransferIn(ledger, env, collateralToken).Ok? && collateralToken in tokenDecimals)
              ==> r == Fail(Err(CodeError(30)))
      ensures r.Ok? ==>
        key in old(positions) && old(positions)[key].size > 0 && PositionValid(old(positions)[key])
        && positions == old(positions)[key := IncreasedPosition(old(positions)[key], isLong, sizeDelta,
                                                                env.blockTime)]
      ensures r.Ok? ==> globalShortAveragePrices == if isLong then old(globalShortAveragePrices)
                                                    else old(globalShortAveragePrices)[indexToken := 0]
    {
      var record :- IncreasePositionRecord(ledger, env, key, collateralToken, indexToken, isLong, sizeDelta);
      var (position, fee, collateralDeltaUsd) := record;
      r := IncreasePositionWrite(ledger, env, key, collateralToken, indexToken, sizeDelta, isLong, position,
                                 fee, collateralDeltaUsd);
    }

    /** The bookkeeping of `try_increase_position` for the record `position`
        (with margin fee `fee` and collateral value `collateralDeltaUsd`),
        then the saves of the position and the global short average. */
    method IncreasePositionWrite(ledger: Ledger, env: Env, key: PositionKey, collateralToken: Addr,
                                 indexToken: Addr, sizeDelta: nat, isLong: bool, position: Position, fee: nat,
                                 collateralDeltaUsd: nat) returns (r: Result<()>)
      requires indexToken in globalShortSizes && indexToken in globalShortAveragePrices
      modifies this`positions, this`globalShortAveragePrices, this`reservedAmounts, this`guaranteedUsd,
               this`poolAmounts, this`globalShortSizes
      ensures reservedAmounts == old(reservedAmounts) && guaranteedUsd == old(guaranteedUsd)
      ensures poolAmounts == old(poolAmounts) && globalShortSizes == old(globalShortSizes)
      ensures r.Ok? <==> old(IncreaseSettleable(ledger, env, collateralToken, indexToken, isLong, sizeDelta, fee,
                                                collateralDeltaUsd, position.reserveAmount))
      ensures r.Ok? ==> positions == old(positions)[key := position]
      ensures r.Ok? ==> globalShortAveragePrices == if isLong then old(globalShortAveragePrices)
                                                    else old(globalShortAveragePrices)[indexToken := 0]
      ensures r.Fail? ==> positions == old(positions) && globalShortAveragePrices == old(globalShortAveragePrices)
    {
      var averagePrice :- IncreasePositionSettle(ledger, env, collateralToken, indexToken, isLong, sizeDelta,
                                                 fee, collateralDeltaUsd, position.reserveAmount,
                                                 globalShortSizes[indexToken],
                                                 globalShortAveragePrices[indexToken]);
      positions := positions[key := position];
      globalShortAveragePrices := globalShortAveragePrices[indexToken := averagePrice];
      r := Ok(());
    }

    /** The steps of `try_increase_position`, without the revert. */
    method IncreasePositionSteps(ledger: Ledger, env: Env, sender: Addr, account: Addr, collateralToken: Addr,
                                 indexToken: Addr, sizeDelta: nat, isLong: bool) returns (r: Result<()>)
      modifies this`lastFundingTimes, this`feeReserves, this`positions, this`globalShortAveragePrices,
               this`reservedAmounts, this`guaranteedUsd, this`poolAmounts, this`globalShortSizes
      ensures feeReserves == old(feeReserves) && reservedAmounts == old(reservedAmounts)
      ensures guaranteedUsd == old(guaranteedUsd) && poolAmounts == old(poolAmounts)
      ensures globalShortSizes == old(globalShortSizes)
      ensures r.Ok? <==> old(IncreaseSucceeds(ledger, env, sender, account, collateralToken, indexToken,
                                              sizeDelta, isLong))
      ensures old(IncreaseOfEmptyPosition(ledger, env, sender, account, collateralToken, indexToken, isLong))
              ==> r == Fail(Err(CodeError(30)))
      ensures r.Ok? ==> old(IncreasePositionChecks(sender, account, collateralToken, indexToken, isLong)).Ok?
      ensures r.Ok? ==>
        var key := NewKey(account, collateralToken, indexToken, isLong);
        key in old(positions) && old(positions)[key].size > 0 && PositionValid(old(positions)[key])
        && positions == old(positions)[key := IncreasedPosition(old(positions)[key], isLong, sizeDelta,
                                                                env.blockTime)]
      ensures r.Ok? ==> globalShortAveragePrices == if isLong then old(globalShortAveragePrices)
                                                    else old(globalShortAveragePrices)[indexToken := 0]
      ensures r.Ok? ==> old(stateVariables).Some?
                        && lastFundingTimes == FundingTimesAfterUpdate(old(lastFundingTimes),
                             old(stateVariables).value.fundingInterval, env.blockTime, collateralToken)
      ensures old(IncreasePositionChecks(sender, account, collateralToken, indexToken, isLong)).Fail?
              ==> r == Fail(old(IncreasePositionChecks(sender, account, collateralToken, indexToken, isLong)).failure)
    {
      // The global short book loaded by the checks is passed on as it is stored.
      var _ :- IncreasePositionChecks(sender, account, collateralToken, indexToken, isLong);
      var _ :- UpdateCumulativeFundingRate(env, collateralToken);
      var key := NewKey(account, collateralToken, indexToken, isLong);
      r := IncreasePositionSave(ledger, env, key, collateralToken, indexToken, sizeDelta, isLong);
    }

    /** `try_increase_position`: increases the stored position of `account`
        by `sizeDelta` with the collateral the contract received. Quirks:
        the size, the collateral and the reservation are never increased
        (their sums are discarded), so a success re-prices the position,
        resets its entry funding rate and records the time; a short also
        resets the global short average price to 0. A position that was never
        stored cannot be increased, and one of size 0 fails with code 30. */
    method IncreasePosition(ledger: Ledger, env: Env, sender: Addr, account: Addr, collateralToken: Addr,
                            indexToken: Addr, sizeDelta: nat, isLong: bool) returns (r: Result<()>)
      modifies this`lastFundingTimes, this`feeReserves, this`positions, this`globalShortAveragePrices,
               this`reservedAmounts, this`guaranteedUsd, this`poolAmounts, this`globalShortSizes
      ensures r.Ok? <==> old(IncreaseSucceeds(ledger, env, sender, account, collateralToken, indexToken,
                                              sizeDelta, isLong))
      ensures old(IncreaseOfEmptyPosition(ledger, env, sender, account, collateralToken, indexToken, isLong))
              ==> r == Fail(Err(CodeError(30)))
      ensures r.Ok? ==> old(IncreasePositionChecks(sender, account, collateralToken, indexToken, isLong)).Ok?
      ensures r.Ok? ==>
        var key := NewKey(account, collateralToken, indexToken, isLong);
        key in old(positions) && old(positions)[key].size > 0 && PositionValid(old(positions)[key])
        && positions == old(positions)[key := IncreasedPosition(old(positions)[key], isLong, sizeDelta,
                                                                env.blockTime)]
      ensures r.Ok? ==> globalShortAveragePrices == if isLong then old(globalShortAveragePrices)
                                                    else old(globalShortAveragePrices)[indexToken := 0]
      ensures r.Ok? ==> old(stateVariables).Some?
                        && lastFundingTimes == FundingTimesAfterUpdate(old(lastFundingTimes),
                             old(stateVariables).value.fundingInterval, env.blockTime, collateralToken)
      ensures feeReserves == old(feeReserves) && reservedAmounts == old(reservedAmounts)
      ensures guaranteedUsd == old(guaranteedUsd) && poolAmounts == old(poolAmounts)
      ensures globalShortSizes == old(globalShortSizes)
      ensures old(PositionsValid()) ==> PositionsValid()
      ensures old(indexToken in globalShortSizes && indexToken in globalShortAveragePrices && !isLeverageEnabled)
              ==> r == Fail(Err(CodeError(28)))
      ensures old(ReservedWithinPool()) ==> ReservedWithinPool()
      ensures positions.Keys <= old(positions).Keys
      ensures r.Fail? ==> unchanged(this)
    {
      var savedTimes, savedPositions, savedAverages := lastFundingTimes, positions, globalShortAveragePrices;
      r := IncreasePositionSteps(ledger, env, sender, account, collateralToken, indexToken, sizeDelta, isLong);
      if r.Fail? {
        lastFundingTimes, positions, globalShortAveragePrices := savedTimes, savedPositions, savedAverages;
      }
    }

    /** The loads and checks `try_decrease_position` makes after its funding
        update: the stored position must be non-empty (code 31), at least
        `sizeDelta` large (code 32) and hold at least `collateralDelta` (code
        33). The result is the stored position. */
    function DecreasablePosition(key: PositionKey, collateralDelta: nat, sizeDelta: nat): (r: Result<Position>)
      reads this`positions
      ensures r.Ok? <==> (key in positions && 0 < positions[key].size && sizeDelta <= positions[key].size
                          && collateralDelta <= positions[key].collateral)
      ensures r.Ok? ==> r.value == positions[key]
      ensures key in positions && positions[key].size == 0 ==> r == Fail(Err(CodeError(31)))
      ensures key in positions && 0 < positions[key].size < sizeDelta ==> r == Fail(Err(CodeError(32)))
      ensures key in positions && 0 < positions[key].size && sizeDelta <= positions[key].size
              && positions[key].collateral < collateralDelta
              ==> r == Fail(Err(CodeError(33)))
    {
      var p :- Load(positions, key);
      var _ :- Validate(p.size > 0, 31);
      var _ :- Validate(p.size >= sizeDelta, 32);
      var _ :- Validate(p.collateral >= collateralDelta, 33);
      Ok(p)
    }

    /** The amount out of a decrease of the stored position `p`: the
        reduction `reduce_collateral` computes at the hard-coded prices and
        with no margin fee, and its payout converted to collateral tokens. */
    function DecreasePayout(env: Env, collateralToken: Addr, indexToken: Addr, isLong: bool, p: Position,
                            collateralDelta: nat, sizeDelta: nat): (r: Result<nat>)
      reads this`stateVariables, this`minProfitBasisPoints, this`tokenDecimals
      ensures r.Ok? ==> GetDeltaOf(env, indexToken, p.size, p.averagePrice, isLong, p.lastIncreasedTime).Ok?
      // A long is marked at price 0: its decrease realises a loss of the
      // whole size delta, which the collateral and the recorded profit must
      // cover; what is paid out is the collateral withdrawn or, on a full
      // close, what remains of the collateral.
      ensures r.Ok? && isLong ==> sizeDelta <= p.realisedPnl && sizeDelta + collateralDelta <= p.collateral
      ensures r.Ok? && isLong && sizeDelta == p.size
              ==> r == UsdToTokenMinOf(collateralToken, p.collateral - sizeDelta)
      ensures r.Ok? && isLong && sizeDelta != p.size ==> r == UsdToTokenMinOf(collateralToken, collateralDelta)
    {
      var reduction :- ReductionOf(env, indexToken, isLong, p, collateralDelta, sizeDelta);
      LongReductionRealisesLoss(p, collateralDelta, sizeDelta);
      if reduction.usdOut > 0 then UsdToTokenMinOf(collateralToken, reduction.usdOutAfterFee) else Ok(0)
    }

    /** Whether the part of `try_decrease_position` after the reduction
        `reduction` of the stored position `p` goes through: a partial
        decrease needs the remaining size valid against the old collateral
        and, for a long, the guaranteed USD to cover the size delta; a long
        needs its index token's global short size; a positive payout must
        convert to tokens, which for a long the pool must cover. */
    predicate DecreaseSettleable(collateralToken: Addr, indexToken: Addr, isLong: bool, sizeDelta: nat,
                                 p: Position, reduction: Reduction)
      requires sizeDelta <= p.size
      reads this`guaranteedUsd, this`globalShortSizes, this`tokenDecimals, this`poolAmounts, this`reservedAmounts
    {
      (sizeDelta != p.size
       ==> ValidatePosition(p.size - sizeDelta, p.collateral).Ok?
           && (isLong ==> collateralToken in guaranteedUsd && sizeDelta <= guaranteedUsd[collateralToken]))
      && (isLong ==> indexToken in globalShortSizes)
      && (reduction.usdOut > 0
          ==> UsdToTokenMinOf(collateralToken, reduction.usdOutAfterFee).Ok?
              && (isLong ==> PoolDecreasable(collateralToken,
                                             UsdToTokenMinOf(collateralToken, reduction.usdOutAfterFee).value)))
    }

    /** The part of `try_decrease_position` after the reduction: a partial
        decrease validates the remaining size against the OLD collateral (a
        panic) and, for a long, checks the guaranteed USD; then the global
        short size is decreased, for a LONG (quirk: shorts are meant); a
        positive payout is converted to tokens and, for a long, checked
        against the pool. The result is the amount out. */
    method DecreasePositionSettle(collateralToken: Addr, indexToken: Addr, isLong: bool, sizeDelta: nat,
                                  p: Position, reduction: Reduction) returns (r: Result<nat>)
      requires sizeDelta <= p.size
      modifies this`guaranteedUsd, this`globalShortSizes, this`poolAmounts
      ensures guaranteedUsd == old(guaranteedUsd) && globalShortSizes == old(globalShortSizes)
      ensures poolAmounts == old(poolAmounts)
      ensures r.Ok? <==> old(DecreaseSettleable(collateralToken, indexToken, isLong, sizeDelta, p, reduction))
      ensures r.Ok? && sizeDelta < p.size ==> ValidatePosition(p.size - sizeDelta, p.collateral).Ok?
      ensures r.Ok? && reduction.usdOut > 0 ==> UsdToTokenMinOf(collateralToken, reduction.usdOutAfterFee) == r
      ensures r.Ok? && reduction.usdOut == 0 ==> r.value == 0
    {
      if sizeDelta != p.size {
        // The entry funding rate and size of the local position are updated
        // but never saved.
        var _ :- ValidatePosition(p.size - sizeDelta, p.collateral);
        if isLong {
          // The old collateral minus the local's collateral, which
          // `reduce_collateral` did not change: 0.
          var _ :- IncreaseGuaranteedUsd(collateralToken, 0);
          var _ :- DecreaseGuaranteedUsd(collateralToken, sizeDelta);
        }
      }
      if isLong {
        var _ :- DecreaseGlobalShortSize(indexToken, sizeDelta);
      }
      if reduction.usdOut > 0 {
        // For a long the payout is converted, checked against the pool and
        // converted again with the same result; `_transfer_out` builds a
        // message that is discarded, so nothing is sent.
        var amountOut :- UsdToTokenMinOf(collateralToken, reduction.usdOutAfterFee);
        if isLong {
          var _ :- DecreasePoolAmount(collateralToken, amountOut);
        }
        return Ok(amountOut);
      }
      r := Ok(0);
    }

    /** Whether `reduce_collateral` and the part of `try_decrease_position`
        after it go through for the stored position at the key. */
    predicate ReducedSettleable(ledger: Ledger, env: Env, account: Addr, collateralToken: Addr, indexToken: Addr,
                                collateralDelta: nat, sizeDelta: nat, isLong: bool)
      requires var key := NewKey(account, collateralToken, indexToken, isLong);
               key in positions && sizeDelta <= positions[key].size
      reads this`positions, this`reservedAmounts, this`feeReserves, this`stateVariables,
            this`minProfitBasisPoints, this`tokenDecimals, this`poolAmounts, this`guaranteedUsd,
            this`globalShortSizes
    {
      var p := positions[NewKey(account, collateralToken, indexToken, isLong)];
      ReductionSucceeds(ledger, env, account, collateralToken, indexToken, collateralDelta, sizeDelta, isLong)
      && ReductionOf(env, indexToken, isLong, p, collateralDelta, sizeDelta).Ok?
      && DecreaseSettleable(collateralToken, indexToken, isLong, sizeDelta, p,
                            ReductionOf(env, indexToken, isLong, p, collateralDelta, sizeDelta).value)
    }

    /** Whether the settlement of `try_decrease_position` goes through for
        the stored position at the key: the reservation covers the share
        the decrease releases, `reduce_collateral` succeeds, and so does the
        part after it for the reduction it computes. */
    predicate DecreasePayable(ledger: Ledger, env: Env, account: Addr, collateralToken: Addr, indexToken: Addr,
                              collateralDelta: nat, sizeDelta: nat, isLong: bool)
      requires var key := NewKey(account, collateralToken, indexToken, isLong);
               key in positions && 0 < positions[key].size && sizeDelta <= positions[key].size
      reads this`positions, this`reservedAmounts, this`feeReserves, this`stateVariables,
            this`minProfitBasisPoints, this`tokenDecimals, this`poolAmounts, this`guaranteedUsd,
            this`globalShortSizes
    {
      var p := positions[NewKey(account, collateralToken, indexToken, isLong)];
      collateralToken in reservedAmounts
      && ProportionalShare(p.reserveAmount, sizeDelta, p.size) <= reservedAmounts[collateralToken]
      && ReducedSettleable(ledger, env, account, collateralToken, indexToken, collateralDelta, sizeDelta, isLong)
    }

    /** `reduce_collateral` for the stored position `p`, then the part of
        `try_decrease_position` after it. The result is the amount out. */
    method ReduceAndSettle(ledger: Ledger, env: Env, account: Addr, collateralToken: Addr,
                           indexToken: Addr, collateralDelta: nat, sizeDelta: nat, isLong: bool,
                           p: Position) returns (r: Result<nat>)
      requires NewKey(account, collateralToken, indexToken, isLong) in positions
      requires positions[NewKey(account, collateralToken, indexToken, isLong)] == p
      requires sizeDelta <= p.size
      modifies this`feeReserves, this`poolAmounts, this`guaranteedUsd, this`globalShortSizes
      ensures feeReserves == old(feeReserves) && poolAmounts == old(poolAmounts)
      ensures guaranteedUsd == old(guaranteedUsd) && globalShortSizes == old(globalShortSizes)
      ensures r.Ok? <==> old(ReducedSettleable(ledger, env, account, collateralToken, indexToken, collateralDelta,
                                               sizeDelta, isLong))
      ensures r.Ok? ==> r == DecreasePayout(env, collateralToken, indexToken, isLong, p, collateralDelta, sizeDelta)
      ensures r.Ok? && sizeDelta < p.size ==> ValidatePosition(p.size - sizeDelta, p.collateral).Ok?
    {
      var reduction :- ReduceCollateral(ledger, env, account, collateralToken, indexToken,
                                        collateralDelta, sizeDelta, isLong);
      r := DecreasePositionSettle(collateralToken, indexToken, isLong, sizeDelta, p, reduction);
    }

    /** The settlement of `try_decrease_position` for the stored position
        `p`: the reservation release (the share of the reservation the
        decrease stands for), the reduction and the payout. */
    method DecreasePositionPayout(ledger: Ledger, env: Env, account: Addr, collateralToken: Addr,
                                  indexToken: Addr, collateralDelta: nat, sizeDelta: nat, isLong: bool,
                                  p: Position) returns (r: Result<nat>)
      requires NewKey(account, collateralToken, indexToken, isLong) in positions
      requires positions[NewKey(account, collateralToken, indexToken, isLong)] == p
      requires 0 < p.size && sizeDelta <= p.size
      modifies this`reservedAmounts, this`feeReserves, this`poolAmounts, this`guaranteedUsd,
               this`globalShortSizes
      ensures feeReserves == old(feeReserves) && reservedAmounts == old(reservedAmounts)
      ensures guaranteedUsd == old(guaranteedUsd) && poolAmounts == old(poolAmounts)
      ensures globalShortSizes == old(globalShortSizes)
      ensures r.Ok? <==> old(DecreasePayable(ledger, env, account, collateralToken, indexToken, collateralDelta,
                                             sizeDelta, isLong))
      ensures r.Ok? ==> r == DecreasePayout(env, collateralToken, indexToken, isLong, p, collateralDelta, sizeDelta)
      ensures r.Ok? ==> collateralToken in reservedAmounts
                        && ProportionalShare(p.reserveAmount, sizeDelta, p.size) <= reservedAmounts[collateralToken]
      ensures r.Ok? && sizeDelta < p.size ==> ValidatePosition(p.size - sizeDelta, p.collateral).Ok?
    {
      // The reduced reservation of the local position is never saved.
      var reserveDelta := ProportionalShare(p.reserveAmount, sizeDelta, p.size);
      var _ :- DecreaseReservedAmount(collateralToken, reserveDelta);
      r := ReduceAndSettle(ledger, env, account, collateralToken, indexToken, collateralDelta, sizeDelta,
                           isLong, p);
    }

    /** The part of `try_decrease_position` after its funding update: the
        stored position is loaded and checked (codes 31 to 33), settled, and
        the position map is written back. */
    method DecreaseStored(ledger: Ledger, env: Env, account: Addr, collateralToken: Addr, indexToken: Addr,
                          collateralDelta: nat, sizeDelta: nat, isLong: bool) returns (r: Result<nat>)
      modifies this`reservedAmounts, this`feeReserves, this`poolAmounts, this`guaranteedUsd,
               this`globalShortSizes, this`positions
      ensures feeReserves == old(feeReserves) && reservedAmounts == old(reservedAmounts)
      ensures guaranteedUsd == old(guaranteedUsd) && poolAmounts == old(poolAmounts)
      ensures globalShortSizes == old(globalShortSizes)
      ensures r.Ok? <==> old(var key := NewKey(account, collateralToken, indexToken, isLong);
                             DecreasablePosition(key, collateralDelta, sizeDelta).Ok?
                             && DecreasePayable(ledger, env, account, collateralToken, indexToken,
                                                collateralDelta, sizeDelta, isLong))
      ensures var failed := old(DecreasablePosition(NewKey(account, collateralToken, indexToken, isLong),
                                                    collateralDelta, sizeDelta));
              failed.Fail? ==> r == Fail(failed.failure)
      ensures r.Fail? ==> positions == old(positions)
      ensures r.Ok? ==>
        var key := NewKey(account, collateralToken, indexToken, isLong);
        old(DecreasablePosition(key, collateralDelta, sizeDelta)).Ok?
        && r == DecreasePayout(env, collateralToken, indexToken, isLong, old(positions)[key],
                               collateralDelta, sizeDelta)
        && positions == DecreasedPositions(old(positions), key, sizeDelta)
        && (sizeDelta < old(positions)[key].size
            ==> ValidatePosition(old(positions)[key].size - sizeDelta, old(positions)[key].collateral).Ok?)
    {
      var key := NewKey(account, collateralToken, indexToken, isLong);
      var p :- DecreasablePosition(key, collateralDelta, sizeDelta);
      r := DecreasePositionPayout(ledger, env, account, collateralToken, indexToken, collateralDelta,
                                  sizeDelta, isLong, p);
      if r.Ok? {
        positions := DecreasedPositions(positions, key, sizeDelta);
      }
    }

    /** Whether `try_decrease_position` succeeds: the gas price and router
        checks, the funding update, a stored position that can be decreased
        (codes 31 to 33) and its settlement. */
    predicate DecreaseSucceeds(ledger: Ledger, env: Env, sender: Addr, account: Addr, collateralToken: Addr,
                               indexToken: Addr, collateralDelta: nat, sizeDelta: nat, isLong: bool)
      reads this`stateVariables, this`addresses, this`approvedRouters, this`lastFundingTimes, this`poolAmounts,
            this`stableTokens, this`reservedAmounts, this`cumulativeFundingRates, this`positions,
            this`feeReserves, this`minProfitBasisPoints, this`tokenDecimals, this`guaranteedUsd,
            this`globalShortSizes
    {
      ValidateGasPrice().Ok? && ValidateRouter(sender, account).Ok?
      && FundingUpdatable(lastFundingTimes, env, collateralToken)
      && DecreasablePosition(NewKey(account, collateralToken, indexToken, isLong), collateralDelta, sizeDelta).Ok?
      && DecreasePayable(ledger, env, account, collateralToken, indexToken, collateralDelta, sizeDelta, isLong)
    }

    /** The steps of `try_decrease_position`, without the revert. */
    method DecreasePositionSteps(ledger: Ledger, env: Env, sender: Addr, account: Addr, collateralToken: Addr,
                                 indexToken: Addr, collateralDelta: nat, sizeDelta: nat, isLong: bool)
      returns (r: Result<nat>)
      modifies this`lastFundingTimes, this`reservedAmounts, this`feeReserves, this`poolAmounts,
               this`guaranteedUsd, this`globalShortSizes, this`positions
      ensures feeReserves == old(feeReserves) && reservedAmounts == old(reservedAmounts)
      ensures guaranteedUsd == old(guaranteedUsd) && poolAmounts == old(poolAmounts)
      ensures globalShortSizes == old(globalShortSizes)
      ensures r.Ok? <==> old(DecreaseSucceeds(ledger, env, sender, account, collateralToken, indexToken,
                                              collateralDelta, sizeDelta, isLong))
      ensures var failed := old(DecreasablePosition(NewKey(account, collateralToken, indexToken, isLong),
                                                    collateralDelta, sizeDelta));
              old(ValidateGasPrice().Ok? && ValidateRouter(sender, account).Ok?
                  && FundingUpdatable(lastFundingTimes, env, collateralToken)) && failed.Fail?
              ==> r == Fail(failed.failure)
      ensures r.Ok? ==> old(ValidateGasPrice().Ok? && ValidateRouter(sender, account).Ok?)
      ensures r.Ok? ==> old(stateVariables).Some?
                        && lastFundingTimes == FundingTimesAfterUpdate(old(lastFundingTimes),
                             old(stateVariables).value.fundingInterval, env.blockTime, collateralToken)
      ensures r.Ok? ==>
        var key := NewKey(account, collateralToken, indexToken, isLong);
        old(DecreasablePosition(key, collateralDelta, sizeDelta)).Ok?
        && r == DecreasePayout(env, collateralToken, indexToken, isLong, old(positions)[key],
                               collateralDelta, sizeDelta)
        && positions == DecreasedPositions(old(positions), key, sizeDelta)
        && (sizeDelta < old(positions)[key].size
            ==> ValidatePosition(old(positions)[key].size - sizeDelta, old(positions)[key].collateral).Ok?)
    {
      var _ :- ValidateGasPrice();
      var _ :- ValidateRouter(sender, account);
      var _ :- UpdateCumulativeFundingRate(env, collateralToken);
      r := DecreaseStored(ledger, env, account, collateralToken, indexToken, collateralDelta, sizeDelta, isLong);
    }

    /** `try_decrease_position`: decreases the position of `account` by
        `sizeDelta` and withdraws `collateralDelta`. The result is the amount
        out in collateral tokens. Quirks: a partial decrease REMOVES the
        position and a full close keeps it as it was; the reservation,
        guaranteed USD, pool and global short size keep their values; the
        payout is never sent. */
    method DecreasePosition(ledger: Ledger, env: Env, sender: Addr, account: Addr, collateralToken: Addr,
                            indexToken: Addr, collateralDelta: nat, sizeDelta: nat, isLong: bool, receiver: Addr)
      returns (r: Result<nat>)
      modifies this`lastFundingTimes, this`reservedAmounts, this`feeReserves, this`poolAmounts,
               this`guaranteedUsd, this`globalShortSizes, this`positions
      ensures feeReserves == old(feeReserves) && reservedAmounts == old(reservedAmounts)
      ensures guaranteedUsd == old(guaranteedUsd) && poolAmounts == old(poolAmounts)
      ensures globalShortSizes == old(globalShortSizes)
      ensures r.Ok? <==> old(DecreaseSucceeds(ledger, env, sender, account, collateralToken, indexToken,
                                              collateralDelta, sizeDelta, isLong))
      ensures var failed := old(DecreasablePosition(NewKey(account, collateralToken, indexToken, isLong),
                                                    collateralDelta, sizeDelta));
              old(ValidateGasPrice().Ok? && ValidateRouter(sender, account).Ok?
                  && FundingUpdatable(lastFundingTimes, env, collateralToken)) && failed.Fail?
              ==> r == Fail(failed.failure)
      ensures r.Ok? ==> old(ValidateGasPrice().Ok? && ValidateRouter(sender, account).Ok?)
      ensures r.Ok? ==> old(stateVariables).Some?
                        && lastFundingTimes == FundingTimesAfterUpdate(old(lastFundingTimes),
                             old(stateVariables).value.fundingInterval, env.blockTime, collateralToken)
      ensures r.Ok? ==>
        var key := NewKey(account, collateralToken, indexToken, isLong);
        old(DecreasablePosition(key, collateralDelta, sizeDelta)).Ok?
        && r == DecreasePayout(env, collateralToken, indexToken, isLong, old(positions)[key],
                               collateralDelta, sizeDelta)
        && positions == DecreasedPositions(old(positions), key, sizeDelta)
        && (sizeDelta < old(positions)[key].size
            ==> ValidatePosition(old(positions)[key].size - sizeDelta, old(positions)[key].collateral).Ok?)
      ensures old(PositionsValid()) ==> PositionsValid()
      ensures old(ReservedWithinPool()) ==> ReservedWithinPool()
      ensures positions.Keys <= old(positions).Keys
      ensures r.Fail? ==> unchanged(this)
    {
      var savedTimes, savedPositions := lastFundingTimes, positions;
      r := DecreasePositionSteps(ledger, env, sender, account, collateralToken, indexToken,
                                 collateralDelta, sizeDelta, isLong);
      if r.Fail? {
        lastFundingTimes, positions := savedTimes, savedPositions;
      }
    }

    /** The loads and checks `try_liquidate_position` makes first: the
        configuration, the sender's liquidator flag and, in private
        liquidation mode, that flag (code 34). The result is the configuration. */
    function LiquidationChecks(sender: Addr): (r: Result<StateVariables>)
      reads this`stateVariables, this`isLiquidator
      ensures r.Ok? <==> (stateVariables.Some? && sender in isLiquidator
                          && (stateVariables.value.inPrivateLiquidationMode ==> isLiquidator[sender]))
      ensures r.Ok? ==> r.value == stateVariables.value
      ensures stateVariables.Some? && sender in isLiquidator && stateVariables.value.inPrivateLiquidationMode
              && !isLiquidator[sender]
              ==> r == Fail(Err(CodeError(34)))
    {
      var sv :- LoadItem(stateVariables);
      var liquidator :- Load(isLiquidator, sender);
      var _ :- if sv.inPrivateLiquidationMode then Validate(liquidator, 34) else Ok(());
      Ok(sv)
    }

    /** Whether the settlement of a liquidation of `p` goes through: the
        margin fee converts to tokens, the fee reserve is stored, the
        reservation covers the position's; a long's exposure (size minus
        collateral) must not underflow and the guaranteed USD must cover it,
        the pool must cover the margin fee tokens and, when the collateral
        exceeds the margin fee, the rest converts and the pool is within the
        balance; a short needs its index token's global short size; finally
        the liquidation fee converts and the pool covers it. */
    predicate LiquidationSettleable(ledger: Ledger, env: Env, collateralToken: Addr, indexToken: Addr,
                                    isLong: bool, p: Position, marginFees: nat, liquidationFeeUsd: nat)
      reads this`tokenDecimals, this`feeReserves, this`reservedAmounts, this`guaranteedUsd,
            this`poolAmounts, this`globalShortSizes
    {
      UsdToTokenMinOf(collateralToken, marginFees).Ok?
      && collateralToken in feeReserves
      && collateralToken in reservedAmounts && p.reserveAmount <= reservedAmounts[collateralToken]
      && (isLong
          ==> p.collateral <= p.size
              && collateralToken in guaranteedUsd && p.size - p.collateral <= guaranteedUsd[collateralToken]
              && PoolDecreasable(collateralToken, UsdToTokenMinOf(collateralToken, marginFees).value)
              && (marginFees < p.collateral
                  ==> UsdToTokenMinOf(collateralToken, p.collateral - marginFees).Ok?
                      && CheckPoolAmount(ledger, env, collateralToken).Ok?))
      && (!isLong ==> indexToken in globalShortSizes)
      && UsdToTokenMinOf(collateralToken, liquidationFeeUsd).Ok?
      && PoolDecreasable(collateralToken, UsdToTokenMinOf(collateralToken, liquidationFeeUsd).value)
    }

    /** The settlement of a liquidation of `p`: the margin fee conversion,
        the fee reserve load, the reservation release and, for a long, the
        guaranteed USD release and pool checks, for a short the global short
        size decrease; then the liquidation fee is checked against the pool.
        Every helper saves its entry unchanged, and the fee reserve sum is
        never saved. */
    method LiquidationSettle(ledger: Ledger, env: Env, collateralToken: Addr, indexToken: Addr, isLong: bool,
                             p: Position, marginFees: nat, liquidationFeeUsd: nat) returns (r: Result<()>)
      modifies this`reservedAmounts, this`guaranteedUsd, this`poolAmounts, this`globalShortSizes
      ensures reservedAmounts == old(reservedAmounts) && guaranteedUsd == old(guaranteedUsd)
      ensures poolAmounts == old(poolAmounts) && globalShortSizes == old(globalShortSizes)
      ensures r.Ok? <==> old(LiquidationSettleable(ledger, env, collateralToken, indexToken, isLong, p, marginFees,
                                                   liquidationFeeUsd))
      ensures r.Ok? ==> collateralToken in reservedAmounts && p.reserveAmount <= reservedAmounts[collateralToken]
      ensures r.Ok? && isLong ==> p.collateral <= p.size
    {
      var feeTokens :- UsdToTokenMinOf(collateralToken, marginFees);
      var _ :- Load(feeReserves, collateralToken);   // plus the fee tokens, never saved
      var _ :- DecreaseReservedAmount(collateralToken, p.reserveAmount);
      if isLong {
        var exposure :- Sub(p.size, p.collateral);
        var _ :- DecreaseGuaranteedUsd(collateralToken, exposure);
        // The same conversion of the margin fee as above.
        var _ :- DecreasePoolAmount(collateralToken, feeTokens);
        if marginFees < p.collateral {
          var _ :- UsdToTokenMinOf(collateralToken, p.collateral - marginFees);
          var _ :- CheckPoolAmount(ledger, env, collateralToken);   // `increase_pool_amount` only checks
        }
      } else {
        var _ :- DecreaseGlobalShortSize(indexToken, p.size);
      }
      var liquidationFee :- UsdToTokenMinOf(collateralToken, liquidationFeeUsd);
      var _ :- DecreasePoolAmount(collateralToken, liquidationFee);
      r := Ok(());
    }

    /** Whether `try_liquidate_position` succeeds for the outcome
        (`liquidationState`, `marginFees`) of the liquidation validation: the
        checks, the funding update, a stored non-empty position (code 35), a
        state other than 0 (code 36) and, unless the state is 2, the
        settlement. */
    predicate LiquidateSucceeds(ledger: Ledger, env: Env, sender: Addr, account: Addr, collateralToken: Addr,
                                indexToken: Addr, isLong: bool, liquidationState: nat, marginFees: nat)
      reads this`stateVariables, this`isLiquidator, this`lastFundingTimes, this`poolAmounts, this`stableTokens,
            this`reservedAmounts, this`cumulativeFundingRates, this`positions, this`tokenDecimals,
            this`feeReserves, this`guaranteedUsd, this`globalShortSizes
    {
      LiquidationChecks(sender).Ok? && FundingUpdatable(lastFundingTimes, env, collateralToken)
      && LiquidatableStored(ledger, env, account, collateralToken, indexToken, isLong, liquidationState, marginFees)
    }

    /** Whether the part of `try_liquidate_position` after its funding update
        goes through: a stored non-empty position (code 35), a state other
        than 0 (code 36) and, unless the state is 2, the settlement. */
    predicate LiquidatableStored(ledger: Ledger, env: Env, account: Addr, collateralToken: Addr, indexToken: Addr,
                                 isLong: bool, liquidationState: nat, marginFees: nat)
      reads this`stateVariables, this`positions, this`tokenDecimals, this`feeReserves, this`reservedAmounts,
            this`guaranteedUsd, this`poolAmounts, this`globalShortSizes
    {
      var key := NewKey(account, collateralToken, indexToken, isLong);
      stateVariables.Some? && key in positions && positions[key].size > 0 && liquidationState != 0
      && (liquidationState != 2
          ==> LiquidationSettleable(ledger, env, collateralToken, indexToken, isLong, positions[key], marginFees,
                                    stateVariables.value.liquidationFeeUsd))
    }

    /** The part of `try_liquidate_position` after its funding update: the
        stored position is loaded and checked (codes 35 and 36) and, unless
        the state is 2, settled and removed, and the configuration saved
        with `include_amm_price` set. */
    method LiquidateStored(ledger: Ledger, env: Env, account: Addr, collateralToken: Addr, indexToken: Addr,
                           isLong: bool, liquidationState: nat, marginFees: nat) returns (r: Result<()>)
      requires stateVariables.Some?
      modifies this`reservedAmounts, this`guaranteedUsd, this`poolAmounts, this`globalShortSizes,
               this`positions, this`stateVariables
      ensures reservedAmounts == old(reservedAmounts) && guaranteedUsd == old(guaranteedUsd)
      ensures poolAmounts == old(poolAmounts) && globalShortSizes == old(globalShortSizes)
      ensures r.Ok? <==> old(LiquidatableStored(ledger, env, account, collateralToken, indexToken, isLong,
                                                liquidationState, marginFees))
      ensures var key := NewKey(account, collateralToken, indexToken, isLong);
              old(key in positions && positions[key].size == 0) ==> r == Fail(Err(CodeError(35)))
      ensures var key := NewKey(account, collateralToken, indexToken, isLong);
              old(key in positions && positions[key].size > 0) && liquidationState == 0
              ==> r == Fail(Err(CodeError(36)))
      ensures r.Fail? ==> positions == old(positions) && stateVariables == old(stateVariables)
      ensures r.Ok? && liquidationState == 2 ==> positions == old(positions) && stateVariables == old(stateVariables)
      ensures r.Ok? && liquidationState != 2
              ==> positions == old(positions) - {NewKey(account, collateralToken, indexToken, isLong)}
                  && stateVariables == Some(old(stateVariables).value.(includeAmmPrice := true))
    {
      var sv := stateVariables.value;
      var key := NewKey(account, collateralToken, indexToken, isLong);
      var p :- Load(positions, key);
      var _ :- Validate(p.size > 0, 35);
      var _ :- Validate(liquidationState != 0, 36);
      if liquidationState == 2 {
        return Ok(());   // the local configuration is not saved
      }
      var _ :- LiquidationSettle(ledger, env, collateralToken, indexToken, isLong, p, marginFees,
                                 sv.liquidationFeeUsd);
      positions := positions - {key};
      stateVariables := Some(sv.(includeAmmPrice := true));
      r := Ok(());
    }

    /** Whether `try_liquidate_position` gets past its checks and funding
        update to a stored position at the key. */
    predicate LiquidationReaches(env: Env, sender: Addr, key: PositionKey, collateralToken: Addr)
      reads this`stateVariables, this`isLiquidator, this`lastFundingTimes, this`poolAmounts, this`stableTokens,
            this`reservedAmounts, this`cumulativeFundingRates, this`positions
    {
      LiquidationChecks(sender).Ok? && FundingUpdatable(lastFundingTimes, env, collateralToken) && key in positions
    }

    /** The steps of `try_liquidate_position`, without the revert, for the
        outcome (`liquidationState`, `marginFees`) of the liquidation
        validation: 0 refuses the liquidation (code 36), 2 asks for a
        decrease instead and succeeds without saving anything further. */
    method LiquidatePositionSteps(ledger: Ledger, env: Env, sender: Addr, account: Addr, collateralToken: Addr,
                                  indexToken: Addr, isLong: bool, liquidationState: nat, marginFees: nat)
      returns (r: Result<()>)
      modifies this`lastFundingTimes, this`reservedAmounts, this`guaranteedUsd, this`poolAmounts,
               this`globalShortSizes, this`positions, this`stateVariables
      ensures reservedAmounts == old(reservedAmounts) && guaranteedUsd == old(guaranteedUsd)
      ensures poolAmounts == old(poolAmounts) && globalShortSizes == old(globalShortSizes)
      ensures r.Ok? <==> old(LiquidateSucceeds(ledger, env, sender, account, collateralToken, indexToken, isLong,
                                               liquidationState, marginFees))
      ensures r.Ok? ==> old(LiquidationChecks(sender)).Ok? && liquidationState != 0
      ensures old(LiquidationChecks(sender)).Fail? ==> r == Fail(old(LiquidationChecks(sender)).failure)
      ensures var key := NewKey(account, collateralToken, indexToken, isLong);
              old(LiquidationReaches(env, sender, key, collateralToken) && positions[key].size == 0)
              ==> r == Fail(Err(CodeError(35)))
      ensures var key := NewKey(account, collateralToken, indexToken, isLong);
              old(LiquidationReaches(env, sender, key, collateralToken) && positions[key].size > 0)
              && liquidationState == 0
              ==> r == Fail(Err(CodeError(36)))
      ensures r.Ok? ==> lastFundingTimes == FundingTimesAfterUpdate(old(lastFundingTimes),
                                              old(stateVariables).value.fundingInterval, env.blockTime,
                                              collateralToken)
      ensures r.Ok? ==> var key := NewKey(account, collateralToken, indexToken, isLong);
                        key in old(positions) && old(positions)[key].size > 0
      ensures r.Ok? && liquidationState == 2 ==> positions == old(positions) && stateVariables == old(stateVariables)
      ensures r.Ok? && liquidationState != 2
              ==> positions == old(positions) - {NewKey(account, collateralToken, indexToken, isLong)}
                  && stateVariables == Some(old(stateVariables).value.(includeAmmPrice := true))
    {
      var _ :- LiquidationChecks(sender);
      // `include_amm_price` is cleared in the local configuration.
      var _ :- UpdateCumulativeFundingRate(env, collateralToken);
      r := LiquidateStored(ledger, env, account, collateralToken, indexToken, isLong, liquidationState, marginFees);
    }

    /** The liquidation validation outcome `try_liquidate_position` hard-codes:
        state 1 (liquidate) and a margin fee of 1. */
    const LIQUIDATION_STATE: nat := 1
    const LIQUIDATION_MARGIN_FEES: nat := 1

    /** `try_liquidate_position`: removes the position of `account` and sets
        `include_amm_price` in the configuration. Quirks: the reservation,
        guaranteed USD, pools, global short size and fee reserve keep their
        values, and nothing is paid to the fee receiver. */
    method LiquidatePosition(ledger: Ledger, env: Env, sender: Addr, account: Addr, collateralToken: Addr,
                             indexToken: Addr, isLong: bool, feeReceiver: Addr) returns (r: Result<()>)
      modifies this`lastFundingTimes, this`reservedAmounts, this`guaranteedUsd, this`poolAmounts,
               this`globalShortSizes, this`positions, this`stateVariables
      ensures reservedAmounts == old(reservedAmounts) && guaranteedUsd == old(guaranteedUsd)
      ensures poolAmounts == old(poolAmounts) && globalShortSizes == old(globalShortSizes)
      ensures r.Ok? <==> old(LiquidateSucceeds(ledger, env, sender, account, collateralToken, indexToken, isLong,
                                               LIQUIDATION_STATE, LIQUIDATION_MARGIN_FEES))
      ensures r.Ok? ==> old(LiquidationChecks(sender)).Ok?
      ensures old(LiquidationChecks(sender)).Fail? ==> r == Fail(old(LiquidationChecks(sender)).failure)
      ensures var key := NewKey(account, collateralToken, indexToken, isLong);
              old(LiquidationReaches(env, sender, key, collateralToken) && positions[key].size == 0)
              ==> r == Fail(Err(CodeError(35)))
      ensures r.Ok? ==> lastFundingTimes == FundingTimesAfterUpdate(old(lastFundingTimes),
                                              old(stateVariables).value.fundingInterval, env.blockTime,
                                              collateralToken)
      ensures r.Ok? ==> var key := NewKey(account, collateralToken, indexToken, isLong);
                        key in old(positions) && old(positions)[key].size > 0
                        && positions == old(positions) - {key}
      ensures r.Ok? ==> stateVariables == Some(old(stateVariables).value.(includeAmmPrice := true))
      ensures old(PositionsValid()) ==> PositionsValid()
      ensures old(ReservedWithinPool()) ==> ReservedWithinPool()
      ensures positions.Keys <= old(positions).Keys
      ensures r.Fail? ==> unchanged(this)
    {
      var savedTimes, savedPositions, savedState := lastFundingTimes, positions, stateVariables;
      r := LiquidatePositionSteps(ledger, env, sender, account, collateralToken, indexToken, isLong,
                                  LIQUIDATION_STATE, LIQUIDATION_MARGIN_FEES);
      if r.Fail? {
        lastFundingTimes, positions, stateVariables := savedTimes, savedPositions, savedState;
      }
    }

    // -------------------------------------------------------------------------
    // Queries

    /** `try_get_redemption_collateral`: for a stable token the pool; for any
        other the guaranteed USD converted to tokens, plus the pool, minus
        the reservation (a panic below zero). */
    function GetRedemptionCollateral(token: Addr): (r: Result<nat>)
      reads this`stableTokens, this`poolAmounts, this`guaranteedUsd, this`reservedAmounts, this`tokenDecimals
      ensures r.Ok? ==> token in stableTokens && token in poolAmounts && token in guaranteedUsd
                        && token in reservedAmounts
      // A missing entry is the `?` of its load.
      ensures !(token in stableTokens && token in poolAmounts && token in guaranteedUsd && token in reservedAmounts)
              ==> r == Fail(Err(Std(NotFound)))
      ensures token in stableTokens && token in poolAmounts && token in guaranteedUsd
              && token in reservedAmounts && stableTokens[token]
              ==> r == Ok(poolAmounts[token])
      // A token that is not stable: the query succeeds exactly when the decimals load
      // (or there is no guaranteed USD) and the reservation fits.
      ensures token in stableTokens && token in poolAmounts && token in guaranteedUsd
              && token in reservedAmounts && !stableTokens[token]
              ==> (r.Ok? <==> UsdToTokenMinOf(token, guaranteedUsd[token]).Ok?
                              && reservedAmounts[token] <= UsdToTokenMinOf(token, guaranteedUsd[token]).value
                                                            + poolAmounts[token])
      ensures r.Ok? && !stableTokens[token]
              ==> UsdToTokenMinOf(token, guaranteedUsd[token]).Ok?
                  && r.value + reservedAmounts[token]
                     == UsdToTokenMinOf(token, guaranteedUsd[token]).value + poolAmounts[token]
      ensures token in stableTokens && token in poolAmounts && token in guaranteedUsd
              && token in reservedAmounts && !stableTokens[token] && UsdToTokenMinOf(token, guaranteedUsd[token]).Ok?
              && reservedAmounts[token] > UsdToTokenMinOf(token, guaranteedUsd[token]).value + poolAmounts[token]
              ==> r == Fail(Abort(Underflow))
    {
      var stable :- Load(stableTokens, token);
      var pool :- Load(poolAmounts, token);
      var guaranteed :- Load(guaranteedUsd, token);
      var reserved :- Load(reservedAmounts, token);
      if stable then Ok(pool)
      else
        var collateral :- UsdToTokenMinOf(token, guaranteed);
        RedemptionCollateral(collateral, pool, reserved)
    }

    /** `try_get_redemption_collateral_usd`. Quirks: for a stable token it
        returns the pool in TOKENS, not USD; for any other token the amount
        is valued at the hard-coded price 0, so the answer is 0. */
    function GetRedemptionCollateralUsd(token: Addr): (r: Result<nat>)
      reads this`stableTokens, this`poolAmounts, this`guaranteedUsd, this`reservedAmounts, this`tokenDecimals
      ensures r.Ok? <==> (GetRedemptionCollateral(token).Ok?
                          && (stableTokens[token] || token in tokenDecimals))
      ensures r.Ok? && stableTokens[token] ==> r == GetRedemptionCollateral(token)
      ensures r.Ok? && !stableTokens[token] ==> r.value == 0
    {
      var stable :- Load(stableTokens, token);
      var pool :- Load(poolAmounts, token);
      var guaranteed :- Load(guaranteedUsd, token);
      var reserved :- Load(reservedAmounts, token);
      if stable then Ok(pool)
      else
        var collateral :- UsdToTokenMinOf(token, guaranteed);
        var amount :- RedemptionCollateral(collateral, pool, reserved);
        TokenToUsdMinOf(token, amount)
    }

    /** `try_get_utilisation`: the reservation per pool in millionths, 0 for
        an empty pool; at most 100% while the reservation fits in the pool. */
    function GetUtilisation(token: Addr): (r: Result<nat>)
      reads this`poolAmounts, this`reservedAmounts
      ensures r.Ok? <==> token in poolAmounts && token in reservedAmounts
      ensures r.Ok? ==> r.value == Utilisation(poolAmounts[token], reservedAmounts[token])
      ensures r.Ok? && reservedAmounts[token] <= poolAmounts[token] ==> r.value <= FUNDING_RATE_PRECISION
    {
      var pool :- Load(poolAmounts, token);
      var reserved :- Load(reservedAmounts, token);
      if reserved <= pool then
        UtilisationBounded(pool, reserved);
        Ok(Utilisation(pool, reserved))
      else Ok(Utilisation(pool, reserved))
    }

    /** `try_get_position`: the stored position. The realised profit is
        copied when positive and otherwise replaced by `0 - realised_pnl`,
        which for an unsigned zero is 0, so the record comes back as stored. */
    function GetPosition(account: Addr, collateralToken: Addr, indexToken: Addr, isLong: bool)
      : (r: Result<Position>)
      reads this`positions
      ensures r.Ok? <==> NewKey(account, collateralToken, indexToken, isLong) in positions
      ensures r.Ok? ==> r.value == positions[NewKey(account, collateralToken, indexToken, isLong)]
    {
      var p :- Load(positions, NewKey(account, collateralToken, indexToken, isLong));
      var realisedPnl := if p.realisedPnl > 0 then p.realisedPnl else 0 - p.realisedPnl;
      Ok(p.(realisedPnl := realisedPnl))
    }

    /** `try_get_position_leverage`: the stored position's size per
        collateral in basis points; no collateral panics (code 37). A
        position that passes `validate_position` has leverage at least 1x. */
    function GetPositionLeverage(account: Addr, collateralToken: Addr, indexToken: Addr, isLong: bool)
      : (r: Result<nat>)
      reads this`positions
      ensures r.Ok? <==> var key := NewKey(account, collateralToken, indexToken, isLong);
                         key in positions && positions[key].collateral > 0
      ensures NewKey(account, collateralToken, indexToken, isLong) !in positions ==> r == Fail(Err(Std(NotFound)))
      ensures var key := NewKey(account, collateralToken, indexToken, isLong);
              key in positions ==> r == PositionLeverage(positions[key].size, positions[key].collateral)
      ensures var key := NewKey(account, collateralToken, indexToken, isLong);
              key in positions && positions[key].collateral == 0 ==> r == Fail(Abort(UnwrapErr(CodeError(37))))
      ensures r.Ok? && PositionValid(positions[NewKey(account, collateralToken, indexToken, isLong)])
              ==> r.value >= MIN_LEVERAGE
    {
      var p :- Load(positions, NewKey(account, collateralToken, indexToken, isLong));
      if PositionValid(p) && p.collateral > 0 then
        ValidPositionLeverageAtLeastOne(p.size, p.collateral);
        PositionLeverage(p.size, p.collateral)
      else PositionLeverage(p.size, p.collateral)
    }

    /** `try_global_short_delta`: the profit or loss of the global short book
        at the hard-coded price 1. Quirk: the delta scales the average price,
        not the size, by the price distance, so it does not depend on the size. */
    function GetGlobalShortDelta(token: Addr): (r: Result<Delta>)
      reads this`globalShortSizes, this`globalShortAveragePrices
      ensures r.Ok? ==> token in globalShortSizes && token in globalShortAveragePrices
      ensures !(token in globalShortSizes && token in globalShortAveragePrices) ==> r == Fail(Err(Std(NotFound)))
      ensures token in globalShortSizes && token in globalShortAveragePrices && globalShortSizes[token] == 0
              ==> r == Ok(Delta(false, 0))
      ensures r.Ok? && globalShortSizes[token] != 0
              ==> var averagePrice := globalShortAveragePrices[token];
                  r.value == Delta(averagePrice > STUB_PRICE, PriceDistance(averagePrice, STUB_PRICE))
      ensures token in globalShortSizes && token in globalShortAveragePrices && globalShortSizes[token] != 0
              ==> (r.Ok? <==> globalShortAveragePrices[token] != 0)
    {
      var size :- Load(globalShortSizes, token);
      var averagePrice :- Load(globalShortAveragePrices, token);
      GlobalShortDelta(size, averagePrice, STUB_PRICE)
    }

    /** `try_get_position_delta`: `get_delta` of the stored position. */
    function GetPositionDelta(env: Env, account: Addr, collateralToken: Addr, indexToken: Addr, isLong: bool)
      : (r: Result<Delta>)
      reads this`positions, this`stateVariables, this`minProfitBasisPoints
      ensures r.Ok? <==> var key := NewKey(account, collateralToken, indexToken, isLong);
                         key in positions && stateVariables.Some? && indexToken in minProfitBasisPoints
                         && positions[key].averagePrice != 0
      ensures NewKey(account, collateralToken, indexToken, isLong) !in positions ==> r == Fail(Err(Std(NotFound)))
      ensures var key := NewKey(account, collateralToken, indexToken, isLong);
              key in positions
              ==> r == GetDeltaOf(env, indexToken, positions[key].size, positions[key].averagePrice,
                                  isLong, positions[key].lastIncreasedTime)
      // A long is marked at price 0, so it shows a loss of its whole size.
      ensures r.Ok? && isLong
              ==> r.value == Delta(false, positions[NewKey(account, collateralToken, indexToken, isLong)].size)
    {
      var p :- Load(positions, NewKey(account, collateralToken, indexToken, isLong));
      GetDeltaOf(env, indexToken, p.size, p.averagePrice, isLong, p.lastIncreasedTime)
    }
  }
}

=== FILE: errors.dfy ===
/** Error values of the vault contract (vault/src/error.rs).
    The enum carries no behaviour; the contract builds these values and the
    entry points hand them back to the caller, who sees the whole call revert. */
module Errors {

  /** The subset of the chain library's standard error that the vault can raise:
      a storage `load` of a key that was never saved, a free-text error, a
      serialisation error, and the failure of a query to another contract (the
      model does not distinguish the querier's own messages). */
  datatype StdError =
    | NotFound
    | GenericErr(msg: string)
    | SerializeErr(sourceType: string, msg: string)
    | QueryFailed

  /** `ContractError` of vault/src/error.rs, variant for variant. */
  datatype ContractError =
    | Std(std: StdError)
    | Unauthorized
    | InvalidAmount
    | CustomError(val: string)
    | SerializationFailed(denom: string, address: string)
    | DeserializationFailed
}

=== FILE: outcomes.dfy ===
/** How a call of the vault contract ends.

    A call either returns `Ok` or fails. It fails in one of two ways: the contract
    returns an `Err` (through `?` or an explicit `return Err(..)`), or the contract
    panics (an `.unwrap()` on an error, a `u128` subtraction below zero, a division
    by zero). Either way the chain reverts every write of the call. The contract's
    `_validate(condition, code)` helper and the storage `load` calls are defined
    here, because almost every operation of the contract is built from them. */
module Outcomes {
  import opened Errors

  datatype Option<+T> = None | Some(value: T)

  /** Why a call panicked. */
  datatype AbortCause =
    | UnwrapErr(error: ContractError)   // `.unwrap()` applied to an `Err`
    | Underflow                         // `u128` subtraction with a negative result
    | DivisionByZero

  datatype Failure =
    | Err(error: ContractError)
    | Abort(cause: AbortCause)

  /** `Result<T, ContractError>` extended with panics; usable with `:-`. */
  datatype Result<+T> = Ok(value: T) | Fail(failure: Failure) {
    predicate IsFailure() { Fail? }

    function PropagateFailure<U>(): Result<U>
      requires Fail?
    {
      Fail(failure)
    }

    function Extract(): T
      requires Ok?
    {
      value
    }
  }

  function Digit(d: nat): (c: char)
    requires d < 10
    ensures '0' <= c <= '9'
  {
    ('0' as int + d) as char
  }

  /** The decimal rendering `format!("{}", n)` of a non-negative integer. */
  function DecimalString(n: nat): (s: string)
    ensures |s| >= 1
    ensures |s| == 1 <==> n < 10
    ensures s[|s| - 1] == Digit(n % 10)
    ensures n >= 10 ==> s[..|s| - 1] == DecimalString(n / 10)
    decreases n
  {
    if n < 10 then [Digit(n)] else DecimalString(n / 10) + [Digit(n % 10)]
  }

  /** Two numbers with the same rendering are equal. */
  lemma {:induction false} DecimalStringInjective(a: nat, b: nat)
    requires DecimalString(a) == DecimalString(b)
    ensures a == b
    decreases a
  {
    var s := DecimalString(a);
    assert a % 10 == b % 10 by {
      assert Digit(a % 10) == s[|s| - 1] == Digit(b % 10);
    }
    if a >= 10 {
      assert b >= 10;
      assert s[..|s| - 1] == DecimalString(a / 10) == DecimalString(b / 10);
      DecimalStringInjective(a / 10, b / 10);
      assert a == 10 * (a / 10) + a % 10 && b == 10 * (b / 10) + b % 10;
    }
  }

  /** The error `_validate(false, code)` returns: `CustomError` with the text
      "Error code: <code>". */
  function CodeError(code: nat): ContractError {
    CustomError("Error code: " + DecimalString(code))
  }

  /** Distinct error codes produce distinct errors, so a failed call's error
      names the check that failed. */
  lemma CodeErrorInjective(a: nat, b: nat)
    requires CodeError(a) == CodeError(b)
    ensures a == b
  {
    var prefix := "Error code: ";
    assert DecimalString(a) == CodeError(a).val[|prefix|..];
    assert DecimalString(b) == CodeError(b).val[|prefix|..];
    DecimalStringInjective(a, b);
  }

  /** `_validate(condition, code)`. */
  function Validate(condition: bool, code: nat): (r: Result<()>)
    ensures r.Ok? <==> condition
    ensures !condition ==> r.failure == Err(CodeError(code))
  {
    if condition then Ok(()) else Fail(Err(CodeError(code)))
  }

  /** `.unwrap()` on a `Result`: an `Err` becomes a panic. */
  function Unwrap<T>(r: Result<T>): (u: Result<T>)
    ensures u.Ok? <==> r.Ok?
    ensures u.Ok? ==> u.value == r.value
    ensures u.Fail? ==> u.failure.Abort?
  {
    match r
    case Ok(_) => r
    case Fail(Err(e)) => Fail(Abort(UnwrapErr(e)))
    case Fail(Abort(_)) => r
  }

  /** `a - b` on `u128`: panics when `b > a`. */
  function Sub(a: nat, b: nat): (r: Result<nat>)
    ensures r.Ok? <==> b <= a
    ensures r.Ok? ==> r.value + b == a
    ensures r.Fail? ==> r.failure == Abort(Underflow)
  {
    if b <= a then Ok(a - b) else Fail(Abort(Underflow))
  }

  /** `a / b` on `u128`: panics when `b == 0`. */
  function Div(a: nat, b: nat): (r: Result<nat>)
    ensures r.Ok? <==> b != 0
    ensures r.Ok? ==> r.value * b <= a < (r.value + 1) * b
    ensures r.Fail? ==> r.failure == Abort(DivisionByZero)
  {
    if b != 0 then Ok(a / b) else Fail(Abort(DivisionByZero))
  }

  /** `MAP.load(storage, key)?`: a key never saved is `NotFound`. */
  function Load<K, V>(m: map<K, V>, k: K): (r: Result<V>)
    ensures r.Ok? <==> k in m
    ensures r.Ok? ==> r.value == m[k]
    ensures r.Fail? ==> r.failure == Err(Std(NotFound))
  {
    if k in m then Ok(m[k]) else Fail(Err(Std(NotFound)))
  }

  /** `MAP.load(storage, key).unwrap()`: a key never saved panics. */
  function LoadOrAbort<K, V>(m: map<K, V>, k: K): (r: Result<V>)
    ensures r.Ok? <==> k in m
    ensures r.Ok? ==> r.value == m[k]
    ensures r.Fail? ==> r.failure == Abort(UnwrapErr(Std(NotFound)))
  {
    Unwrap(Load(m, k))
  }

  /** `ITEM.load(storage)?` on a singleton item. */
  function LoadItem<T>(item: Option<T>): (r: Result<T>)
    ensures r.Ok? <==> item.Some?
    ensures r.Ok? ==> r.value == item.value
    ensures r.Fail? ==> r.failure == Err(Std(NotFound))
  {
    if item.Some? then Ok(item.value) else Fail(Err(Std(NotFound)))
  }

  /** `ITEM.load(storage).unwrap()` on a singleton item. */
  function LoadItemOrAbort<T>(item: Option<T>): (r: Result<T>)
    ensures r.Ok? <==> item.Some?
    ensures r.Ok? ==> r.value == item.value
    ensures r.Fail? ==> r.failure == Abort(UnwrapErr(Std(NotFound)))
  {
    Unwrap(LoadItem(item))
  }
}

=== FILE: state.dfy ===
/** The stored types of the vault (Vault/src/state.rs): the configuration record,
    the position record, the generic four-part position key and the storage
    namespaces. All integer fields are `u128` (or `u64`) in the contract and are
    `nat` here. */
module State {
  import opened Errors
  import opened Outcomes

  /** `cosmwasm_std::Addr`: a bech32 address string. */
  type Addr = string

  datatype AddressesStruct = AddressesStruct(
    router: Addr,
    priceFeed: Addr,
    usdg: Addr,
    errorController: Addr
  )

  /** `StateVariablesStruct`, field for field. */
  datatype StateVariables = StateVariables(
    whitelistedTokenCount: nat,
    maxLeverage: nat,
    liquidationFeeUsd: nat,
    taxBasisPoints: nat,
    stableTaxBasisPoints: nat,
    mintBurnFeeBasisPoints: nat,
    swapFeeBasisPoints: nat,
    stableSwapFeeBasisPoints: nat,
    marginFeeBasisPoints: nat,
    minProfitTime: nat,
    hasDynamicFees: bool,
    fundingInterval: nat,          // u64 in the contract
    fundingRateFactor: nat,
    stableFundingRateFactor: nat,
    totalTokenWeights: nat,
    includeAmmPrice: bool,
    useSwapPricing: bool,
    inManagerMode: bool,
    inPrivateLiquidationMode: bool,
    maxGasPrice: nat,
    allWhitelistedTokens: seq<Addr>
  )

  /** A leveraged position. Every field is an unsigned 128-bit integer, so a
      negative realised profit cannot be recorded. */
  datatype Position = Position(
    size: nat,
    collateral: nat,
    averagePrice: nat,
    entryFundingRate: nat,
    reserveAmount: nat,
    realisedPnl: nat,
    lastIncreasedTime: nat
  )

  /** `Key<T, U, V, W>`: four ordered key parts. */
  datatype Key<T, U, V, W> = Key(key1: T, key2: U, key3: V, key4: W)

  /** A position is keyed by (account, collateral token, index token, is long). */
  type PositionKey = Key<Addr, Addr, Addr, bool>

  /** `Key::new`: stores its arguments unchanged, in order. */
  function NewKey<T, U, V, W>(k1: T, k2: U, k3: V, k4: W): (k: Key<T, U, V, W>)
    ensures k.key1 == k1 && k.key2 == k2 && k.key3 == k3 && k.key4 == k4
  {
    Key(k1, k2, k3, k4)
  }

  /** `NewKey` is injective: two positions share a key only when all four parts agree. */
  lemma NewKeyInjective<T, U, V, W>(a1: T, a2: U, a3: V, a4: W, b1: T, b2: U, b3: V, b4: W)
    requires NewKey(a1, a2, a3, a4) == NewKey(b1, b2, b3, b4)
    ensures a1 == b1 && a2 == b2 && a3 == b3 && a4 == b4
  {
    var k := NewKey(a1, a2, a3, a4);
    assert k.key1 == a1 && k.key1 == b1;
  }

  /** `Key::as_bytes`. The serialiser is a foreign library: its outcome is the
      parameter `serialized` (`None` when it fails). `show1` and `show2` are the
      `Display` renderings of the first two key parts. */
  function AsBytes<T, U, V, W>(k: Key<T, U, V, W>, serialized: Option<seq<bv8>>,
                               show1: T -> string, show2: U -> string): (r: Result<seq<bv8>>)
    ensures r.Ok? <==> serialized.Some?
    ensures r.Ok? ==> r.value == serialized.value
    ensures r.Fail? ==> r.failure == Err(SerializationFailed(show1(k.key1), show2(k.key2)))
  {
    match serialized
    case Some(bytes) => Ok(bytes)
    case None => Fail(Err(SerializationFailed(show1(k.key1), show2(k.key2))))
  }

  /** The message "key_1: `..`, key_2: `..`!" of a failed serialisation. */
  function KeyDescription(part1: string, part2: string): string {
    "key_1: `" + part1 + "`, key_2: `" + part2 + "`!"
  }

  /** `Key::as_bytes_std`: the same, with the chain library's serialisation error
      naming the first two key parts. */
  function AsBytesStd<T, U, V, W>(k: Key<T, U, V, W>, serialized: Option<seq<bv8>>,
                                  show1: T -> string, show2: U -> string): (r: Result<seq<bv8>>)
    ensures r.Ok? <==> serialized.Some?
    ensures r.Ok? ==> r.value == serialized.value
    ensures r.Fail? ==> r.failure == Err(Std(SerializeErr("Struct", KeyDescription(show1(k.key1), show2(k.key2)))))
  {
    match serialized
    case Some(bytes) => Ok(bytes)
    case None =>
      Fail(Err(Std(SerializeErr("Struct", KeyDescription(show1(k.key1), show2(k.key2))))))
  }

  /** `Key::from_bytes`. The deserialiser's outcome is the parameter `decoded`. */
  function FromBytes<T, U, V, W>(decoded: Option<Key<T, U, V, W>>): (r: Result<Key<T, U, V, W>>)
    ensures r.Ok? <==> decoded.Some?
    ensures r.Ok? ==> r.value == decoded.value
    ensures r.Fail? ==> r.failure == Err(DeserializationFailed)
  {
    match decoded
    case Some(k) => Ok(k)
    case None => Fail(Err(DeserializationFailed))
  }

  // Storage namespaces of the singleton items and maps.
  const GOV_NAMESPACE := "gov"
  const ADDRESSES_NAMESPACE := "addresses"
  const STATE_VARIABLES_NAMESPACE := "state_variables"
  const IS_INITIALIZED_NAMESPACE := "is_initialized"
  const IS_SWAP_ENABLED_NAMESPACE := "isSwapEnabled"
  const IS_LEVERAGE_ENABLED_NAMESPACE := "isLeverageEnabled"
  /** Quirk: both router maps are declared over the namespace "approved_routers1",
      so they are one map; the model keeps a single field for them. */
  const APPROVED_ROUTERS1_NAMESPACE := "approved_routers1"
  const APPROVED_ROUTERS2_NAMESPACE := "approved_routers1"

  // Values `instantiate` stores, as the comments beside the items record them.
  const INITIAL_IS_INITIALIZED := false
  const INITIAL_IS_SWAP_ENABLED := true
  const INITIAL_IS_LEVERAGE_ENABLED := true
}

=== FILE: vault_math.dfy ===
/** The arithmetic of the vault contract (vault/src/contract.rs): unit
    conversions, profit and loss of a position, average prices, funding, swap
    fees, the bounds the governance setters check, and the arithmetic of
    `reduce_collateral` and the read-only queries.

    Each function takes the configuration values the contract loads from
    storage as parameters; the `Contract` module does the loading, in the
    contract's order. A `u128` subtraction below zero and a division by zero
    make the call fail (`Sub`, `Div`); growth past 2^128 is not modelled. */
module VaultMath {
  import opened Errors
  import opened Outcomes
  import opened State

  const BASIS_POINTS_DIVISOR: nat := 10000
  const FUNDING_RATE_PRECISION: nat := 1000000
  const PRICE_PRECISION: nat := 1000000000000000000000000
  const MIN_LEVERAGE: nat := 10000
  const USDG_DECIMALS: nat := 18
  const MAX_FEE_BASIS_POINTS: nat := 500
  const MAX_LIQUIDATION_FEE_USD: nat := 10000000000000000000000000000000
  const MIN_FUNDING_RATE_INTERVAL: nat := 3600
  const MAX_FUNDING_RATE_FACTOR: nat := 10000

  /** The contract has no price oracle: `get_max_price` and `get_min_price`
      return 1 for every token. */
  const STUB_PRICE: nat := 1

  // ---------------------------------------------------------------------------
  // Powers of ten and `adjust_for_decimals`

  function Pow10(n: nat): (p: nat)
    ensures p >= 1
  {
    if n == 0 then 1 else 10 * Pow10(n - 1)
  }

  lemma {:induction false} Pow10Add(a: nat, b: nat)
    ensures Pow10(a + b) == Pow10(a) * Pow10(b)
    decreases b
  {
    if b > 0 {
      Pow10Add(a, b - 1);
      calc {
        Pow10(a + b);
        10 * Pow10(a + b - 1);
        10 * (Pow10(a) * Pow10(b - 1));
        Pow10(a) * (10 * Pow10(b - 1));
        Pow10(a) * Pow10(b);
      }
    }
  }

  lemma {:induction false} Pow10StrictlyIncreasing(a: nat, b: nat)
    requires a < b
    ensures Pow10(a) < Pow10(b)
    decreases b - a
  {
    if a + 1 < b {
      Pow10StrictlyIncreasing(a + 1, b);
    }
  }

  /** The truncated quotient `10^mul / 10^div` that `adjust_for_decimals`
      multiplies by: a power of ten going up, zero going down. */
  lemma PowerQuotient(decimalsDiv: nat, decimalsMul: nat)
    ensures decimalsMul >= decimalsDiv ==>
      Pow10(decimalsMul) / Pow10(decimalsDiv) == Pow10(decimalsMul - decimalsDiv)
    ensures decimalsMul < decimalsDiv ==> Pow10(decimalsMul) / Pow10(decimalsDiv) == 0
  {
    var up, down := Pow10(decimalsMul), Pow10(decimalsDiv);
    if decimalsMul >= decimalsDiv {
      var q := Pow10(decimalsMul - decimalsDiv);
      Pow10Add(decimalsDiv, decimalsMul - decimalsDiv);
      DivideExact(up, down, q);
    } else {
      Pow10StrictlyIncreasing(decimalsMul, decimalsDiv);
      SmallQuotient(up, down);
    }
  }

  lemma SmallQuotient(n: nat, d: nat)
    requires n < d
    ensures n / d == 0
  {
  }

  lemma DivideExact(n: nat, d: nat, q: nat)
    requires d > 0 && n == d * q
    ensures n / d == q
  {
    var r := n / d;
    assert n == d * r + n % d;
    if q > r {
      MulAtLeast(d, q - r);
    }
  }

  lemma {:induction false} MulAtLeast(d: nat, k: nat)
    requires k >= 1
    ensures d * k >= d
    decreases k
  {
    if k > 1 {
      MulAtLeast(d, k - 1);
      assert d * k == d * (k - 1) + d;
    }
  }

  lemma DivNotLarger(n: nat, d: nat)
    requires d > 0
    ensures n / d <= n
  {
    var r := n / d;
    assert n == d * r + n % d;
    if r > 0 {
      MulAtLeast(r, d);
      assert d * r == r * d;
    }
  }

  /** `adjust_for_decimals` with the two decimal counts already looked up:
      `amount * (10^decimalsMul / 10^decimalsDiv)`, the quotient truncated first. */
  function AdjustForDecimals(amount: nat, decimalsDiv: nat, decimalsMul: nat): (r: nat)
    ensures decimalsMul >= decimalsDiv ==> r == amount * Pow10(decimalsMul - decimalsDiv)
    ensures decimalsMul < decimalsDiv ==> r == 0
  {
    PowerQuotient(decimalsDiv, decimalsMul);
    amount * (Pow10(decimalsMul) / Pow10(decimalsDiv))
  }

  /** Scaling up and back down is the identity only for equal decimals; any
      other round trip loses everything, because the downward step is 0. */
  lemma AdjustForDecimalsRoundTrip(amount: nat, d1: nat, d2: nat)
    ensures AdjustForDecimals(AdjustForDecimals(amount, d1, d2), d2, d1)
            == if d1 == d2 then amount else 0
  {
  }

  /** Scaling up never decreases an amount. */
  lemma AdjustForDecimalsUpNotSmaller(amount: nat, decimalsDiv: nat, decimalsMul: nat)
    requires decimalsDiv <= decimalsMul
    ensures amount <= AdjustForDecimals(amount, decimalsDiv, decimalsMul)
  {
    var p := Pow10(decimalsMul - decimalsDiv);
    assert amount * p == amount + amount * (p - 1);
  }

  // ---------------------------------------------------------------------------
  // USD and token amounts

  /** `usd_to_token` once the token's decimals are loaded:
      `usd * (10^decimals / price)`; a zero price with a non-zero amount
      divides by zero. */
  function UsdToToken(usdAmount: nat, decimals: nat, price: nat): (r: Result<nat>)
    ensures r.Ok? <==> (usdAmount == 0 || price != 0)
    ensures r.Fail? ==> r.failure == Abort(DivisionByZero)
    ensures usdAmount == 0 ==> r == Ok(0)
    ensures r.Ok? && price != 0 ==> r.value * price <= usdAmount * Pow10(decimals)
    ensures price == 1 ==> r == Ok(usdAmount * Pow10(decimals))
  {
    if usdAmount == 0 then Ok(0)
    else
      var q :- Div(Pow10(decimals), price);
      TruncatedScaleBelow(usdAmount, q, price, Pow10(decimals));
      Ok(usdAmount * q)
  }

  lemma TruncatedScaleBelow(a: nat, q: nat, d: nat, n: nat)
    requires d > 0 && q * d <= n
    ensures a * q * d <= a * n
  {
    assert a * q * d == a * (q * d);
    MulLeftMonotonic(a, q * d, n);
  }

  lemma MulLeftMonotonic(a: nat, x: nat, y: nat)
    requires x <= y
    ensures a * x <= a * y
  {
    assert a * y == a * x + a * (y - x);
  }

  /** `usd_to_token_min` once the decimals are loaded: the stub price 1 makes
      it an exact scaling by `10^decimals`. */
  function UsdToTokenMin(usdAmount: nat, decimals: nat): (r: Result<nat>)
    ensures r == Ok(usdAmount * Pow10(decimals))
  {
    if usdAmount == 0 then Ok(0) else UsdToToken(usdAmount, decimals, STUB_PRICE)
  }

  /** `token_to_usd_min` once the decimals are loaded. Its price is hard-coded
      to 0, so every token amount is worth 0 USD. */
  function TokenToUsdMin(tokenAmount: nat, decimals: nat): (r: nat)
    ensures r == 0
  {
    if tokenAmount == 0 then 0
    else
      var worth := tokenAmount * 0;   // the hard-coded price
      assert worth == 0;
      worth / Pow10(decimals)
  }

  // ---------------------------------------------------------------------------
  // Profit and loss of a position

  /** `(has_profit, delta)` as `get_delta` returns it. */
  datatype Delta = Delta(hasProfit: bool, delta: nat)

  function PriceDistance(a: nat, b: nat): (d: nat)
    ensures d == if a > b then a - b else b - a
  {
    if a > b then a - b else b - a
  }

  /** The price `get_delta` marks a position at: 0 for a long (hard-coded) and
      `get_max_price`, i.e. 1, for a short. */
  function DeltaMarkPrice(isLong: bool): (p: nat)
    ensures p == if isLong then 0 else STUB_PRICE
  {
    if isLong then 0 else STUB_PRICE
  }

  /** Whether `get_delta` is inside the minimum-profit window: the block time
      is not past `last_increased_time + min_profit_time`. */
  predicate InMinProfitWindow(lastIncreasedTime: nat, now: nat, minProfitTime: nat) {
    !(now > lastIncreasedTime + minProfitTime)
  }

  /** The unsuppressed profit or loss: the floor of
      `size * |average_price - price| / average_price`. */
  function RawDelta(size: nat, averagePrice: nat, price: nat): (r: nat)
    requires averagePrice != 0
    ensures r * averagePrice <= size * PriceDistance(averagePrice, price) < (r + 1) * averagePrice
  {
    size * PriceDistance(averagePrice, price) / averagePrice
  }

  /** `get_delta` with the configuration loaded and the mark price given. A
      profit no larger than `min_profit_bps` of the size is reported as 0 inside
      the minimum-profit window; everything else is the raw delta. */
  function GetDelta(size: nat, averagePrice: nat, isLong: bool, price: nat,
                    lastIncreasedTime: nat, now: nat, minProfitTime: nat,
                    minProfitBasisPoints: nat): (r: Result<Delta>)
    ensures r.Ok? <==> averagePrice != 0
    ensures r.Fail? ==> r.failure == Abort(DivisionByZero)
    ensures r.Ok? ==> r.value.hasProfit == if isLong then price > averagePrice else averagePrice > price
    // The delta is either suppressed to 0 or the raw delta ...
    ensures r.Ok? ==> r.value.delta == 0 || r.value.delta == RawDelta(size, averagePrice, price)
    // ... it is suppressed only for a small profit inside the window ...
    ensures r.Ok? && r.value.delta != RawDelta(size, averagePrice, price) ==>
      r.value.hasProfit && InMinProfitWindow(lastIncreasedTime, now, minProfitTime)
      && RawDelta(size, averagePrice, price) * BASIS_POINTS_DIVISOR <= size * minProfitBasisPoints
    // ... and always in that case.
    ensures r.Ok? && r.value.hasProfit && InMinProfitWindow(lastIncreasedTime, now, minProfitTime)
            && RawDelta(size, averagePrice, price) * BASIS_POINTS_DIVISOR <= size * minProfitBasisPoints
            ==> r.value.delta == 0
  {
    var delta :- Div(size * PriceDistance(averagePrice, price), averagePrice);
    var hasProfit := if isLong then price > averagePrice else averagePrice > price;
    var minBps := if now > lastIncreasedTime + minProfitTime then 0 else minProfitBasisPoints;
    var adjusted := if hasProfit && delta * BASIS_POINTS_DIVISOR <= size * minBps then 0 else delta;
    Ok(Delta(hasProfit, adjusted))
  }

  /** At the hard-coded mark price 0 every long shows a loss of its whole size. */
  lemma LongDeltaAtMarkPrice(size: nat, averagePrice: nat, lastIncreasedTime: nat, now: nat,
                             minProfitTime: nat, minProfitBasisPoints: nat)
    requires averagePrice != 0
    ensures GetDelta(size, averagePrice, true, DeltaMarkPrice(true), lastIncreasedTime, now,
                     minProfitTime, minProfitBasisPoints) == Ok(Delta(false, size))
  {
    DivideExact(size * averagePrice, averagePrice, size);
  }

  /** The loss of a long (mark price at or below the average price) never
      exceeds its size. */
  lemma LongLossBoundedBySize(size: nat, averagePrice: nat, price: nat, lastIncreasedTime: nat,
                              now: nat, minProfitTime: nat, minProfitBasisPoints: nat)
    requires averagePrice != 0 && price <= averagePrice
    ensures var r := GetDelta(size, averagePrice, true, price, lastIncreasedTime, now,
                              minProfitTime, minProfitBasisPoints);
            r.Ok? && !r.value.hasProfit && r.value.delta <= size
  {
    var r := GetDelta(size, averagePrice, true, price, lastIncreasedTime, now,
                      minProfitTime, minProfitBasisPoints);
    var d := PriceDistance(averagePrice, price);
    MulLeftMonotonic(size, d, averagePrice);
    assert r.value.delta * averagePrice <= size * averagePrice;
    DivisionBound(r.value.delta, averagePrice, size);
  }

  lemma MulStrictCancel(x: nat, y: nat, d: nat)
    requires x * d < y * d
    ensures x < y
  {
  }

  lemma DivisionBound(x: nat, d: nat, y: nat)
    requires d > 0 && x * d <= y * d
    ensures x <= y
  {
  }

  // ---------------------------------------------------------------------------
  // Average prices

  /** The divisor of `get_next_average_price`: the new size plus the delta for
      a profitable long or a losing short, minus the delta otherwise. */
  function NextAverageDivisor(nextSize: nat, isLong: bool, d: Delta): (r: Result<nat>)
    ensures isLong == d.hasProfit ==> r == Ok(nextSize + d.delta)
    ensures isLong != d.hasProfit ==> r.Ok? == (d.delta <= nextSize)
    ensures isLong != d.hasProfit && r.Ok? ==> r.value + d.delta == nextSize
  {
    if isLong == d.hasProfit then Ok(nextSize + d.delta) else Sub(nextSize, d.delta)
  }

  /** `get_next_average_price` given the position's `get_delta` result `d`:
      `next_price * next_size / divisor` with `next_size = size + size_delta`. */
  function GetNextAveragePrice(size: nat, isLong: bool, nextPrice: nat, sizeDelta: nat,
                               d: Delta): (r: Result<nat>)
    ensures r.Ok? <==> (var v := NextAverageDivisor(size + sizeDelta, isLong, d); v.Ok? && v.value != 0)
    ensures r.Ok? ==>
      var divisor := NextAverageDivisor(size + sizeDelta, isLong, d).value;
      r.value * divisor <= nextPrice * (size + sizeDelta) < (r.value + 1) * divisor
    ensures d.delta == 0 && size + sizeDelta > 0 ==> r == Ok(nextPrice)
  {
    var nextSize := size + sizeDelta;
    var divisor :- NextAverageDivisor(nextSize, isLong, d);
    var result :- Div(nextPrice * nextSize, divisor);
    assert d.delta == 0 ==> result == nextPrice by {
      if d.delta == 0 { DivideExact(nextPrice * nextSize, nextSize, nextPrice); }
    }
    Ok(result)
  }

  /** The average moves away from the new price in the position's favour: a
      profitable long or a losing short averages at or below the new price,
      a losing long or a profitable short at or above it. */
  lemma NextAveragePriceDirection(size: nat, isLong: bool, nextPrice: nat, sizeDelta: nat, d: Delta)
    requires GetNextAveragePrice(size, isLong, nextPrice, sizeDelta, d).Ok?
    ensures isLong == d.hasProfit ==> GetNextAveragePrice(size, isLong, nextPrice, sizeDelta, d).value <= nextPrice
    ensures isLong != d.hasProfit ==> GetNextAveragePrice(size, isLong, nextPrice, sizeDelta, d).value >= nextPrice
  {
    var n := size + sizeDelta;
    var v := GetNextAveragePrice(size, isLong, nextPrice, sizeDelta, d).value;
    var divisor := NextAverageDivisor(n, isLong, d).value;
    if isLong == d.hasProfit {
      MulLeftMonotonic(nextPrice, n, divisor);
      assert v * divisor <= nextPrice * divisor by {
        assert nextPrice * n == n * nextPrice;
        assert nextPrice * divisor == divisor * nextPrice;
      }
      DivisionBound(v, divisor, nextPrice);
    } else {
      MulLeftMonotonic(v + 1, divisor, n);
      assert nextPrice * n < (v + 1) * n;
      if v + 1 <= nextPrice {
        MulLeftMonotonic(n, v + 1, nextPrice);
      }
    }
  }

  /** At the new price 0 that a short increase uses, a next average price
      that can be computed at all is 0. */
  lemma NextAveragePriceAtZero(size: nat, isLong: bool, sizeDelta: nat, d: Delta)
    requires GetNextAveragePrice(size, isLong, 0, sizeDelta, d).Ok?
    ensures GetNextAveragePrice(size, isLong, 0, sizeDelta, d).value == 0
  {
  }

  /** A short is marked at price 1, so its profit stays below its size and
      the next average price at the new price 0 can always be computed for
      a non-empty position. */
  lemma ShortNextAveragePriceDefined(size: nat, averagePrice: nat, sizeDelta: nat, lastIncreasedTime: nat,
                                     now: nat, minProfitTime: nat, minProfitBasisPoints: nat)
    requires size > 0 && averagePrice != 0
    ensures var d := GetDelta(size, averagePrice, false, DeltaMarkPrice(false), lastIncreasedTime, now,
                              minProfitTime, minProfitBasisPoints);
            GetNextAveragePrice(size, false, 0, sizeDelta, d.value).Ok?
  {
    var d := GetDelta(size, averagePrice, false, DeltaMarkPrice(false), lastIncreasedTime, now,
                      minProfitTime, minProfitBasisPoints).value;
    if d.hasProfit {
      var raw := RawDelta(size, averagePrice, STUB_PRICE);
      assert raw * averagePrice < size * averagePrice by {
        MulLeftMonotonic(size, averagePrice - STUB_PRICE, averagePrice);
        assert size * (averagePrice - STUB_PRICE) < size * averagePrice;
        assert averagePrice * size == size * averagePrice;
      }
      MulStrictCancel(raw, size, averagePrice);
      assert d.delta < size;
    }
  }

  /** A long marked at price 0 shows a loss of its whole size; priced again
      at 1, its next average is the new size over the size added. */
  lemma LongNextAveragePrice(size: nat, sizeDelta: nat)
    requires sizeDelta > 0
    ensures GetNextAveragePrice(size, true, STUB_PRICE, sizeDelta, Delta(false, size))
            == Ok((size + sizeDelta) / sizeDelta)
    ensures (size + sizeDelta) / sizeDelta >= 1
  {
  }

  /** The average price `try_increase_position` saves for a position of
      positive size increased by `sizeDelta` at its hard-coded prices (1 for
      a long, 0 for a short). */
  function IncreasedAveragePrice(averagePrice: nat, size: nat, isLong: bool, sizeDelta: nat): nat {
    if sizeDelta == 0 then averagePrice
    else if isLong then (size + sizeDelta) / sizeDelta
    else 0
  }

  /** The divisor of `get_next_global_short_average_price`: the new size
      minus the raw delta when the shorts are in profit (the average price
      above the new price), plus the raw delta otherwise. */
  function GlobalShortDivisor(size: nat, averagePrice: nat, nextPrice: nat, sizeDelta: nat): (r: Result<nat>)
    requires averagePrice != 0
    ensures averagePrice <= nextPrice ==> r == Ok(size + sizeDelta + RawDelta(size, averagePrice, nextPrice))
    ensures averagePrice > nextPrice ==> r.Ok? == (RawDelta(size, averagePrice, nextPrice) <= size + sizeDelta)
    ensures averagePrice > nextPrice && r.Ok? ==> r.value + RawDelta(size, averagePrice, nextPrice) == size + sizeDelta
  {
    var delta := RawDelta(size, averagePrice, nextPrice);
    if averagePrice > nextPrice then Sub(size + sizeDelta, delta) else Ok(size + sizeDelta + delta)
  }

  /** `get_next_global_short_average_price` with the global short size and
      average price loaded: `next_price * next_size / divisor`. */
  function GetNextGlobalShortAveragePrice(size: nat, averagePrice: nat, nextPrice: nat,
                                          sizeDelta: nat): (r: Result<nat>)
    ensures averagePrice == 0 ==> r == Fail(Abort(DivisionByZero))
    ensures r.Ok? <==> averagePrice != 0
                       && (var v := GlobalShortDivisor(size, averagePrice, nextPrice, sizeDelta);
                           v.Ok? && v.value != 0)
    ensures r.Ok? ==>
      var divisor := GlobalShortDivisor(size, averagePrice, nextPrice, sizeDelta).value;
      r.value * divisor <= nextPrice * (size + sizeDelta) < (r.value + 1) * divisor
  {
    var delta :- Div(size * PriceDistance(averagePrice, nextPrice), averagePrice);
    var hasProfit := averagePrice > nextPrice;
    var nextSize := size + sizeDelta;
    var divisor :- if hasProfit then Sub(nextSize, delta) else Ok(nextSize + delta);
    assert Ok(divisor) == GlobalShortDivisor(size, averagePrice, nextPrice, sizeDelta);
    Div(nextPrice * nextSize, divisor)
  }

  /** At the new price 0 that every short increase uses, a non-empty global
      short book either fails (no average price, or no size added) or its
      average becomes 0. */
  lemma GlobalShortAverageAtZeroPrice(size: nat, averagePrice: nat, sizeDelta: nat)
    ensures var r := GetNextGlobalShortAveragePrice(size, averagePrice, 0, sizeDelta);
            r.Ok? <==> averagePrice != 0 && sizeDelta != 0
    ensures var r := GetNextGlobalShortAveragePrice(size, averagePrice, 0, sizeDelta);
            r.Ok? ==> r.value == 0
  {
    if averagePrice != 0 {
      DivideExact(size * averagePrice, averagePrice, size);
      assert size * PriceDistance(averagePrice, 0) / averagePrice == size;
    }
  }

  // ---------------------------------------------------------------------------
  // Funding

  /** The `intervals` of `get_next_funding_rate`. Quirk: the method chain
      subtracts `last / interval` from `now`, rather than dividing the time
      elapsed by the interval, so the count is at least the time elapsed. */
  function FundingIntervals(lastFundingTime: nat, fundingInterval: nat, now: nat): (r: Result<nat>)
    ensures fundingInterval == 0 ==> r == Fail(Abort(DivisionByZero))
    ensures fundingInterval != 0 && lastFundingTime <= now ==> r.Ok? && r.value <= now
    ensures fundingInterval == 1 && lastFundingTime <= now ==> r == Ok(now - lastFundingTime)
    ensures fundingInterval != 0 && lastFundingTime <= now ==> r.value >= now - lastFundingTime
  {
    var q :- Div(lastFundingTime, fundingInterval);
    assert q <= lastFundingTime by { DivNotLarger(lastFundingTime, fundingInterval); }
    assert fundingInterval == 1 ==> q == lastFundingTime by {
      if fundingInterval == 1 { DivideExact(lastFundingTime, 1, lastFundingTime); }
    }
    Sub(now, q)
  }

  /** The funding rate `factor * reserved * intervals / pool` for a non-empty pool. */
  function FundingRate(factor: nat, reserved: nat, intervals: nat, pool: nat): (r: nat)
    requires pool > 0
    ensures r * pool <= factor * reserved * intervals
  {
    factor * reserved * intervals / pool
  }

  /** While the reserved amount does not exceed the pool, the funding rate is
      at most `factor` per interval. */
  lemma FundingRateBounded(factor: nat, reserved: nat, intervals: nat, pool: nat)
    requires pool > 0 && reserved <= pool
    ensures FundingRate(factor, reserved, intervals, pool) <= factor * intervals
  {
    var r := FundingRate(factor, reserved, intervals, pool);
    var fi := factor * intervals;
    assert factor * reserved * intervals == fi * reserved;
    MulLeftMonotonic(fi, reserved, pool);
    assert r * pool <= fi * pool by { assert fi * pool == pool * fi; }
    DivisionBound(r, pool, fi);
  }

  /** The time `update_cumulative_funding_rate` records: the block time rounded
      down to a whole number of funding intervals. */
  function FundingBucket(now: nat, fundingInterval: nat): (r: Result<nat>)
    ensures r.Ok? <==> fundingInterval != 0
    ensures r.Ok? ==> r.value <= now < r.value + fundingInterval
    ensures r.Ok? ==> r.value % fundingInterval == 0
  {
    var q :- Div(now, fundingInterval);
    assert (q * fundingInterval) % fundingInterval == 0 by {
      ModOfMultiple(q, fundingInterval);
    }
    Ok(q * fundingInterval)
  }

  lemma ModOfMultiple(q: nat, d: nat)
    requires d > 0
    ensures (q * d) % d == 0
  {
    DivideExact(q * d, d, q);
  }

  // ---------------------------------------------------------------------------
  // Swap fees

  /** `_collect_swap_fees` arithmetic: `after = (amount * 10000 - fee_bps) / 10000`
      and `fee = amount - after`. Quirk: the fee is `fee_bps` basis points of a
      single unit, not of the amount. */
  function SwapAmountAfterFees(amount: nat, feeBasisPoints: nat): (r: Result<nat>)
    ensures r.Ok? <==> feeBasisPoints <= amount * BASIS_POINTS_DIVISOR
    ensures r.Fail? ==> r.failure == Abort(Underflow)
    ensures r.Ok? ==> r.value <= amount
    ensures feeBasisPoints == 0 ==> r == Ok(amount)
    ensures 0 < feeBasisPoints <= BASIS_POINTS_DIVISOR && amount >= 1 ==> r == Ok(amount - 1)
  {
    var scaled :- Sub(amount * BASIS_POINTS_DIVISOR, feeBasisPoints);
    var after := scaled / BASIS_POINTS_DIVISOR;
    assert 0 < feeBasisPoints <= BASIS_POINTS_DIVISOR && amount >= 1 ==> after == amount - 1 by {
      if 0 < feeBasisPoints <= BASIS_POINTS_DIVISOR && amount >= 1 {
        assert scaled == (amount - 1) * BASIS_POINTS_DIVISOR + (BASIS_POINTS_DIVISOR - feeBasisPoints);
      }
    }
    Ok(after)
  }

  // ---------------------------------------------------------------------------
  // Validators and setter bounds

  /** `validate_position`: aborts unless the collateral is at most the size
      (which for an empty position means no collateral). */
  function ValidatePosition(size: nat, collateral: nat): (r: Result<()>)
    ensures r.Ok? <==> collateral <= size
    ensures size == 0 && r.Fail? ==> r.failure == Abort(UnwrapErr(CodeError(39)))
    ensures size != 0 && r.Fail? ==> r.failure == Abort(UnwrapErr(CodeError(40)))
  {
    if size == 0 then Unwrap(Validate(collateral == 0, 39))
    else Unwrap(Validate(size >= collateral, 40))
  }

  /** The bound checks of `try_set_fees`, codes 3 to 9. Quirk: the liquidation
      fee (a USD amount) is held to `MAX_FEE_BASIS_POINTS`, not to
      `MAX_LIQUIDATION_FEE_USD`. */
  function ValidateFees(taxBasisPoints: nat, stableTaxBasisPoints: nat, mintBurnFeeBasisPoints: nat,
                        swapFeeBasisPoints: nat, stableSwapFeeBasisPoints: nat,
                        marginFeeBasisPoints: nat, liquidationFeeUsd: nat): (r: Result<()>)
    ensures r.Ok? <==>
      taxBasisPoints <= MAX_FEE_BASIS_POINTS && stableTaxBasisPoints <= MAX_FEE_BASIS_POINTS
      && mintBurnFeeBasisPoints <= MAX_FEE_BASIS_POINTS && swapFeeBasisPoints <= MAX_FEE_BASIS_POINTS
      && stableSwapFeeBasisPoints <= MAX_FEE_BASIS_POINTS && marginFeeBasisPoints <= MAX_FEE_BASIS_POINTS
      && liquidationFeeUsd <= MAX_FEE_BASIS_POINTS
    ensures taxBasisPoints > MAX_FEE_BASIS_POINTS ==> r == Fail(Err(CodeError(3)))
  {
    var _ :- Validate(taxBasisPoints <= MAX_FEE_BASIS_POINTS, 3);
    var _ :- Validate(stableTaxBasisPoints <= MAX_FEE_BASIS_POINTS, 4);
    var _ :- Validate(mintBurnFeeBasisPoints <= MAX_FEE_BASIS_POINTS, 5);
    var _ :- Validate(swapFeeBasisPoints <= MAX_FEE_BASIS_POINTS, 6);
    var _ :- Validate(stableSwapFeeBasisPoints <= MAX_FEE_BASIS_POINTS, 7);
    var _ :- Validate(marginFeeBasisPoints <= MAX_FEE_BASIS_POINTS, 8);
    Validate(liquidationFeeUsd <= MAX_FEE_BASIS_POINTS, 9)
  }

  /** Because of that quirk, the documented maximum liquidation fee of 100 USD
      is refused with code 9 whatever the other fees are. */
  lemma MaxLiquidationFeeRefused(taxBasisPoints: nat, stableTaxBasisPoints: nat,
                                 mintBurnFeeBasisPoints: nat, swapFeeBasisPoints: nat,
                                 stableSwapFeeBasisPoints: nat, marginFeeBasisPoints: nat)
    requires taxBasisPoints <= MAX_FEE_BASIS_POINTS && stableTaxBasisPoints <= MAX_FEE_BASIS_POINTS
    requires mintBurnFeeBasisPoints <= MAX_FEE_BASIS_POINTS && swapFeeBasisPoints <= MAX_FEE_BASIS_POINTS
    requires stableSwapFeeBasisPoints <= MAX_FEE_BASIS_POINTS && marginFeeBasisPoints <= MAX_FEE_BASIS_POINTS
    ensures ValidateFees(taxBasisPoints, stableTaxBasisPoints, mintBurnFeeBasisPoints, swapFeeBasisPoints,
                         stableSwapFeeBasisPoints, marginFeeBasisPoints, MAX_LIQUIDATION_FEE_USD)
            == Fail(Err(CodeError(9)))
  {
  }

  /** The bound checks of `try_set_funding_rate`, codes 10 to 12. Quirk: the
      interval is held AT MOST `MIN_FUNDING_RATE_INTERVAL`, so 0 passes. */
  function ValidateFundingRate(fundingInterval: nat, fundingRateFactor: nat,
                               stableFundingRateFactor: nat): (r: Result<()>)
    ensures r.Ok? <==> fundingInterval <= MIN_FUNDING_RATE_INTERVAL
                       && fundingRateFactor <= MAX_FUNDING_RATE_FACTOR
                       && stableFundingRateFactor <= MAX_FUNDING_RATE_FACTOR
    ensures fundingInterval > MIN_FUNDING_RATE_INTERVAL ==> r == Fail(Err(CodeError(10)))
  {
    var _ :- Validate(fundingInterval <= MIN_FUNDING_RATE_INTERVAL, 10);
    var _ :- Validate(fundingRateFactor <= MAX_FUNDING_RATE_FACTOR, 11);
    Validate(stableFundingRateFactor <= MAX_FUNDING_RATE_FACTOR, 12)
  }

  /** The bound check of `try_set_max_leverage`, code 2. */
  function ValidateMaxLeverage(maxLeverage: nat): (r: Result<()>)
    ensures r.Ok? <==> maxLeverage > MIN_LEVERAGE
    ensures r.Fail? ==> r.failure == Err(CodeError(2))
  {
    Validate(maxLeverage > MIN_LEVERAGE, 2)
  }

  // ---------------------------------------------------------------------------
  // reduce_collateral

  /** What `reduce_collateral` computes: the USD paid out, the payout after the
      margin fee, and the position as it would be after the reduction (the
      contract never saves that position). */
  datatype Reduction = Reduction(usdOut: nat, usdOutAfterFee: nat, position: Position)

  /** The share of a position's delta that a decrease of `sizeDelta` realises. */
  function AdjustedDelta(size: nat, sizeDelta: nat, delta: nat): (r: Result<nat>)
    ensures r.Ok? <==> size != 0
    ensures r.Ok? && sizeDelta <= size ==> r.value <= delta
  {
    var q :- Div(sizeDelta * delta, size);
    assert sizeDelta <= size ==> q <= delta by {
      if sizeDelta <= size {
        MulLeftMonotonic(delta, sizeDelta, size);
        assert q * size <= delta * size by {
          assert sizeDelta * delta == delta * sizeDelta;
        }
        DivisionBound(q, size, delta);
      }
    }
    Ok(q)
  }

  /** `amount * part / whole`: the share of `amount` that `part` of `whole`
      stands for, such as the reservation released by a partial decrease. */
  function ProportionalShare(amount: nat, part: nat, whole: nat): (r: nat)
    requires whole > 0 && part <= whole
    ensures r <= amount
    ensures part == whole ==> r == amount
    ensures part == 0 ==> r == 0
  {
    var q := amount * part / whole;
    assert q <= amount by {
      MulLeftMonotonic(amount, part, whole);
      assert q * whole <= amount * part;
      DivisionBound(q, whole, amount);
    }
    assert part == whole ==> q == amount by {
      if part == whole {
        assert amount * whole == whole * amount;
        DivideExact(amount * whole, whole, amount);
      }
    }
    q
  }

  /** The profit realised by a reduction, or 0. */
  function RealisedProfit(hasProfit: bool, adjustedDelta: nat): nat {
    if hasProfit then adjustedDelta else 0
  }

  /** The loss realised by a reduction, or 0. */
  function RealisedLoss(hasProfit: bool, adjustedDelta: nat): nat {
    if hasProfit then 0 else adjustedDelta
  }

  /** The arithmetic of `reduce_collateral` on the loaded position `p`, with
      the margin fee, the `get_delta` result and the requested deltas given.
      Every `-=` on the position aborts below zero. */
  function ReduceCollateralAmounts(p: Position, fee: nat, d: Delta, collateralDelta: nat,
                                   sizeDelta: nat): (r: Result<Reduction>)
    ensures p.size == 0 ==> r.Fail?
    // The payout after the fee never exceeds the payout before it.
    ensures r.Ok? ==> r.value.usdOutAfterFee <= r.value.usdOut
    ensures r.Ok? ==> r.value.usdOutAfterFee == if r.value.usdOut > fee then r.value.usdOut - fee else r.value.usdOut
    // Conservation: collateral plus payout plus fee moves only by the realised
    // profit or loss.
    ensures r.Ok? ==>
      var adjusted := AdjustedDelta(p.size, sizeDelta, d.delta).value;
      r.value.position.collateral + r.value.usdOutAfterFee + fee + RealisedLoss(d.hasProfit, adjusted)
        == p.collateral + RealisedProfit(d.hasProfit, adjusted)
    ensures r.Ok? ==>
      var adjusted := AdjustedDelta(p.size, sizeDelta, d.delta).value;
      r.value.position.realisedPnl + RealisedLoss(d.hasProfit, adjusted)
        == p.realisedPnl + RealisedProfit(d.hasProfit, adjusted)
    // A loss larger than the recorded profit cannot be represented.
    ensures p.size != 0 && !d.hasProfit && AdjustedDelta(p.size, sizeDelta, d.delta).value > p.realisedPnl
            ==> r.Fail?
    // A full close leaves no collateral.
    ensures r.Ok? && sizeDelta == p.size ==> r.value.position.collateral == 0
    // Nothing but collateral and pnl changes.
    ensures r.Ok? ==> r.value.position.(collateral := p.collateral, realisedPnl := p.realisedPnl) == p
  {
    var adjusted :- AdjustedDelta(p.size, sizeDelta, d.delta);
    var usdOut0: nat := if d.hasProfit && adjusted > 0 then adjusted else 0;
    var pnl0: nat := if d.hasProfit && adjusted > 0 then p.realisedPnl + adjusted else p.realisedPnl;
    var collateral1 :- if !d.hasProfit && adjusted > 0 then Sub(p.collateral, adjusted) else Ok(p.collateral);
    var pnl1 :- if !d.hasProfit && adjusted > 0 then Sub(pnl0, adjusted) else Ok(pnl0);
    var collateral2 :- if collateralDelta > 0 then Sub(collateral1, collateralDelta) else Ok(collateral1);
    var usdOut1 := usdOut0 + collateralDelta;
    var usdOut2 := if p.size == sizeDelta then usdOut1 + collateral2 else usdOut1;
    var collateral3 := if p.size == sizeDelta then 0 else collateral2;
    var collateral4 :- if usdOut2 > fee then Ok(collateral3) else Sub(collateral3, fee);
    var after := if usdOut2 > fee then usdOut2 - fee else usdOut2;
    Ok(Reduction(usdOut2, after, p.(collateral := collateral4, realisedPnl := pnl1)))
  }

  /** The first phase of a reduction: a profit of `adjusted` USD is added to
      the realised profit and owed to the trader; a loss is taken off the
      collateral and the realised profit. */
  function RealisedDelta(p: Position, hasProfit: bool, adjusted: nat): Result<(Position, nat)> {
    if hasProfit && adjusted > 0 then Ok((p.(realisedPnl := p.realisedPnl + adjusted), adjusted))
    else if adjusted > 0 then
      var collateral :- Sub(p.collateral, adjusted);
      var pnl :- Sub(p.realisedPnl, adjusted);
      Ok((p.(collateral := collateral, realisedPnl := pnl), 0))
    else Ok((p, 0))
  }

  /** The second phase of a reduction: the withdrawn collateral is owed, a
      full close owes the rest of it, and a payout not above the fee takes
      the fee from the collateral instead. */
  function SettledReduction(p: Position, usdOut: nat, fee: nat, collateralDelta: nat, sizeDelta: nat)
    : Result<Reduction>
  {
    var collateral :- Sub(p.collateral, collateralDelta);
    var paid := usdOut + collateralDelta + (if p.size == sizeDelta then collateral else 0);
    var left := if p.size == sizeDelta then 0 else collateral;
    var after :- if paid > fee then Ok(left) else Sub(left, fee);
    Ok(Reduction(paid, if paid > fee then paid - fee else paid, p.(collateral := after)))
  }

  /** A reduction is its two phases one after the other. */
  lemma ReductionInPhases(p: Position, fee: nat, d: Delta, collateralDelta: nat, sizeDelta: nat)
    requires AdjustedDelta(p.size, sizeDelta, d.delta).Ok?
    ensures var realised := RealisedDelta(p, d.hasProfit, AdjustedDelta(p.size, sizeDelta, d.delta).value);
            ReduceCollateralAmounts(p, fee, d, collateralDelta, sizeDelta)
            == if realised.Fail? then Fail(realised.failure)
               else SettledReduction(realised.value.0, realised.value.1, fee, collateralDelta, sizeDelta)
  {
  }

  /** A long is marked at price 0, so a decrease of `sizeDelta` realises a
      loss of exactly `sizeDelta`. The reduction goes through only when the
      collateral covers that loss plus the collateral withdrawn, and the
      recorded profit covers the loss (a `u128` cannot go below zero). */
  lemma LongReductionRealisesLoss(p: Position, collateralDelta: nat, sizeDelta: nat)
    requires p.size > 0
    ensures AdjustedDelta(p.size, sizeDelta, p.size) == Ok(sizeDelta)
    ensures ReduceCollateralAmounts(p, 0, Delta(false, p.size), collateralDelta, sizeDelta).Ok?
            ==> sizeDelta <= p.realisedPnl && sizeDelta + collateralDelta <= p.collateral
  {
    assert sizeDelta * p.size == p.size * sizeDelta;
    DivideExact(sizeDelta * p.size, p.size, sizeDelta);
  }

  // ---------------------------------------------------------------------------
  // Read-only queries

  /** `try_get_utilisation`: reserved per pool in millionths, 0 for an empty pool. */
  function Utilisation(poolAmount: nat, reservedAmount: nat): (r: nat)
    ensures poolAmount == 0 ==> r == 0
    ensures poolAmount > 0 ==> r * poolAmount <= reservedAmount * FUNDING_RATE_PRECISION
                                < (r + 1) * poolAmount
  {
    if poolAmount == 0 then 0 else reservedAmount * FUNDING_RATE_PRECISION / poolAmount
  }

  /** A pool that covers its reservations is at most fully utilised. */
  lemma UtilisationBounded(poolAmount: nat, reservedAmount: nat)
    requires reservedAmount <= poolAmount
    ensures Utilisation(poolAmount, reservedAmount) <= FUNDING_RATE_PRECISION
  {
    if poolAmount > 0 {
      var u := Utilisation(poolAmount, reservedAmount);
      MulLeftMonotonic(FUNDING_RATE_PRECISION, reservedAmount, poolAmount);
      assert u * poolAmount <= FUNDING_RATE_PRECISION * poolAmount by {
        assert reservedAmount * FUNDING_RATE_PRECISION == FUNDING_RATE_PRECISION * reservedAmount;
      }
      DivisionBound(u, poolAmount, FUNDING_RATE_PRECISION);
    }
  }

  /** `try_get_position_leverage`: size per collateral in basis points; a
      position without collateral aborts with code 37. */
  function PositionLeverage(size: nat, collateral: nat): (r: Result<nat>)
    ensures r.Ok? <==> collateral > 0
    ensures r.Fail? ==> r.failure == Abort(UnwrapErr(CodeError(37)))
    ensures r.Ok? ==> r.value * collateral <= size * BASIS_POINTS_DIVISOR < (r.value + 1) * collateral
  {
    var _ :- Unwrap(Validate(collateral > 0, 37));
    Div(size * BASIS_POINTS_DIVISOR, collateral)
  }

  /** A position that passes `validate_position` has leverage at least 1x. */
  lemma ValidPositionLeverageAtLeastOne(size: nat, collateral: nat)
    requires ValidatePosition(size, collateral).Ok? && collateral > 0
    ensures PositionLeverage(size, collateral).value >= MIN_LEVERAGE
  {
    var l := PositionLeverage(size, collateral).value;
    MulLeftMonotonic(BASIS_POINTS_DIVISOR, collateral, size);
    assert collateral * BASIS_POINTS_DIVISOR <= size * BASIS_POINTS_DIVISOR;
    if l + 1 <= MIN_LEVERAGE {
      MulLeftMonotonic(collateral, l + 1, MIN_LEVERAGE);
    }
  }

  /** `try_global_short_delta` with the global short size and average price
      loaded. Quirk: the delta multiplies the AVERAGE PRICE, not the size, by
      the price distance, so it is just that distance. */
  function GlobalShortDelta(size: nat, averagePrice: nat, nextPrice: nat): (r: Result<Delta>)
    ensures size == 0 ==> r == Ok(Delta(false, 0))
    ensures size != 0 ==> (r.Ok? <==> averagePrice != 0)
    ensures size != 0 && r.Ok? ==>
      r.value == Delta(averagePrice > nextPrice, PriceDistance(averagePrice, nextPrice))
  {
    if size == 0 then Ok(Delta(false, 0))
    else
      var d := PriceDistance(averagePrice, nextPrice);
      var delta :- Div(averagePrice * d, averagePrice);
      DivideExact(averagePrice * d, averagePrice, d);
      Ok(Delta(averagePrice > nextPrice, delta))
  }

  /** `try_get_redemption_collateral` for a non-stable token, given the
      guaranteed USD already converted to tokens: that amount plus the pool,
      minus what is reserved. */
  function RedemptionCollateral(guaranteedTokens: nat, poolAmount: nat, reservedAmount: nat): (r: Result<nat>)
    ensures r.Ok? <==> reservedAmount <= guaranteedTokens + poolAmount
    ensures r.Ok? ==> r.value + reservedAmount == guaranteedTokens + poolAmount
  {
    Sub(guaranteedTokens + poolAmount, reservedAmount)
  }
}

=== FILE: weights.dfy ===
/** Sums over the per-token maps of the vault. The configuration record keeps
    `total_token_weights` beside the per-token `TOKEN_WEIGHTS` map; the sum
    defined here is what that total is meant to equal. */
module Weights {

  /** The sum of the values of a finite map. */
  ghost function SumOfValues<K>(m: map<K, nat>): nat
    decreases |m|
  {
    if m == map[] then 0
    else
      var k :| k in m;
      m[k] + SumOfValues(m - {k})
  }

  /** Any key can be taken out first: the sum is that key's value plus the
      sum of the rest, whichever key the definition happens to pick. */
  lemma {:induction false} SumWithout<K>(m: map<K, nat>, k: K)
    requires k in m
    ensures SumOfValues(m) == m[k] + SumOfValues(m - {k})
    decreases |m|
  {
    var j :| j in m && SumOfValues(m) == m[j] + SumOfValues(m - {j});
    if j != k {
      var rest := m - {j};
      assert k in rest;
      SumWithout(rest, k);
      assert rest - {k} == (m - {k}) - {j};
      assert j in m - {k};
      SumWithout(m - {k}, j);
    }
  }

  /** Removing a key takes exactly its value off the sum. */
  lemma SumAfterRemove<K>(m: map<K, nat>, k: K)
    requires k in m
    ensures m[k] <= SumOfValues(m)
    ensures SumOfValues(m - {k}) == SumOfValues(m) - m[k]
  {
    SumWithout(m, k);
  }

  /** Overwriting the value of a present key moves the sum by the difference. */
  lemma SumAfterUpdate<K>(m: map<K, nat>, k: K, v: nat)
    requires k in m
    ensures SumOfValues(m[k := v]) + m[k] == SumOfValues(m) + v
  {
    SumWithout(m, k);
    SumWithout(m[k := v], k);
    assert m[k := v] - {k} == m - {k};
  }
}
